=== FILE: README.md ===
# jats-generator in Dafny

This project models the core of the jats-generator library, which turns an
article record into a JATS XML document. The document has two parts:

- **front matter:** journal metadata and article metadata, meaning the ids,
  categories, title, contributor groups, author notes, dates, permissions,
  abstract, keywords and funding;
- **back matter:** the additional-information section holding the
  competing-interest and ethics footnotes, then the supplementary-material
  section holding the data-availability section and its dataset citations.

The model is functional:

- An XML element is the datatype `Xml.Node`: tag, ordered attributes, text,
  tail and children.
- Every builder of `build.py` is a function from the article record to the
  nodes it appends.
- `ArticleXML`'s mutable build context (section, dataset, corresponding-author,
  affiliation and conflict counters, plus the numbered affiliations) is the
  value `Generate.Context`. Each builder takes a context and returns the
  updated one.

Modules:

| file | module | models |
|---|---|---|
| `seqs.dfy` | `Seqs` | `Option`, and an order-keeping filter (a list comprehension with an `if`) |
| `text.dfy` | `Text` | `strip`, `str(int)` and `zfill`, with read-back lemmas |
| `utils.dfy` | `Utils` | `tag_wrap` |
| `xml.dfy` | `Xml` | the slice of ElementTree the builders use |
| `article.dfy` | `ArticleData` | the article record and the parsed configuration |
| `build.dfy` | `Build` | `build.py` |
| `generate.dfy` | `Generate` | the build context, `get_aff_id`, sections, datasets, back matter and contributor groups of `generate.py` |
| `front.dfy` | `Front` | journal and article metadata, front matter, and the `ArticleXML` constructor with `build` |

Behaviour the proofs make explicit:

- **`compare_aff` is not transitive.** Two affiliations that compare equal can
  therefore be given different ids (`Generate.AffIdsNotCanonical`).
- **Competing-interest numbering.** Footnotes in the competing-interest group
  are numbered once per conflict statement (`Build.CompetingInterestFns`,
  `Build.ConflictEntriesAt`). A
  contributor's cross-reference is numbered once per contributor with a
  conflict, in contributor-group order (`Generate.GroupConflictXref`,
  `Generate.ConflictRidCountsContributors`). The two agree only while every
  contributor has at most one statement and the groups list the contributors in
  record order. The model keeps both numberings as written, and no lemma claims
  that they agree.
- **Author-note ids may skip numbers.** A corresponding author without an email
  still uses up a number (`Build.CorrespIdsMaySkip`).

## Model

| member | source | states |
|---|---|---|
| Text.StripNonEmptyIffNotBlank | jatsgenerator/build.py:336-343 | a stripped string is non-empty exactly when the string is not all whitespace |
| Text.RStripLStripNonEmptyIffNotBlank | jatsgenerator/build.py:375 | `rstrip().lstrip()` is non-empty exactly when the category is not blank |
| Text.ParseNatToString | jatsgenerator/build.py:446-449 | the decimal text written for a number reads back as that number |
| Text.NatToString | jatsgenerator/build.py:446-449 | a number's decimal text is non-empty, all digits, and starts with '0' only for zero |
| Text.NatToStringInjective | jatsgenerator/build.py:446-449 | different numbers have different decimal texts |
| Text.LeadingZerosValue | jatsgenerator/build.py:474-476 | leading zeros do not change the value of a digit string |
| Text.PrefixedNumberInjective | jatsgenerator/generate.py:110 | prefixed numeric ids (`s<n>`, `conf<n>`, `par-<n>`, `dataset<n>`, `cor<n>`) are equal only for equal numbers |
| Text.ZFill | jatsgenerator/build.py:474-476 | zero padding reaches the width, keeps the original digits as a suffix and pads only with '0' |
| Text.ZFillNatValue | jatsgenerator/build.py:472-478 | a zero-padded number is all digits, exactly as long as the width or the number's own digits if longer, and reads back as the number |
| Utils.TagWrap | jatsgenerator/utils.py:3-5 | the result is the opening tag, the content and the closing tag, with their exact lengths |
| Utils.UnwrapTagWrap | jatsgenerator/utils.py:3-5 | unwrapping a wrapped string gives back the content |
| Utils.TagWrapUnwrap | jatsgenerator/utils.py:3-5 | whatever unwraps is exactly the wrapping of what it unwraps to |
| Build.ConfIdInjective | jatsgenerator/build.py:30 | footnote ids `conf<n>` differ for different numbers |
| Build.ConflictEntries | jatsgenerator/build.py:27-29 | as many entries as statements across all contributors; none exactly when no contributor has a conflict; each belongs to its contributor |
| Build.ConflictEntriesAt | jatsgenerator/build.py:27-29 | statement `j` of contributor `i` is entry number (statements of contributors before `i`) + `j`: every statement once, contributor by contributor, then statement by statement |
| Build.CompetingInterestFns | jatsgenerator/build.py:21-61 | personal footnotes are numbered from 2 with a default statement and from 1 without; the default footnote `conf1` comes last and reads "The other authors declare that no competing interests exist." exactly when a personal statement exists |
| Build.CompetingInterestFnId | jatsgenerator/build.py:21-61 | every footnote carries the id of its number |
| Build.CompetingInterestIdsDistinct | jatsgenerator/build.py:21-61 | no two competing-interest footnotes share an id |
| Build.SetFnGroupCompetingInterest | jatsgenerator/build.py:15-61 | a competing-interest fn-group holding its title, then the footnotes |
| Build.SetFnGroupEthicsInformation | jatsgenerator/build.py:64-74 | an ethics fn-group with its title, then for each statement, in order, an `fn` of fn-type "other" whose paragraph is the statement |
| Build.EthicsFn | jatsgenerator/build.py:70-74 | an ethics footnote is exactly `<fn fn-type="other">` holding one paragraph with the statement, and nothing else |
| Build.EthicsRoundTrip | jatsgenerator/build.py:64-74 | reading each footnote's paragraph back from the ethics group gives the article's statements, in order |
| Build.SetName | jatsgenerator/build.py:77-85 | a `name` element with no attributes or text whose children are exactly `surname` (the surname), `given-names` (the given name) and, only when the suffix is non-empty, `suffix` (the suffix), in that order |
| Build.SetContribName | jatsgenerator/build.py:88-93 | a non-empty collaboration name gives a childless `collab` element holding it, in place of the personal name; otherwise the result is exactly `set_name`'s element |
| Build.CompareFrom | jatsgenerator/build.py:326-333 | the loop rejects exactly when some remaining compared field clashes |
| Build.CompareAffIsLoop | jatsgenerator/build.py:323-333 | the comparison is false exactly when the loop over city, country, department and institution finds a field non-empty on both sides that differs |
| Build.CompareAffReflexive | jatsgenerator/build.py:323-333 | every affiliation compares equal to itself |
| Build.CompareAffSymmetric | jatsgenerator/build.py:323-333 | the comparison does not depend on argument order |
| Build.CompareAffIgnoresContactDetails | jatsgenerator/build.py:325 | phone, fax and email never affect the comparison |
| Build.CompareAffNotTransitive | jatsgenerator/build.py:323-333 | an affiliation without a city matches two affiliations in different cities that do not match each other |
| Build.AffPrefixSlots | jatsgenerator/build.py:138-167 | after each optional block the children stay in field order and hold the blocks written so far |
| Build.SetAff | jatsgenerator/build.py:132-167 | the id only when given; department (never for editors), institution, city, country, phone and fax, each exactly when non-empty, in that order |
| Build.CopyrightHolder | jatsgenerator/build.py:250-267 | nobody, one surname, "A & B", or "A et al", chosen by the number of non-editor contributors |
| Build.CopyrightHolderIgnoresEditors | jatsgenerator/build.py:250-254 | inserting an editor anywhere leaves the holder unchanged |
| Build.CopyrightYear | jatsgenerator/build.py:270-276 | the licence date's year, else the accepted date's year, else nothing; the year is written in plain decimal with no padding |
| Build.SetCopyright | jatsgenerator/build.py:278-288 | statement, year and holder in that order; the statement is "© year, holder" |
| Build.SetLicense | jatsgenerator/build.py:234-246 | the licence link and its paragraph, the link text set between the two paragraph parts |
| Build.SetPermissions | jatsgenerator/build.py:291-295 | the copyright elements only when the licence asks for them, then the licence |
| Build.PermissionsShape | jatsgenerator/build.py:291-295 | exactly one licence, and a copyright statement exactly when the licence asks for it |
| Build.SetTitleGroup | jatsgenerator/build.py:215-223 | the title group holds the article title |
| Build.SetAbstract | jatsgenerator/build.py:298-306 | the abstract holds its text as one paragraph |
| Build.SetKwdGroupResearchOrganism | jatsgenerator/build.py:382-391 | a research-organism keyword group: the title, then one keyword per organism, in order |
| Build.SetVolume | jatsgenerator/build.py:446-449 | a volume element exactly when there is a volume; its text is the volume in plain decimal with no padding, reading back as the volume |
| Build.SetDmy | jatsgenerator/build.py:472-478 | day, month and year in that order; day and month are padded with zeros to exactly two digits unless longer; the year is plain decimal with no padding; each reads back as its number |
| Build.SetDate | jatsgenerator/build.py:463-469 | a typed date element exactly when the article has that date |
| Build.SetPubDate | jatsgenerator/build.py:452-460 | an electronic pub-date only for the type "pub", and only when the article has it |
| Build.SetHistory | jatsgenerator/build.py:226-231 | one date per configured type the article has, in configured order |
| Build.ParIdInjective | jatsgenerator/build.py:409 | award group ids `par-<n>` differ for different numbers |
| Build.SetFundingSource | jatsgenerator/build.py:428-437 | the FundRef id under the registry prefix when given, then the decoded name when given |
| Build.SetPrincipalAwardRecipients | jatsgenerator/build.py:440-443 | one name per recipient, in order |
| Build.AwardIdTags | jatsgenerator/build.py:421-423 | one award-id per award id, in order |
| Build.SetAwardGroup | jatsgenerator/build.py:416-425 | the group carries its id; funding source only when a funder is named; award ids; recipients only when there are any |
| Build.AwardGroupCount | jatsgenerator/build.py:416-425 | for any tag, how many children of an award group carry it |
| Build.AwardGroupCounts | jatsgenerator/build.py:416-425 | how many funding sources, award ids and recipient blocks an award group holds |
| Build.SetFundingGroup | jatsgenerator/build.py:405-413 | the i-th award becomes award group `par-<i+1>`; the funding statement is last, and only when there is a note |
| Build.ParNumbersSorted | jatsgenerator/build.py:315-319 | the listed award positions ascend and each names an award |
| Build.ParNumbersCount | jatsgenerator/build.py:315-319 | an award is listed once per principal recipient with the author's id, and nothing else is listed |
| Build.GetContribParIds | jatsgenerator/build.py:309-320 | the ids are the `par-` ids of the listed positions |
| Build.AwardGroupId | jatsgenerator/build.py:408-410 | the award group at position j carries `par-<j+1>` |
| Build.ContribParIdsNameAwardGroups | jatsgenerator/build.py:309-320 | every id an author's funding references use is the id of an award group in the funding group |
| Build.FirstEmailIndex | jatsgenerator/build.py:494-498 | the position of the first affiliation with an email: all before it have none |
| Build.FirstEmail | jatsgenerator/build.py:494-498 | empty exactly when no affiliation has an email; otherwise the email of the first affiliation that has one |
| Build.CorrespIdInjective | jatsgenerator/build.py:502 | note ids `cor<n>` differ for different numbers |
| Build.SetCorresp | jatsgenerator/build.py:490-508 | with an email, one note `cor<count>` giving the first email and the initials; without one, nothing |
| Seqs.GatherPositions | jatsgenerator/build.py:481-487 | a counter loop in which each element writes one item when it matches and none otherwise yields the items of the matching positions, in order, each written with its own counter |
| Seqs.PositionsBelong | jatsgenerator/build.py:481-487 | a counter advanced for every element records only positions of matching elements, within its range |
| Seqs.PositionsIncrease | jatsgenerator/build.py:481-487 | the recorded positions strictly increase |
| Seqs.PositionsComplete | jatsgenerator/build.py:481-487 | every matching element has its position recorded |
| Build.EmailedNumbersBelong | jatsgenerator/build.py:481-487 | every note number belongs to a corresponding author with an email, within the counter's range |
| Build.EmailedNumbersIncrease | jatsgenerator/build.py:481-487 | note numbers strictly increase |
| Build.EmailedNumbersComplete | jatsgenerator/build.py:481-487 | every corresponding author with an email gets a note with their counter |
| Build.CorrespNotesContent | jatsgenerator/build.py:481-508 | note `i` is the note `set_corresp` writes for the emailed corresponding author whose counter it carries, so it holds that author's first email and initials |
| Build.CorrespNotesIds | jatsgenerator/build.py:481-508 | the notes carry exactly the counters of the corresponding authors with an email |
| Build.SetAuthorNotes | jatsgenerator/build.py:481-487 | the notes of the corresponding authors, counted 1, 2, ... in record order |
| Build.CorrespIdsMaySkip | jatsgenerator/build.py:481-508 | a first corresponding author without an email leaves `cor1` unused |
| Build.DoDisplayChannel | jatsgenerator/build.py:336-343 | true exactly when the display channel is not blank |
| Build.IsHeadingIffNotBlank | jatsgenerator/build.py:375 | a category is a heading exactly when it is not blank |
| Build.HeadingsNonEmptyIff | jatsgenerator/build.py:351-357 | there is a heading exactly when some category is not blank |
| Build.DoSubjectHeading | jatsgenerator/build.py:351-357 | true exactly when some category is not blank |
| Build.DoArticleCategories | jatsgenerator/build.py:346-348 | true exactly when the display channel or some category is not blank |
| Build.SubjGroup | jatsgenerator/build.py:367-370 | a typed subject group holding one subject |
| Build.HeadingGroups | jatsgenerator/build.py:373-379 | one heading group per heading, in order |
| Build.SetArticleCategories | jatsgenerator/build.py:360-379 | the element appears exactly when it would be non-empty; the display channel comes first, then one heading per non-blank category |
| Build.ArticleCategoriesNotEmpty | jatsgenerator/build.py:360-379 | an emitted categories element is never empty, and its first group is the display channel when there is one, otherwise the first heading |
| Build.DatasetIdInjective | jatsgenerator/build.py:183 | citation ids `dataset<n>` differ for different numbers |
| Build.CitationAttrs | jatsgenerator/build.py:183-186 | id `dataset<n>`, publication type "data", and the specific use only when given |
| Build.SetDataset | jatsgenerator/build.py:181-186 | an `element-citation` with id `dataset<num>`, publication type `data` and a specific use only when one is given, whose children are the dataset's fields |
| Build.CitationChildrenTags | jatsgenerator/build.py:188-212 | a citation's children are, in order, the person group, year, source, link and comment, each present exactly when its field is non-empty |
| Build.CitationChildrenFields | jatsgenerator/build.py:188-212 | each child holds its field: the person group (type `author`) one `collab` per author in order; the year its text and `iso-8601-date`; the source the title; the link the source id as text and `xlink:href`, with link type `uri`; the comment the licence |
| Build.CitationChildrenCount | jatsgenerator/build.py:188-212 | one child per present field; the authors become one collaboration each, in order |
| Generate.NewContext | jatsgenerator/generate.py:25-36 | every counter starts at zero with no affiliation stored |
| Generate.InitialContext | jatsgenerator/generate.py:74-76 | the conflict counter starts at 1 exactly when a default statement exists |
| Generate.LastMatch | jatsgenerator/generate.py:247-249 | the last key whose affiliation compares equal, and no later key matches |
| Generate.GetAffId | jatsgenerator/generate.py:238-255 | a match gives the largest matching key and leaves the context alone; no match stores the affiliation under count+1; stored keys stay exactly 1..count and pairwise unequal |
| Generate.StoreFresh | jatsgenerator/generate.py:250-253 | storing an unmatched affiliation keeps keys contiguous and stored affiliations pairwise unequal |
| Generate.GetAffIdIdempotent | jatsgenerator/generate.py:238-255 | asking twice gives the same id, and the second call changes nothing |
| Generate.StoredAffKeepsId | jatsgenerator/generate.py:238-255 | a stored affiliation always gets its own key back |
| Generate.AffIdsNotCanonical | jatsgenerator/generate.py:247-249 | two affiliations that compare equal can receive different ids |
| Generate.SecIdInjective | jatsgenerator/generate.py:110 | section ids differ for different counts |
| Generate.SetSection | jatsgenerator/generate.py:107-112 | a section with the next number and the given type; only the section counter advances |
| Generate.DatasetCitationsAppend | jatsgenerator/generate.py:178-196 | two runs of citations, the second starting where the first ends, are numbered consecutively |
| Generate.DatasetBlock | jatsgenerator/generate.py:178-196 | an intro paragraph, then a paragraph citing each dataset numbered on from the counter; the counter advances by the count |
| Generate.SetMajorDatasets | jatsgenerator/generate.py:178-186 | generated datasets are cited with `isSupplementedBy`, numbered on from the counter |
| Generate.SetPreviouslyPublishedDatasets | jatsgenerator/generate.py:188-196 | previously published datasets are cited with `references`, numbered on from the counter |
| Generate.DatasetsSection | jatsgenerator/generate.py:170-176 | starts with the "Data availability" title and advances the counter by both lists |
| Generate.DatasetsSectionCitations | jatsgenerator/generate.py:170-176 | the section cites the generated datasets, then the previously published ones |
| Generate.CitationRun | jatsgenerator/generate.py:170-196 | the generated block's citations followed by the reused block's are numbered on without a gap, `isSupplementedBy` before `references` |
| Generate.DatasetIdsContiguous | jatsgenerator/generate.py:170-196 | citation ids are contiguous after the counter: generated datasets `isSupplementedBy` first, then `references` |
| Generate.ArticleInformationGroups | jatsgenerator/generate.py:96-99 | the competing-interest group exactly when a contributor has a conflict or a default exists; the ethics group exactly when there are statements |
| Generate.AdditionalInformation | jatsgenerator/generate.py:93-99 | the additional-information section holds its title and the footnote groups, and opens one section |
| Generate.SupplementarySection | jatsgenerator/generate.py:100-105 | supplementary material numbered next, holding the data-availability section numbered after it |
| Generate.SupplementaryMaterial | jatsgenerator/generate.py:100-105 | the supplementary-material section is `s<n+1>` and holds a title and the data-availability section `s<n+2>`, `n` being the sections already opened; its citations are numbered on from the dataset counter, generated datasets (`isSupplementedBy`) first, then previously published ones (`references`); the context leaves with two more sections and one more dataset number per citation |
| Generate.SetBackmatter | jatsgenerator/generate.py:91-105 | additional information, then supplementary material exactly when there are datasets or a statement; affiliations and other counters unchanged |
| Generate.BackmatterSectionIds | jatsgenerator/generate.py:91-112 | sections are numbered in opening order: additional information, supplementary material, data availability |
| Generate.GetAffIdExtends | jatsgenerator/generate.py:238-255 | an affiliation lookup only ever adds one and touches no other counter |
| Generate.AffIds | jatsgenerator/generate.py:294-297 | one id per affiliation; only affiliations are added to the context |
| Generate.AffIdsMatch | jatsgenerator/generate.py:294-301 | each id names a stored affiliation that compares equal to the one asked for |
| Generate.AffXref | jatsgenerator/generate.py:296-301 | the reference's rid is "aff" followed by its text, which is the number |
| Generate.AffXrefNumber | jatsgenerator/generate.py:297-301 | a reference's text reads back as the affiliation number |
| Generate.ContribAffs | jatsgenerator/generate.py:294-304 | one entry per affiliation: for editors the `aff` that `set_aff` writes without an id, otherwise an affiliation reference |
| Generate.EditorAffsInline | jatsgenerator/generate.py:302-304 | an editor's affiliation is written inline without an id and without the department, with institution, city and country when present |
| Generate.ContribContext | jatsgenerator/generate.py:294-324 | one contributor advances the corresp counter iff corresponding and the conflict counter iff it has a conflict; editors store no affiliations |
| Generate.ContribAffXrefs | jatsgenerator/generate.py:294-301 | outside the editors' group, each affiliation becomes a reference to a stored affiliation that compares equal |
| Generate.ConflictRid | jatsgenerator/generate.py:321-328 | a contributor with a conflict points at `conf<count+1>`; one without a conflict points at `conf1` when a default exists, and at nothing otherwise |
| Generate.PersonalRidAvoidsDefault | jatsgenerator/generate.py:321-326 | once `conf1` is reserved, a contributor's own conflict never points at it |
| Generate.ContribElement | jatsgenerator/generate.py:269-277 | the contrib element's type, corresp, equal_contrib and id attributes, each only when its condition holds |
| Generate.ContribHead | jatsgenerator/generate.py:279-292 | the name or collaboration, the editor role only for editors, the ORCID only when present, as a `contrib-id` of type `orcid` holding the ORCID URL; no references |
| Generate.ContribTail | jatsgenerator/generate.py:306-335 | the references after the affiliations are, in this order: one corresponding-author reference `cor<n>` with text `*` exactly when the contributor is a corresponding author (`n` one past the counter); one funding reference of type `other` per award paragraph id, in order; and one competing-interest reference exactly when outside the editors' group with a non-empty rid; nothing else |
| Generate.XrefKinds | jatsgenerator/generate.py:306-335 | corresponding-author, funding and competing-interest references, one run of each, are recovered exactly by filtering on their `ref-type` |
| Generate.FundingXrefs | jatsgenerator/generate.py:315-319 | one "other" reference per award group id, in order |
| Generate.SetContrib | jatsgenerator/generate.py:269-335 | the contributor element carries exactly the attributes of the `contrib` element (`corresp`, `equal_contrib` and `id` each only under its condition); its children are the head, the affiliations, then the references |
| Generate.ContribConflictXref | jatsgenerator/generate.py:321-335 | exactly one competing-interest reference outside the editors' group when there is a conflict or a default, otherwise none |
| Generate.SelectContributors | jatsgenerator/generate.py:263-267 | all contributors when no type is given, otherwise those of the type, in record order |
| Generate.SelectContributorsByType | jatsgenerator/generate.py:263-267 | selected exactly when in the record with the requested type |
| Generate.ContextAfter | jatsgenerator/generate.py:263-324 | after a group, the corresp counter grew by its corresponding authors and the conflict counter by its contributors with conflicts, editors included; editors add no affiliations |
| Generate.AffElements | jatsgenerator/generate.py:337-341 | one element per affiliation stored so far |
| Generate.AffElementsShape | jatsgenerator/generate.py:337-341 | the k-th element is an `aff` with id `aff<k+1>` carrying the institution and country of stored affiliation k+1 |
| Generate.SetContribGroup | jatsgenerator/generate.py:257-341 | the selected contributors in order, then outside the editors' group every stored affiliation; editor groups have content-type "section" |
| Generate.EditorsHaveNoConflictXref | jatsgenerator/generate.py:330-335 | editors never carry a competing-interest reference |
| Generate.GroupConflictXref | jatsgenerator/generate.py:321-335 | outside the editors' group, the i-th contributor's competing-interest reference uses the counter left by the contributors before it |
| Generate.ConflictRidCountsContributors | jatsgenerator/generate.py:321-324 | a contributor's own conflict points at the start count plus the number of contributors with conflicts before it, plus one |
| Front.JournalId | jatsgenerator/generate.py:216-224 | a journal-id carrying its type and configured value |
| Front.SetJournalMeta | jatsgenerator/generate.py:210-236 | one journal-id per configured type with a value, in order, then the title group, the electronic ISSN and the publisher |
| Front.JournalIdPresent | jatsgenerator/generate.py:216-224 | a type gets a journal-id exactly when it is configured and has a non-empty value |
| Front.ManuscriptId | jatsgenerator/generate.py:118-122 | the manuscript id is padded with zeros to exactly 5 digits unless longer, and reads back as the manuscript number |
| Front.ManuscriptIdInjective | jatsgenerator/generate.py:118-122 | different manuscripts get different ids |
| Front.ArticleId | jatsgenerator/generate.py:118-129 | an article-id with its text and pub-id-type |
| Front.HasCorrespIff | jatsgenerator/generate.py:139 | author notes are due exactly when some contributor is a corresponding author |
| Front.ContribGroups | jatsgenerator/generate.py:136-137 | one `contrib-group` per configured type; the context stays valid and only grows; sections and datasets are untouched |
| Seqs.FoldAt | jatsgenerator/generate.py:136-137 | in a loop that threads a state, output `i` is the step on element `i` in the state the first `i` elements left |
| Front.ContribGroupsAt | jatsgenerator/generate.py:136-137 | group `i` is `set_contrib_group` for the `i`-th type, run in the context the groups before it left |
| Front.GroupsKeepValid | jatsgenerator/generate.py:136-137 | whatever the types, the loop ends in a valid context that extends the starting one with section and dataset counters unchanged, and every output is a `contrib-group` |
| Front.ContribGroupsTags | jatsgenerator/generate.py:136-137 | the groups' tags are one contrib-group per configured type |
| Front.SetArticleMeta | jatsgenerator/generate.py:114-168 | the article metadata: identifiers, categories and title, the contributor groups, dates, permissions, abstract, keywords and funding, with the context the groups leave |
| Front.MetaHeadTags | jatsgenerator/generate.py:118-134 | publisher id and DOI each only when present, categories only when non-empty, then the title group |
| Front.MetaDatesTags | jatsgenerator/generate.py:139-155 | author notes, pub-date, volume, elocation-id and history, each exactly when its field is set |
| Front.MetaTailTags | jatsgenerator/generate.py:157-166 | permissions only with a licence, the abstract, keywords only with organisms, funding only with awards or a note |
| Front.ArticleMetaTagOrder | jatsgenerator/generate.py:114-168 | the metadata's element sequence equals the order read off the record and configuration alone |
| Front.PublisherIdFirst | jatsgenerator/generate.py:118-122 | with a manuscript number, the metadata opens with the publisher id, which reads back as the number |
| Front.SetFrontmatter | jatsgenerator/generate.py:85-89 | journal metadata, then article metadata; no section opened and no dataset cited |
| Front.ArticleRoot | jatsgenerator/generate.py:57-63 | the article-type only when given; the MathML and XLink namespaces and DTD version 1.1d3 always |
| Front.ArticleFront | jatsgenerator/generate.py:74-78 | the front matter, built from the context with `conf1` reserved, leaves the section and dataset counters at zero, so the back matter numbers from `s1` and `dataset1` |
| Front.Assemble | jatsgenerator/generate.py:80-83 | the root holds the front matter, then the back matter |
| Front.Document | jatsgenerator/generate.py:74-112 | the document is an `article` whose children are the front matter and the back matter; in the back matter the additional-information section is `s1` and, exactly when the article has datasets or an availability statement, the supplementary-material section `s2` follows, holding the data-availability section `s3` whose citations are `dataset1`, `dataset2`, ... in order, generated datasets first |
| Generate.BackmatterNumbering | jatsgenerator/generate.py:91-112 | back matter built in any context numbers its sections on from that context's section counter and its citations on from its dataset counter, with the supplementary section present exactly when there are datasets or an availability statement |
| Front.BackFromZero | jatsgenerator/generate.py:74-112 | back matter built before any section is opened or dataset cited numbers from `s1` and `dataset1` |
| Front.BuildArticle | jatsgenerator/generate.py:41-78 | a document exactly when the input is an article record |

## Left out

- Serialisation is left out (`output_xml`, `write_xml_to_disk`, `build_xml`, `build_xml_to_disk`, the doctype and pretty-printing). The model stops at the element tree.
- `build_article_from_csv` and the CSV parser it calls are left out. The article record is an input.
- Logging is left out. It has no effect on the document.
- The provenance comment written when `add_comment` is set is left out. It reads the clock and the git history.
- `conf.py` is left out. Its parsed result is the `Config` record, with the `journal_id_<type>` keys gathered into one map.
- `append_to_tag` parses its text as markup; the model appends the text verbatim as one leaf.
- Entity decoding of funder names is the parameter `decode`; its behaviour is not modelled.
- Python's `None`, `""`, `0` and `[]` are all falsy in every guard of the source, so each becomes `""`, `0` or `[]`. Where the source concatenates a missing value it raises instead; the two such places are listed below. The manuscript number is a `nat`, so `int()` of a non-numeric string is not modelled.
- Dates are reduced to day, month and year; time zones and the rest of `struct_time` are dropped.
- `set_corresp` takes the first letter of the given name and of the surname, which fails on empty names. `SetCorresp`, `SetAuthorNotes`, `SetArticleMeta` and `BuildArticle` therefore require named corresponding authors.
- `set_kwd_group_author_keywords` is not modelled; `set_article_meta` never calls it.
- Some `build.py` helpers are not modelled because `generate.py` never calls them and writes the same elements inline: `set_journal_title_group` and the `set_contrib_role/orcid/corresp/funding/conflict` helpers.
- `author_affs` is read back in insertion order, which is key order because keys are inserted 1, 2, ...
- Build.ConflictText: a contributor with a conflict but no given name or no surname (a collaboration, say) makes the concatenation at jatsgenerator/build.py:35-42 raise a `TypeError`. The model writes the footnote with the missing name as empty text.
- Build.CopyrightHolder: a missing surname makes `surname + " et al"` or `+ " & "` (jatsgenerator/build.py:258, 262) raise a `TypeError`. A single author without a surname makes `", " + copyright_holder` (jatsgenerator/build.py:278) raise. The model writes empty text in its place.
- Generate.ContribTail: does not relate the `cor<n>` reference to the author-notes entry with the same id. That entry comes from a separate counter loop over the contributors (jatsgenerator/build.py:481-487), and relating the two counters would need an invariant across all contributor groups.
- Generate.DatasetCitations: its contract states only the length; the ids and specific use are stated by `Generate.DatasetCitationsAppend`.
- Generate.Contribs: its contract states only the length; the competing-interest references are stated by `Generate.GroupConflictXref` and `Generate.EditorsHaveNoConflictXref`.
- Generate.ConflictRid: no lemma claims that a contributor's reference names a footnote with the same statement. That is false when a contributor has several statements or the groups reorder contributors, as described above.

=== FILE: article.dfy ===
/** The article record the generator reads. It is produced elsewhere and never
    changed by the generator. Absent optional values are "" (strings), 0
    (numbers) or [] (lists): every guard in the generator treats `None` and
    those values alike. */
module ArticleData {
  import opened Seqs

  datatype Affiliation = Affiliation(
    department: string,
    institution: string,
    city: string,
    country: string,
    phone: string,
    fax: string,
    email: string)

  datatype Contributor = Contributor(
    contribType: string,
    surname: string,
    givenName: string,
    suffix: string,
    collab: string,
    orcid: string,
    corresp: bool,
    equalContrib: bool,
    authId: string,
    affiliations: seq<Affiliation>,
    conflict: seq<string>)

  datatype FundingAward = FundingAward(
    institutionId: string,
    institutionName: string,
    awardIds: seq<string>,
    principalAwardRecipients: seq<Contributor>)

  /** A dataset; `datasetType` is "datasets" for generated data and
      "prev_published_datasets" for previously published data. */
  datatype Dataset = Dataset(
    datasetType: string,
    authors: seq<string>,
    year: string,
    title: string,
    sourceId: string,
    licenseInfo: string)

  datatype Date = Date(day: nat, month: nat, year: nat)

  datatype License = License(
    href: string,
    paragraph1: string,
    name: string,
    paragraph2: string,
    copyright: bool)

  datatype Article = Article(
    articleType: string,
    manuscript: nat,
    doi: string,
    title: string,
    abstractText: string,
    volume: nat,
    displayChannel: string,
    articleCategories: seq<string>,
    contributors: seq<Contributor>,
    conflictDefault: string,
    ethics: seq<string>,
    researchOrganisms: seq<string>,
    fundingAwards: seq<FundingAward>,
    fundingNote: string,
    datasets: seq<Dataset>,
    dataAvailability: string,
    dates: map<string, Date>,
    license: Option<License>)

  /** The parsed configuration: list-valued keys as sequences, and the
      `journal_id_<type>` keys gathered into one map. */
  datatype Config = Config(
    journalIdTypes: seq<string>,
    journalIds: map<string, string>,
    journalTitle: string,
    journalIssn: string,
    publisherName: string,
    contribTypes: seq<string>,
    historyDateTypes: seq<string>)

  /** `article.get_date(date_type)`. */
  function GetDate(a: Article, dateType: string): Option<Date> {
    if dateType in a.dates then Some(a.dates[dateType]) else None
  }

  /** `article.get_datasets(dataset_type)`: the datasets of one type, in order. */
  function GetDatasets(a: Article, datasetType: string): seq<Dataset> {
    Filter(a.datasets, (d: Dataset) => d.datasetType == datasetType)
  }

  predicate IsEditor(c: Contributor) {
    c.contribType == "editor"
  }

  predicate HasConflict(c: Contributor) {
    c.conflict != []
  }

  /** `article.has_contributor_conflict()`. */
  predicate HasContributorConflict(a: Article) {
    exists i :: 0 <= i < |a.contributors| && HasConflict(a.contributors[i])
  }

  predicate IsCorresp(c: Contributor) {
    c.corresp
  }
}

=== FILE: build.dfy ===
/** `jatsgenerator/build.py`: the stateless fragment builders. Each Python
    builder appends elements to a parent; each function here returns the
    element (or the sequence of sibling elements) it would append. */
module Build {
  import opened Seqs
  import opened Text
  import opened Xml
  import opened ArticleData

  /** `Some(s)` for a non-empty string, `None` for "" (Python's `if s:`). */
  function NonEmpty(s: string): Option<string> {
    if s != "" then Some(s) else None
  }

  // ---------------------------------------------------------------------------
  // Competing interests

  const OtherAuthorsStatement := "The other authors declare that no competing interests exist."

  /** The footnote id `"conf" + str(k)`. */
  function ConfId(k: nat): string {
    "conf" + NatToString(k)
  }

  lemma ConfIdInjective(a: nat, b: nat)
    ensures ConfId(a) == ConfId(b) ==> a == b
  {
    PrefixedNumberInjective("conf", a, b);
  }

  /** One personal conflict statement together with the contributor making it. */
  datatype ConflictEntry = ConflictEntry(who: Contributor, statement: string)

  /** The number of personal conflict statements made by `cs`. */
  function StatementCount(cs: seq<Contributor>): nat
    decreases |cs|
  {
    if |cs| == 0 then 0 else |cs[0].conflict| + StatementCount(cs[1..])
  }

  /** Every personal conflict statement, contributor by contributor and, within
      a contributor, statement by statement. */
  function ConflictEntries(cs: seq<Contributor>): (r: seq<ConflictEntry>)
    ensures |r| == StatementCount(cs)
    ensures |r| == 0 <==> forall i :: 0 <= i < |cs| ==> !HasConflict(cs[i])
    ensures forall j :: 0 <= j < |r| ==> r[j].who in cs && r[j].statement in r[j].who.conflict
    decreases |cs|
  {
    if |cs| == 0 then []
    else
      var c := cs[0];
      assert forall i :: 1 <= i < |cs| ==> cs[i] == cs[1..][i - 1];
      seq(|c.conflict|, j requires 0 <= j < |c.conflict| => ConflictEntry(c, c.conflict[j]))
      + ConflictEntries(cs[1..])
  }

  /** Statement `j` of contributor `i` sits at the position after all the
      statements of the contributors before `i` and the first `j` of `i`'s own:
      the walk visits each statement once, in contributor-then-statement order. */
  lemma {:induction false} ConflictEntriesAt(cs: seq<Contributor>, i: nat, j: nat)
    requires i < |cs| && j < |cs[i].conflict|
    ensures StatementCount(cs[..i]) + j < |ConflictEntries(cs)|
    ensures ConflictEntries(cs)[StatementCount(cs[..i]) + j] == ConflictEntry(cs[i], cs[i].conflict[j])
    decreases |cs|
  {
    var c := cs[0];
    var head := seq(|c.conflict|, k requires 0 <= k < |c.conflict| => ConflictEntry(c, c.conflict[k]));
    assert ConflictEntries(cs) == head + ConflictEntries(cs[1..]);
    if i == 0 {
      assert cs[..i] == [];
    } else {
      var rest := cs[1..];
      assert rest[i - 1] == cs[i];
      ConflictEntriesAt(rest, i - 1, j);
      assert cs[..i][0] == c && cs[..i][1..] == rest[..i - 1];
      assert StatementCount(cs[..i]) == |c.conflict| + StatementCount(rest[..i - 1]);
    }
  }

  /** The paragraph of a personal conflict footnote. */
  function ConflictText(e: ConflictEntry): string {
    e.who.givenName + " " + e.who.surname + ", " + e.statement + "."
  }

  /** `<fn fn-type="conflict" id=id><p>text</p></fn>` */
  function ConflictFn(id: string, text: string): (r: Node)
    ensures r.tag == "fn" && GetAttr(r, "fn-type") == Some("conflict")
    ensures GetAttr(r, "id") == Some(id) && ChildText(r, "p") == Some(text)
  {
    var attrs := [Attribute("fn-type", "conflict"), Attribute("id", id)];
    assert attrs[..1] == [Attribute("fn-type", "conflict")];
    assert attrs[1].name != "fn-type";
    assert LookupAttr(attrs[..1], "fn-type") == Some("conflict");
    Node("fn", attrs, "", "", [Leaf("p", text)])
  }

  /** The nested loop over contributors and their statements in
      `set_fn_group_competing_interest`: its counter starts at `count` and
      advances once per statement, so the `j`-th statement is numbered
      `count + j + 1`. */
  function PersonalConflictFns(cs: seq<Contributor>, count: nat): (r: seq<Node>)
    ensures |r| == |ConflictEntries(cs)|
    ensures forall j :: 0 <= j < |r| ==>
      r[j] == ConflictFn(ConfId(count + j + 1), ConflictText(ConflictEntries(cs)[j]))
  {
    var entries := ConflictEntries(cs);
    seq(|entries|, j requires 0 <= j < |entries| => ConflictFn(ConfId(count + j + 1), ConflictText(entries[j])))
  }

  /** 1 when a default statement reserves the number 1, else 0. */
  function ConflictStart(a: Article): nat {
    if a.conflictDefault != "" then 1 else 0
  }

  /** The footnotes of `set_fn_group_competing_interest`: one per personal
      statement numbered consecutively after the reserved number, then (with a
      default statement) the footnote `conf1`, whose text is replaced when any
      personal statement was written. */
  function CompetingInterestFns(a: Article): (r: seq<Node>)
    ensures |r| == |ConflictEntries(a.contributors)| + ConflictStart(a)
    ensures forall j :: 0 <= j < |ConflictEntries(a.contributors)| ==>
      r[j] == ConflictFn(ConfId(j + 1 + ConflictStart(a)), ConflictText(ConflictEntries(a.contributors)[j]))
    ensures a.conflictDefault != "" ==>
      r[|r| - 1] == ConflictFn("conf1",
        if ConflictEntries(a.contributors) != [] then OtherAuthorsStatement else a.conflictDefault)
  {
    var personal := PersonalConflictFns(a.contributors, ConflictStart(a));
    var count := ConflictStart(a) + |personal|;
    if a.conflictDefault != "" then
      assert ConfId(1) == "conf1";
      personal + [ConflictFn(ConfId(1), if count > 1 then OtherAuthorsStatement else a.conflictDefault)]
    else personal
  }

  /** The number in the id of the `j`-th competing-interest footnote. */
  function FootnoteNumber(a: Article, j: nat): nat {
    if j < |ConflictEntries(a.contributors)| then j + 1 + ConflictStart(a) else 1
  }

  lemma CompetingInterestFnId(a: Article, j: nat)
    requires j < |CompetingInterestFns(a)|
    ensures GetAttr(CompetingInterestFns(a)[j], "id") == Some(ConfId(FootnoteNumber(a, j)))
  {
    var fns := CompetingInterestFns(a);
    var entries := ConflictEntries(a.contributors);
    if j < |entries| {
      assert fns[j] == ConflictFn(ConfId(j + 1 + ConflictStart(a)), ConflictText(entries[j]));
    } else {
      assert a.conflictDefault != "" && j == |fns| - 1;
      assert ConfId(1) == "conf1";
      assert fns[j] == ConflictFn("conf1", if entries != [] then OtherAuthorsStatement else a.conflictDefault);
    }
  }

  /** No two competing-interest footnotes share an id. */
  lemma CompetingInterestIdsDistinct(a: Article)
    ensures var fns := CompetingInterestFns(a);
      forall i, j :: 0 <= i < j < |fns| ==> GetAttr(fns[i], "id") != GetAttr(fns[j], "id")
  {
    var fns := CompetingInterestFns(a);
    forall i, j | 0 <= i < j < |fns|
      ensures GetAttr(fns[i], "id") != GetAttr(fns[j], "id")
    {
      CompetingInterestFnId(a, i);
      CompetingInterestFnId(a, j);
      ConfIdInjective(FootnoteNumber(a, i), FootnoteNumber(a, j));
    }
  }

  /** `set_fn_group_competing_interest`: the title followed by the footnotes. */
  function SetFnGroupCompetingInterest(a: Article): (r: Node)
    ensures r.tag == "fn-group" && GetAttr(r, "content-type") == Some("competing-interest")
    ensures r.children == [Leaf("title", "Competing interest")] + CompetingInterestFns(a)
  {
    var group := Append(WithAttr(Element("fn-group"), "content-type", "competing-interest"),
                        Leaf("title", "Competing interest"));
    group.(children := group.children + CompetingInterestFns(a))
  }

  /** `<fn fn-type="other"><p>text</p></fn>` */
  function EthicsFn(text: string): (r: Node)
    ensures r.tag == "fn" && GetAttr(r, "fn-type") == Some("other") && ChildText(r, "p") == Some(text)
    ensures r.attrs == [Attribute("fn-type", "other")] && r.text == "" && r.children == [Leaf("p", text)]
  {
    Node("fn", [Attribute("fn-type", "other")], "", "", [Leaf("p", text)])
  }

  /** `set_fn_group_ethics_information`: one footnote per ethics statement. */
  function SetFnGroupEthicsInformation(a: Article): (r: Node)
    ensures r.tag == "fn-group" && GetAttr(r, "content-type") == Some("ethics-information")
    ensures |r.children| == 1 + |a.ethics| && r.children[0] == Leaf("title", "Ethics")
    ensures forall i :: 0 <= i < |a.ethics| ==>
      && r.children[1 + i].tag == "fn" && GetAttr(r.children[1 + i], "fn-type") == Some("other")
      && ChildText(r.children[1 + i], "p") == Some(a.ethics[i])
    ensures forall i :: 0 <= i < |a.ethics| ==> r.children[1 + i] == EthicsFn(a.ethics[i])
  {
    var fns := seq(|a.ethics|, i requires 0 <= i < |a.ethics| => EthicsFn(a.ethics[i]));
    Node("fn-group", [Attribute("content-type", "ethics-information")], "", "", [Leaf("title", "Ethics")] + fns)
  }

  /** The text of a footnote's paragraph, or "" when it has none. */
  function FnText(n: Node): string {
    match ChildText(n, "p")
    case Some(t) => t
    case None => ""
  }

  /** The statements an ethics footnote group carries: the paragraph of every
      child after the title. */
  function EthicsStatements(g: Node): (r: seq<string>)
    ensures |r| == if |g.children| == 0 then 0 else |g.children| - 1
  {
    if |g.children| == 0 then []
    else seq(|g.children| - 1, i requires 0 <= i < |g.children| - 1 => FnText(g.children[1 + i]))
  }

  /** Reading the statements back from the ethics group gives the article's
      statements, in order. */
  lemma EthicsRoundTrip(a: Article)
    ensures EthicsStatements(SetFnGroupEthicsInformation(a)) == a.ethics
  {
    var g := SetFnGroupEthicsInformation(a);
    forall i | 0 <= i < |a.ethics| ensures EthicsStatements(g)[i] == a.ethics[i] {
      assert FnText(g.children[1 + i]) == a.ethics[i];
    }
  }

  // ---------------------------------------------------------------------------
  // Names and affiliations

  /** `set_name`: surname, given names and, when present, the suffix, in that order. */
  function SetName(c: Contributor): (r: Node)
    ensures r.tag == "name"
    ensures |r.children| >= 2 && r.children[0].tag == "surname" && r.children[1].tag == "given-names"
    ensures ChildText(r, "surname") == Some(c.surname) && ChildText(r, "given-names") == Some(c.givenName)
    ensures ChildText(r, "suffix") == NonEmpty(c.suffix)
    ensures r.attrs == [] && r.text == ""
    ensures r.children == [Leaf("surname", c.surname), Leaf("given-names", c.givenName)]
                          + (if c.suffix != "" then [Leaf("suffix", c.suffix)] else [])
  {
    var n := Append(Append(Element("name"), Leaf("surname", c.surname)), Leaf("given-names", c.givenName));
    if c.suffix != "" then Append(n, Leaf("suffix", c.suffix)) else n
  }

  /** `set_contrib_name`: a collaboration name replaces the personal name. */
  function SetContribName(c: Contributor): (r: Node)
    ensures r.tag == (if c.collab != "" then "collab" else "name")
    ensures r.tag == "collab" ==> r.text == c.collab && r.children == []
    ensures r.tag == "name" ==> ChildText(r, "surname") == Some(c.surname)
    ensures c.collab == "" ==> r == SetName(c)
  {
    if c.collab != "" then Leaf("collab", c.collab) else SetName(c)
  }

  /** `compare_aff` inspects these attributes, in this order. */
  const ComparedFields: seq<string> := ["city", "country", "department", "institution"]

  /** `getattr(aff, name)` for the compared attributes. */
  function Field(aff: Affiliation, name: string): string {
    if name == "city" then aff.city
    else if name == "country" then aff.country
    else if name == "department" then aff.department
    else if name == "institution" then aff.institution
    else ""
  }

  /** Two values clash when both are present and differ. */
  predicate Clash(x: string, y: string) {
    x != "" && y != "" && x != y
  }

  /** The loop of `compare_aff` from the `i`-th compared attribute on. */
  function CompareFrom(a1: Affiliation, a2: Affiliation, i: nat): (r: bool)
    requires i <= |ComparedFields|
    ensures r <==> forall j :: i <= j < |ComparedFields| ==>
      !Clash(Field(a1, ComparedFields[j]), Field(a2, ComparedFields[j]))
    decreases |ComparedFields| - i
  {
    if i == |ComparedFields| then true
    else if Clash(Field(a1, ComparedFields[i]), Field(a2, ComparedFields[i])) then false
    else CompareFrom(a1, a2, i + 1)
  }

  /** `compare_aff`: false exactly when city, country, department or
      institution is present on both sides and differs. */
  predicate CompareAff(a1: Affiliation, a2: Affiliation) {
    && !Clash(a1.city, a2.city) && !Clash(a1.country, a2.country)
    && !Clash(a1.department, a2.department) && !Clash(a1.institution, a2.institution)
  }

  /** The field-wise form agrees with the loop over the compared attributes. */
  lemma CompareAffIsLoop(a1: Affiliation, a2: Affiliation)
    ensures CompareAff(a1, a2) == CompareFrom(a1, a2, 0)
  {
    assert Field(a1, ComparedFields[0]) == a1.city && Field(a2, ComparedFields[0]) == a2.city;
    assert Field(a1, ComparedFields[1]) == a1.country && Field(a2, ComparedFields[1]) == a2.country;
    assert Field(a1, ComparedFields[2]) == a1.department && Field(a2, ComparedFields[2]) == a2.department;
    assert Field(a1, ComparedFields[3]) == a1.institution && Field(a2, ComparedFields[3]) == a2.institution;
  }

  lemma CompareAffReflexive(a: Affiliation)
    ensures CompareAff(a, a)
  {
  }

  lemma CompareAffSymmetric(a1: Affiliation, a2: Affiliation)
    ensures CompareAff(a1, a2) == CompareAff(a2, a1)
  {
  }

  /** Phone, fax and email never take part in the comparison. */
  lemma CompareAffIgnoresContactDetails(a1: Affiliation, a2: Affiliation, phone: string, fax: string, email: string)
    ensures CompareAff(a1.(phone := phone, fax := fax, email := email), a2) == CompareAff(a1, a2)
  {
  }

  /** The comparison is not transitive: an affiliation with no city matches two
      affiliations in different cities. */
  lemma CompareAffNotTransitive()
    ensures var none := Affiliation("", "", "", "", "", "", "");
      && CompareAff(none.(city := "Oxford"), none)
      && CompareAff(none, none.(city := "Cambridge"))
      && !CompareAff(none.(city := "Oxford"), none.(city := "Cambridge"))
  {
  }

  /** The six kinds of child an `aff` element can hold, in their fixed order;
      6 for anything else. */
  function AffSlot(n: Node): nat {
    if n.tag == "institution" && GetAttr(n, "content-type") == Some("dept") then 0
    else if n.tag == "institution" then 1
    else if n.tag == "addr-line" then 2
    else if n.tag == "country" then 3
    else if n.tag == "phone" then 4
    else if n.tag == "fax" then 5
    else 6
  }

  /** The value shown by an `aff` child: the city sits in a nested `named-content`. */
  function SlotText(n: Node): string {
    if n.tag == "addr-line" then
      match ChildText(n, "named-content")
      case Some(t) => t
      case None => ""
    else n.text
  }

  /** The value in slot `k` among `ns`, if some child fills that slot. */
  function SlotValue(ns: seq<Node>, k: nat): Option<string>
    decreases |ns|
  {
    if |ns| == 0 then None
    else if AffSlot(ns[|ns| - 1]) == k then Some(SlotText(ns[|ns| - 1]))
    else SlotValue(ns[..|ns| - 1], k)
  }

  /** Slot lookup over a concatenation: the later part wins. */
  lemma {:induction false} SlotValueAppend(a: seq<Node>, b: seq<Node>, k: nat)
    ensures SlotValue(a + b, k) == if SlotValue(b, k).Some? then SlotValue(b, k) else SlotValue(a, k)
    decreases |b|
  {
    if |b| == 0 {
      assert a + b == a;
    } else {
      assert (a + b)[..|a + b| - 1] == a + b[..|b| - 1];
      SlotValueAppend(a, b[..|b| - 1], k);
    }
  }

  /** The children of an `aff` element are in the fixed slot order, each slot at
      most once, and those before the country carry the ", " separator. */
  ghost predicate WellOrderedAff(ns: seq<Node>) {
    && (forall i, j :: 0 <= i < j < |ns| ==> AffSlot(ns[i]) < AffSlot(ns[j]))
    && (forall i :: 0 <= i < |ns| ==> AffSlot(ns[i]) < 6)
    && (forall i :: 0 <= i < |ns| && AffSlot(ns[i]) <= 2 ==> ns[i].tail == ", ")
  }

  /** One `if affiliation.<field>:` step of `set_aff`. */
  function OptNode(cond: bool, n: Node): seq<Node> {
    if cond then [n] else []
  }

  /** Appending the optional block for slot `m` after slots below `m` keeps the order. */
  lemma AppendAffBlockOrdered(acc: seq<Node>, cond: bool, n: Node, m: nat)
    requires WellOrderedAff(acc) && forall i :: 0 <= i < |acc| ==> AffSlot(acc[i]) < m
    requires AffSlot(n) == m && m < 6 && (m <= 2 ==> n.tail == ", ")
    ensures WellOrderedAff(acc + OptNode(cond, n))
    ensures forall i :: 0 <= i < |acc + OptNode(cond, n)| ==> AffSlot((acc + OptNode(cond, n))[i]) < m + 1
  {
  }

  /** Appending an optional block fills at most its own slot. */
  lemma AppendAffBlockSlot(acc: seq<Node>, cond: bool, n: Node, k: nat)
    ensures SlotValue(acc + OptNode(cond, n), k) == if cond && AffSlot(n) == k then Some(SlotText(n)) else SlotValue(acc, k)
  {
    if cond {
      var r := acc + [n];
      assert r[..|r| - 1] == acc;
    } else {
      assert acc + [] == acc;
    }
  }

  /** The six children `set_aff` may append, in order, each with its guard. */
  function AffBlocks(aff: Affiliation, contribType: string): seq<(bool, Node)> {
    var city := Node("named-content", [Attribute("content-type", "city")], aff.city, "", []);
    [ (contribType != "editor" && aff.department != "",
       Node("institution", [Attribute("content-type", "dept")], aff.department, ", ", [])),
      (aff.institution != "", Node("institution", [], aff.institution, ", ", [])),
      (aff.city != "", Node("addr-line", [], "", ", ", [city])),
      (aff.country != "", Leaf("country", aff.country)),
      (aff.phone != "", Leaf("phone", aff.phone)),
      (aff.fax != "", Leaf("fax", aff.fax)) ]
  }

  /** The number of steps of `set_aff`, one per optional block. */
  function AffSteps(aff: Affiliation, contribType: string): (r: nat)
    ensures r == 6
  {
    |AffBlocks(aff, contribType)|
  }

  /** The children produced by the first `m` steps of `set_aff`. */
  function AffPrefix(aff: Affiliation, contribType: string, m: nat): seq<Node>
    requires m <= 6
  {
    if m == 0 then []
    else AffPrefix(aff, contribType, m - 1) + OptNode(AffBlocks(aff, contribType)[m - 1].0, AffBlocks(aff, contribType)[m - 1].1)
  }

  /** The value `set_aff` shows in slot `k`. */
  function AffExpected(aff: Affiliation, contribType: string, k: nat): Option<string> {
    if k == 0 then (if contribType != "editor" then NonEmpty(aff.department) else None)
    else if k == 1 then NonEmpty(aff.institution)
    else if k == 2 then NonEmpty(aff.city)
    else if k == 3 then NonEmpty(aff.country)
    else if k == 4 then NonEmpty(aff.phone)
    else if k == 5 then NonEmpty(aff.fax)
    else None
  }

  /** Block `m` fills slot `m` with the field's value. */
  lemma AffBlockShape(aff: Affiliation, contribType: string, m: nat)
    requires m < 6
    ensures var b := AffBlocks(aff, contribType)[m];
      && AffSlot(b.1) == m && (m <= 2 ==> b.1.tail == ", ")
      && (if b.0 then Some(SlotText(b.1)) else None) == AffExpected(aff, contribType, m)
  {
    var city := Node("named-content", [Attribute("content-type", "city")], aff.city, "", []);
    assert ChildText(Node("addr-line", [], "", ", ", [city]), "named-content") == Some(aff.city);
  }

  /** After `m` steps the children are ordered and hold the first `m` slots. */
  lemma {:induction false} AffPrefixSlots(aff: Affiliation, contribType: string, m: nat)
    requires m <= 6
    ensures WellOrderedAff(AffPrefix(aff, contribType, m))
    ensures forall i :: 0 <= i < |AffPrefix(aff, contribType, m)| ==> AffSlot(AffPrefix(aff, contribType, m)[i]) < m
    ensures forall k: nat :: SlotValue(AffPrefix(aff, contribType, m), k) == if k < m then AffExpected(aff, contribType, k) else None
  {
    if m > 0 {
      AffPrefixSlots(aff, contribType, m - 1);
      AffBlockShape(aff, contribType, m - 1);
      var b := AffBlocks(aff, contribType)[m - 1];
      var acc := AffPrefix(aff, contribType, m - 1);
      AppendAffBlockOrdered(acc, b.0, b.1, m - 1);
      forall k: nat ensures SlotValue(acc + OptNode(b.0, b.1), k) == if k < m then AffExpected(aff, contribType, k) else None {
        AppendAffBlockSlot(acc, b.0, b.1, k);
        if k == m - 1 {
          assert SlotValue(acc, k) == None;
        } else {
          assert SlotValue(acc + OptNode(b.0, b.1), k) == SlotValue(acc, k);
        }
      }
    }
  }

  /** All six steps leave the children ordered, with each slot holding its field. */
  lemma AffChildren(aff: Affiliation, contribType: string)
    ensures var p := AffPrefix(aff, contribType, 6);
      && WellOrderedAff(p)
      && SlotValue(p, 0) == (if contribType != "editor" then NonEmpty(aff.department) else None)
      && SlotValue(p, 1) == NonEmpty(aff.institution)
      && SlotValue(p, 2) == NonEmpty(aff.city)
      && SlotValue(p, 3) == NonEmpty(aff.country)
      && SlotValue(p, 4) == NonEmpty(aff.phone)
      && SlotValue(p, 5) == NonEmpty(aff.fax)
  {
    AffPrefixSlots(aff, contribType, 6);
    var p := AffPrefix(aff, contribType, 6);
    assert SlotValue(p, 0) == AffExpected(aff, contribType, 0);
    assert SlotValue(p, 1) == AffExpected(aff, contribType, 1);
    assert SlotValue(p, 2) == AffExpected(aff, contribType, 2);
    assert SlotValue(p, 3) == AffExpected(aff, contribType, 3);
    assert SlotValue(p, 4) == AffExpected(aff, contribType, 4);
    assert SlotValue(p, 5) == AffExpected(aff, contribType, 5);
  }

  /** `set_aff`: department (never for editors), institution, city, country,
      phone and fax, each only when present and always in that order. */
  function SetAff(aff: Affiliation, contribType: string, affId: string): (r: Node)
    ensures r.tag == "aff"
    ensures GetAttr(r, "id") == NonEmpty(affId)
    ensures WellOrderedAff(r.children)
    ensures SlotValue(r.children, 0) == (if contribType != "editor" then NonEmpty(aff.department) else None)
    ensures SlotValue(r.children, 1) == NonEmpty(aff.institution)
    ensures SlotValue(r.children, 2) == NonEmpty(aff.city)
    ensures SlotValue(r.children, 3) == NonEmpty(aff.country)
    ensures SlotValue(r.children, 4) == NonEmpty(aff.phone)
    ensures SlotValue(r.children, 5) == NonEmpty(aff.fax)
  {
    var steps := AffSteps(aff, contribType);
    AffChildren(aff, contribType);
    var n := Element("aff");
    var n := if affId != "" then WithAttr(n, "id", affId) else n;
    n.(children := AffPrefix(aff, contribType, steps))
  }

  // ---------------------------------------------------------------------------
  // Copyright, licence and permissions

  predicate NotEditor(c: Contributor) {
    c.contribType != "editor"
  }

  /** The contributors who count as authors for the copyright line. */
  function NonEditors(cs: seq<Contributor>): seq<Contributor> {
    Filter(cs, NotEditor)
  }

  /** The copyright holder named after the non-editor contributors: nobody, one
      surname, two surnames joined by " & ", or the first surname and " et al". */
  function CopyrightHolder(cs: seq<Contributor>): (r: string)
    ensures NonEditors(cs) == [] ==> r == ""
    ensures |NonEditors(cs)| == 1 ==> r == NonEditors(cs)[0].surname
    ensures |NonEditors(cs)| == 2 ==> r == NonEditors(cs)[0].surname + " & " + NonEditors(cs)[1].surname
    ensures |NonEditors(cs)| > 2 ==> r == NonEditors(cs)[0].surname + " et al"
  {
    var ne := NonEditors(cs);
    if |ne| > 2 then ne[0].surname + " et al"
    else if |ne| == 2 then ne[0].surname + " & " + ne[1].surname
    else if |ne| == 1 then ne[0].surname
    else ""
  }

  /** Adding an editor anywhere in the contributor list leaves the holder as it was. */
  lemma CopyrightHolderIgnoresEditors(cs: seq<Contributor>, i: nat, e: Contributor)
    requires i <= |cs| && IsEditor(e)
    ensures CopyrightHolder(cs[..i] + [e] + cs[i..]) == CopyrightHolder(cs)
  {
    FilterAppend(cs[..i] + [e], cs[i..], NotEditor);
    FilterAppend(cs[..i], [e], NotEditor);
    FilterAppend(cs[..i], cs[i..], NotEditor);
    assert Filter([e], NotEditor) == [] by { FilterSingleton(e, NotEditor); }
    assert cs[..i] + cs[i..] == cs;
  }

  /** The year of the copyright line: that of the licence date, else that of
      the accepted date, else nothing. */
  function CopyrightYear(a: Article): (r: string)
    ensures r == "" <==> "license" !in a.dates && "accepted" !in a.dates
    ensures "license" in a.dates ==> AllDigits(r) && ParseDecimal(r) == a.dates["license"].year
    ensures "license" !in a.dates && "accepted" in a.dates ==>
      AllDigits(r) && ParseDecimal(r) == a.dates["accepted"].year
    ensures "license" in a.dates ==> r == NatToString(a.dates["license"].year)
    ensures "license" !in a.dates && "accepted" in a.dates ==> r == NatToString(a.dates["accepted"].year)
  {
    var date := if GetDate(a, "license").Some? then GetDate(a, "license") else GetDate(a, "accepted");
    match date
    case Some(d) => ParseNatToString(d.year); NatToString(d.year)
    case None => ""
  }

  /** `set_copyright`: statement, year and holder, the statement built from
      the other two. */
  function SetCopyright(a: Article): (r: seq<Node>)
    ensures |r| == 3 && r[0].tag == "copyright-statement" && r[1].tag == "copyright-year" && r[2].tag == "copyright-holder"
    ensures r[1].text == CopyrightYear(a) && r[2].text == CopyrightHolder(a.contributors)
    ensures r[0].text == "\U{00A9} " + r[1].text + ", " + r[2].text
  {
    var year := CopyrightYear(a);
    var holder := CopyrightHolder(a.contributors);
    [Leaf("copyright-statement", "\U{00A9} " + year + ", " + holder),
     Leaf("copyright-year", year),
     Leaf("copyright-holder", holder)]
  }

  /** `set_license`: the licence link and its paragraph, the link text being
      the licence name set between the two paragraph parts. */
  function SetLicense(lic: License): (r: Node)
    ensures r.tag == "license" && GetAttr(r, "xlink:href") == Some(lic.href)
    ensures |r.children| == 1 && r.children[0].tag == "license-p" && r.children[0].text == lic.paragraph1
    ensures |r.children[0].children| == 1
    ensures var link := r.children[0].children[0];
      && link.tag == "ext-link" && GetAttr(link, "ext-link-type") == Some("uri")
      && GetAttr(link, "xlink:href") == Some(lic.href)
      && link.text == lic.name && link.tail == lic.paragraph2
  {
    var link := WithAttr(WithAttr(Element("ext-link"), "ext-link-type", "uri"), "xlink:href", lic.href);
    assert GetAttr(link, "ext-link-type") == Some("uri") && GetAttr(link, "xlink:href") == Some(lic.href);
    var link := link.(text := lic.name, tail := lic.paragraph2);
    var p := Append(Leaf("license-p", lic.paragraph1), link);
    var license := WithAttr(Element("license"), "xlink:href", lic.href);
    assert p.children == [link];
    Append(license, p)
  }

  /** `set_permissions`: the copyright elements when the licence asks for them,
      then the licence. */
  function SetPermissions(a: Article): (r: Node)
    requires a.license.Some?
    ensures r.tag == "permissions"
    ensures r.children == (if a.license.value.copyright then SetCopyright(a) else []) + [SetLicense(a.license.value)]
  {
    var permissions := Element("permissions");
    var permissions := if a.license.value.copyright then permissions.(children := SetCopyright(a)) else permissions;
    Append(permissions, SetLicense(a.license.value))
  }

  /** The permissions hold copyright elements exactly when the licence asks for
      them, and always exactly one licence. */
  lemma PermissionsShape(a: Article)
    requires a.license.Some?
    ensures CountTag(SetPermissions(a).children, "license") == 1
    ensures CountTag(SetPermissions(a).children, "copyright-statement") == if a.license.value.copyright then 1 else 0
  {
    var cp := if a.license.value.copyright then SetCopyright(a) else [];
    var lic := SetLicense(a.license.value);
    CountTagSingleton(lic, "license");
    CountTagSingleton(lic, "copyright-statement");
    CountTagAppend(cp, [lic], "license");
    CountTagAppend(cp, [lic], "copyright-statement");
    if a.license.value.copyright {
      assert cp == [cp[0]] + [cp[1]] + [cp[2]];
      CountTagSingleton(cp[0], "license");
      CountTagSingleton(cp[1], "license");
      CountTagSingleton(cp[2], "license");
      CountTagSingleton(cp[0], "copyright-statement");
      CountTagSingleton(cp[1], "copyright-statement");
      CountTagSingleton(cp[2], "copyright-statement");
      CountTagAppend([cp[0]] + [cp[1]], [cp[2]], "license");
      CountTagAppend([cp[0]], [cp[1]], "license");
      CountTagAppend([cp[0]] + [cp[1]], [cp[2]], "copyright-statement");
      CountTagAppend([cp[0]], [cp[1]], "copyright-statement");
    }
  }

  // ---------------------------------------------------------------------------
  // Titles, abstract, keywords and volume

  /** `set_title_group`: the article title wrapped in a title group. */
  function SetTitleGroup(a: Article): (r: Node)
    ensures r.tag == "title-group" && r.children == [Leaf("article-title", a.title)]
  {
    AppendToTag(Element("title-group"), "article-title", a.title)
  }

  /** `set_abstract`: the abstract text as one paragraph. */
  function SetAbstract(a: Article): (r: Node)
    ensures r.tag == "abstract" && r.children == [Leaf("p", a.abstractText)]
  {
    AppendToTag(Element("abstract"), "p", a.abstractText)
  }

  /** `set_kwd_group_research_organism`: a title, then one keyword per
      research organism in order. */
  function SetKwdGroupResearchOrganism(a: Article): (r: Node)
    ensures r.tag == "kwd-group" && GetAttr(r, "kwd-group-type") == Some("research-organism")
    ensures |r.children| == 1 + |a.researchOrganisms| && r.children[0] == Leaf("title", "Research organism")
    ensures forall i :: 0 <= i < |a.researchOrganisms| ==> r.children[1 + i] == Leaf("kwd", a.researchOrganisms[i])
  {
    var group := Append(WithAttr(Element("kwd-group"), "kwd-group-type", "research-organism"),
                        Leaf("title", "Research organism"));
    group.(children := group.children + seq(|a.researchOrganisms|, i requires 0 <= i < |a.researchOrganisms| =>
      Leaf("kwd", a.researchOrganisms[i])))
  }

  /** `set_volume`: the volume number, when there is one. */
  function SetVolume(a: Article): (r: seq<Node>)
    ensures |r| == (if a.volume != 0 then 1 else 0)
    ensures a.volume != 0 ==> r[0].tag == "volume" && AllDigits(r[0].text) && ParseDecimal(r[0].text) == a.volume
    ensures a.volume != 0 ==> r[0].text == NatToString(a.volume)
  {
    ParseNatToString(a.volume);
    if a.volume != 0 then [Leaf("volume", NatToString(a.volume))] else []
  }

  // ---------------------------------------------------------------------------
  // Dates

  /** `set_dmy`: day and month zero-padded to two digits, then the year; each
      reads back as the number it came from. */
  function SetDmy(d: Date): (r: seq<Node>)
    ensures |r| == 3 && r[0].tag == "day" && r[1].tag == "month" && r[2].tag == "year"
    ensures AllDigits(r[0].text) && ParseDecimal(r[0].text) == d.day
    ensures |r[0].text| == if |NatToString(d.day)| >= 2 then |NatToString(d.day)| else 2
    ensures AllDigits(r[1].text) && ParseDecimal(r[1].text) == d.month
    ensures |r[1].text| == if |NatToString(d.month)| >= 2 then |NatToString(d.month)| else 2
    ensures AllDigits(r[2].text) && ParseDecimal(r[2].text) == d.year
    ensures r[2].text == NatToString(d.year)
  {
    var day := ZFill(NatToString(d.day), 2);
    var month := ZFill(NatToString(d.month), 2);
    var year := NatToString(d.year);
    ZFillNatValue(d.day, 2);
    ZFillNatValue(d.month, 2);
    ParseNatToString(d.year);
    [Leaf("day", day), Leaf("month", month), Leaf("year", year)]
  }

  /** `set_date`: a dated element for `dateType` when the article has that date. */
  function SetDate(a: Article, dateType: string): (r: seq<Node>)
    ensures |r| == (if dateType in a.dates then 1 else 0)
    ensures dateType in a.dates ==>
      && r[0].tag == "date" && GetAttr(r[0], "date-type") == Some(dateType)
      && r[0].children == SetDmy(a.dates[dateType])
  {
    match GetDate(a, dateType)
    case Some(d) => [WithAttr(Element("date"), "date-type", dateType).(children := SetDmy(d))]
    case None => []
  }

  /** `set_pub_date`: only the "pub" date is ever written. */
  function SetPubDate(a: Article, pubType: string): (r: seq<Node>)
    ensures |r| == (if pubType == "pub" && pubType in a.dates then 1 else 0)
    ensures pubType == "pub" && pubType in a.dates ==>
      && r[0].tag == "pub-date" && GetAttr(r[0], "date-type") == Some(pubType)
      && GetAttr(r[0], "publication-format") == Some("electronic")
      && r[0].children == SetDmy(a.dates[pubType])
  {
    if pubType == "pub" && pubType in a.dates then
      var tag := WithAttr(WithAttr(Element("pub-date"), "date-type", pubType), "publication-format", "electronic");
      assert GetAttr(tag, "date-type") == Some(pubType);
      [tag.(children := SetDmy(a.dates[pubType]))]
    else []
  }

  /** The date types of `dateTypes` the article has a date for, in order. */
  function PresentDateTypes(a: Article, dateTypes: seq<string>): seq<string> {
    Filter(dateTypes, (t: string) => t in a.dates)
  }

  /** `set_history`: one date element per listed date type the article has, in
      the order listed. */
  function SetHistory(a: Article, dateTypes: seq<string>): (r: Node)
    ensures r.tag == "history"
    ensures var present := PresentDateTypes(a, dateTypes);
      && |r.children| == |present|
      && forall i :: 0 <= i < |present| ==> r.children[i] == SetDate(a, present[i])[0]
  {
    var present := PresentDateTypes(a, dateTypes);
    Element("history").(children := seq(|present|, i requires 0 <= i < |present| => SetDate(a, present[i])[0]))
  }

  // ---------------------------------------------------------------------------
  // Funding

  /** The award group id `"par-" + str(n)`. */
  function ParId(n: nat): string {
    "par-" + NatToString(n)
  }

  lemma ParIdInjective(a: nat, b: nat)
    ensures ParId(a) == ParId(b) ==> a == b
  {
    PrefixedNumberInjective("par-", a, b);
  }

  /** Funder registry ids are written as DOIs under this prefix. */
  const FundRefPrefix := "http://dx.doi.org/10.13039/"

  /** `set_funding_source`: the funder's registry DOI and its name, each only
      when present. `decode` stands for the entity decoding applied to the name. */
  function SetFundingSource(institutionId: string, institutionName: string, decode: string -> string): (r: Node)
    ensures r.tag == "funding-source" && |r.children| == 1 && r.children[0].tag == "institution-wrap"
    ensures var wrap := r.children[0].children;
      && |wrap| == (if institutionId != "" then 1 else 0) + (if institutionName != "" then 1 else 0)
      && (institutionId != "" ==>
            && wrap[0].tag == "institution-id" && wrap[0].text == FundRefPrefix + institutionId
            && GetAttr(wrap[0], "institution-id-type") == Some("FundRef"))
      && (institutionName != "" ==> wrap[|wrap| - 1] == Leaf("institution", decode(institutionName)))
  {
    var idTag := WithAttr(Element("institution-id"), "institution-id-type", "FundRef").(text := FundRefPrefix + institutionId);
    var wrap := Element("institution-wrap");
    var wrap := if institutionId != "" then Append(wrap, idTag) else wrap;
    var wrap := if institutionName != "" then Append(wrap, Leaf("institution", decode(institutionName))) else wrap;
    Append(Element("funding-source"), wrap)
  }

  /** `set_principal_award_recipients`: one name per recipient, in order. */
  function SetPrincipalAwardRecipients(award: FundingAward): (r: Node)
    ensures r.tag == "principal-award-recipient"
    ensures |r.children| == |award.principalAwardRecipients|
    ensures forall i :: 0 <= i < |r.children| ==> r.children[i] == SetName(award.principalAwardRecipients[i])
  {
    var rs := award.principalAwardRecipients;
    Element("principal-award-recipient").(children := seq(|rs|, i requires 0 <= i < |rs| => SetName(rs[i])))
  }

  /** One `award-id` element per award id, in order. */
  function AwardIdTags(ids: seq<string>): (r: seq<Node>)
    ensures |r| == |ids| && forall i :: 0 <= i < |ids| ==> r[i] == Leaf("award-id", ids[i])
  {
    seq(|ids|, i requires 0 <= i < |ids| => Leaf("award-id", ids[i]))
  }

  /** `set_award_group`: the funding source when the award names a funder, one
      `award-id` per award id, then the recipients when there are any. */
  function SetAwardGroup(award: FundingAward, parId: string, decode: string -> string): (r: Node)
    ensures r.tag == "award-group" && GetAttr(r, "id") == Some(parId)
    ensures r.children
      == (if award.institutionName != "" || award.institutionId != ""
          then [SetFundingSource(award.institutionId, award.institutionName, decode)] else [])
       + AwardIdTags(award.awardIds)
       + (if award.principalAwardRecipients != [] then [SetPrincipalAwardRecipients(award)] else [])
  {
    var source := if award.institutionName != "" || award.institutionId != ""
      then [SetFundingSource(award.institutionId, award.institutionName, decode)] else [];
    var recipients := if award.principalAwardRecipients != [] then [SetPrincipalAwardRecipients(award)] else [];
    WithAttr(Element("award-group").(children := source + AwardIdTags(award.awardIds) + recipients), "id", parId)
  }

  /** How often tag `t` occurs among an award group's children. */
  lemma AwardGroupCount(award: FundingAward, parId: string, decode: string -> string, t: string)
    ensures CountTag(SetAwardGroup(award, parId, decode).children, t)
      == (if t == "funding-source" && (award.institutionName != "" || award.institutionId != "") then 1 else 0)
       + (if t == "award-id" then |award.awardIds| else 0)
       + (if t == "principal-award-recipient" && award.principalAwardRecipients != [] then 1 else 0)
  {
    var source := if award.institutionName != "" || award.institutionId != ""
      then [SetFundingSource(award.institutionId, award.institutionName, decode)] else [];
    var ids := AwardIdTags(award.awardIds);
    var recipients := if award.principalAwardRecipients != [] then [SetPrincipalAwardRecipients(award)] else [];
    CountTagAppend(source + ids, recipients, t);
    CountTagAppend(source, ids, t);
    CountTagUniform(ids, "award-id", t);
    if source != [] { CountTagSingleton(source[0], t); }
    if recipients != [] { CountTagSingleton(recipients[0], t); }
  }

  /** An award group holds one funding source exactly when the award names a
      funder, one `award-id` per award id, and one recipient list exactly when
      the award has principal recipients. */
  lemma AwardGroupCounts(award: FundingAward, parId: string, decode: string -> string)
    ensures CountTag(SetAwardGroup(award, parId, decode).children, "funding-source")
      == if award.institutionName != "" || award.institutionId != "" then 1 else 0
    ensures CountTag(SetAwardGroup(award, parId, decode).children, "award-id") == |award.awardIds|
    ensures CountTag(SetAwardGroup(award, parId, decode).children, "principal-award-recipient")
      == if award.principalAwardRecipients != [] then 1 else 0
  {
    AwardGroupCount(award, parId, decode, "funding-source");
    AwardGroupCount(award, parId, decode, "award-id");
    AwardGroupCount(award, parId, decode, "principal-award-recipient");
  }

  /** `set_funding_group`: award group `par-<i+1>` for the `i`-th award, then
      the funding statement when there is a note. */
  function SetFundingGroup(a: Article, decode: string -> string): (r: Node)
    ensures r.tag == "funding-group"
    ensures |r.children| == |a.fundingAwards| + (if a.fundingNote != "" then 1 else 0)
    ensures forall i :: 0 <= i < |a.fundingAwards| ==>
      r.children[i] == SetAwardGroup(a.fundingAwards[i], ParId(i + 1), decode)
    ensures a.fundingNote != "" ==> r.children[|r.children| - 1] == Leaf("funding-statement", a.fundingNote)
  {
    var awards := a.fundingAwards;
    var groups := seq(|awards|, i requires 0 <= i < |awards| => SetAwardGroup(awards[i], ParId(i + 1), decode));
    var note := if a.fundingNote != "" then [Leaf("funding-statement", a.fundingNote)] else [];
    Element("funding-group").(children := groups + note)
  }

  /** How many principal recipients of an award carry the author id. */
  function MatchCount(recipients: seq<Contributor>, authId: string): nat {
    |Filter(recipients, (c: Contributor) => c.authId == authId)|
  }

  lemma {:induction false} MultisetOfConstant(m: nat, n: nat, k: nat)
    ensures multiset(seq(m, _ => n))[k] == if k == n then m else 0
    decreases m
  {
    if m > 0 {
      assert seq(m, _ => n) == seq(m - 1, _ => n) + [n];
      MultisetOfConstant(m - 1, n, k);
    } else {
      assert seq(m, _ => n) == [];
    }
  }

  /** The 1-based positions of the awards, repeated once per principal
      recipient carrying the author id. */
  function ParNumbers(awards: seq<FundingAward>, authId: string): seq<nat>
    decreases |awards|
  {
    if |awards| == 0 then []
    else
      var n := |awards|;
      ParNumbers(awards[..n - 1], authId) + seq(MatchCount(awards[n - 1].principalAwardRecipients, authId), _ => n)
  }

  /** The positions are ascending and each names an award. */
  lemma {:induction false} ParNumbersSorted(awards: seq<FundingAward>, authId: string)
    ensures forall i :: 0 <= i < |ParNumbers(awards, authId)| ==> 1 <= ParNumbers(awards, authId)[i] <= |awards|
    ensures forall i, j :: 0 <= i <= j < |ParNumbers(awards, authId)| ==>
      ParNumbers(awards, authId)[i] <= ParNumbers(awards, authId)[j]
    decreases |awards|
  {
    if |awards| > 0 {
      var n := |awards|;
      ParNumbersSorted(awards[..n - 1], authId);
      var init := ParNumbers(awards[..n - 1], authId);
      var last := seq(MatchCount(awards[n - 1].principalAwardRecipients, authId), _ => n);
      assert ParNumbers(awards, authId) == init + last;
      assert forall i :: 0 <= i < |last| ==> last[i] == n;
    }
  }

  /** Award `k` is listed once per matching principal recipient, and nothing
      outside `1..|awards|` is listed. */
  lemma {:induction false} ParNumbersCount(awards: seq<FundingAward>, authId: string, k: nat)
    ensures multiset(ParNumbers(awards, authId))[k]
      == if 1 <= k <= |awards| then MatchCount(awards[k - 1].principalAwardRecipients, authId) else 0
    decreases |awards|
  {
    if |awards| > 0 {
      var n := |awards|;
      ParNumbersCount(awards[..n - 1], authId, k);
      MultisetOfConstant(MatchCount(awards[n - 1].principalAwardRecipients, authId), n, k);
      if 1 <= k < n {
        assert awards[..n - 1][k - 1] == awards[k - 1];
      }
    }
  }

  /** `get_contrib_par_ids`: the award group ids the author's funding xrefs
      point at, one per listed position. */
  function GetContribParIds(a: Article, authId: string): (r: seq<string>)
    ensures |r| == |ParNumbers(a.fundingAwards, authId)|
    ensures forall i :: 0 <= i < |r| ==> r[i] == ParId(ParNumbers(a.fundingAwards, authId)[i])
  {
    var nums := ParNumbers(a.fundingAwards, authId);
    seq(|nums|, i requires 0 <= i < |nums| => ParId(nums[i]))
  }

  /** The award group at position `j` of the funding group carries `par-<j+1>`. */
  lemma AwardGroupId(a: Article, decode: string -> string, j: nat)
    requires j < |a.fundingAwards|
    ensures GetAttr(SetFundingGroup(a, decode).children[j], "id") == Some(ParId(j + 1))
  {
  }

  /** Every id `get_contrib_par_ids` returns is the id of an award group in the
      funding group: the one at the listed position. */
  lemma ContribParIdsNameAwardGroups(a: Article, authId: string, decode: string -> string)
    ensures forall i :: 0 <= i < |GetContribParIds(a, authId)| ==>
      && 1 <= ParNumbers(a.fundingAwards, authId)[i] <= |a.fundingAwards|
      && GetAttr(SetFundingGroup(a, decode).children[ParNumbers(a.fundingAwards, authId)[i] - 1], "id")
         == Some(GetContribParIds(a, authId)[i])
  {
    var nums := ParNumbers(a.fundingAwards, authId);
    ParNumbersSorted(a.fundingAwards, authId);
    forall i | 0 <= i < |GetContribParIds(a, authId)|
      ensures 1 <= nums[i] <= |a.fundingAwards|
      ensures GetAttr(SetFundingGroup(a, decode).children[nums[i] - 1], "id") == Some(GetContribParIds(a, authId)[i])
    {
      AwardGroupId(a, decode, nums[i] - 1);
    }
  }

  // ---------------------------------------------------------------------------
  // Author notes

  /** The position of the first affiliation with an email, or `|affs|`. */
  function FirstEmailIndex(affs: seq<Affiliation>): (i: nat)
    ensures i <= |affs|
    ensures forall j :: 0 <= j < i ==> affs[j].email == ""
    ensures i < |affs| ==> affs[i].email != ""
    decreases |affs|
  {
    if |affs| == 0 then 0
    else if affs[0].email != "" then 0
    else 1 + FirstEmailIndex(affs[1..])
  }

  /** The email the corresponding-author note uses: the first one found, or "". */
  function FirstEmail(affs: seq<Affiliation>): (r: string)
    ensures r == "" <==> forall j :: 0 <= j < |affs| ==> affs[j].email == ""
    ensures forall i :: 0 <= i < |affs| && affs[i].email != "" && (forall j :: 0 <= j < i ==> affs[j].email == "") ==> r == affs[i].email
  {
    var i := FirstEmailIndex(affs);
    if i < |affs| then affs[i].email else ""
  }

  predicate HasEmail(c: Contributor) {
    FirstEmail(c.affiliations) != ""
  }

  /** A contributor whose initials can be taken. */
  predicate HasNames(c: Contributor) {
    c.givenName != "" && c.surname != ""
  }

  function Initials(c: Contributor): string
    requires HasNames(c)
  {
    [c.givenName[0], c.surname[0]]
  }

  /** The corresponding-author id `"cor" + str(n)`. */
  function CorrespId(n: nat): string {
    "cor" + NatToString(n)
  }

  lemma CorrespIdInjective(a: nat, b: nat)
    ensures CorrespId(a) == CorrespId(b) ==> a == b
  {
    PrefixedNumberInjective("cor", a, b);
  }

  /** `set_corresp`: with an email, a note `cor<count>` giving the email and
      the initials; without one, nothing. */
  function SetCorresp(c: Contributor, count: nat): (r: seq<Node>)
    requires HasNames(c)
    ensures |r| == (if HasEmail(c) then 1 else 0)
    ensures HasEmail(c) ==>
      && r[0].tag == "corresp" && GetAttr(r[0], "id") == Some(CorrespId(count))
      && |r[0].children| == 2
      && r[0].children[0] == Node("label", [], "*", "For correspondence: ", [])
      && r[0].children[1] == Node("email", [], FirstEmail(c.affiliations), " (" + Initials(c) + ");", [])
  {
    var email := FirstEmail(c.affiliations);
    var initials := Initials(c);
    if email != "" then
      [Node("corresp", [Attribute("id", CorrespId(count))], "", "",
            [Node("label", [], "*", "For correspondence: ", []),
             Node("email", [], email, " (" + initials + ");", [])])]
    else []
  }

  /** The counters of the notes written for `cc`, numbered from `start + 1`:
      those of the contributors with an email. */
  function EmailedNumbers(cc: seq<Contributor>, start: nat): seq<nat> {
    Positions(cc, HasEmail, start)
  }

  /** The counters stay within `start+1..start+|cc|` and belong to
      contributors with an email. */
  lemma EmailedNumbersBelong(cc: seq<Contributor>, start: nat)
    ensures forall i :: 0 <= i < |EmailedNumbers(cc, start)| ==>
      && start < EmailedNumbers(cc, start)[i] <= start + |cc|
      && HasEmail(cc[EmailedNumbers(cc, start)[i] - start - 1])
  {
    PositionsBelong(cc, HasEmail, start);
  }

  /** The counters increase strictly. */
  lemma EmailedNumbersIncrease(cc: seq<Contributor>, start: nat)
    ensures forall i, j :: 0 <= i < j < |EmailedNumbers(cc, start)| ==>
      EmailedNumbers(cc, start)[i] < EmailedNumbers(cc, start)[j]
  {
    PositionsIncrease(cc, HasEmail, start);
  }

  /** Every contributor with an email gets a note. */
  lemma EmailedNumbersComplete(cc: seq<Contributor>, start: nat, k: nat)
    requires k < |cc| && HasEmail(cc[k])
    ensures start + k + 1 in EmailedNumbers(cc, start)
  {
    PositionsComplete(cc, HasEmail, start, k);
  }

  /** `set_corresp` where it can be called: the note for a named contributor. */
  function NoteOf(c: Contributor, n: nat): seq<Node> {
    if HasNames(c) then SetCorresp(c, n) else []
  }

  /** The notes for the corresponding contributors `cc`, the `k`-th of them
      counted as `start + k + 1` whether or not a note is written. */
  function CorrespNotes(cc: seq<Contributor>, start: nat): seq<Node>
    requires forall i :: 0 <= i < |cc| ==> HasNames(cc[i])
  {
    Gather(cc, NoteOf, start)
  }

  /** Note `i` of `r` is the one `set_corresp` writes for the emailed
      contributor whose counter is `ns[i]`. */
  ghost predicate NotesFor(cc: seq<Contributor>, start: nat, r: seq<Node>, ns: seq<nat>) {
    && |r| == |ns|
    && forall i :: 0 <= i < |r| ==>
         && start < ns[i] <= start + |cc| && HasEmail(cc[ns[i] - start - 1]) && HasNames(cc[ns[i] - start - 1])
         && SetCorresp(cc[ns[i] - start - 1], ns[i]) == [r[i]]
  }

  /** The `i`-th note is the one `set_corresp` writes for the contributor whose
      counter it carries. */
  lemma CorrespNotesContent(cc: seq<Contributor>, start: nat)
    requires forall i :: 0 <= i < |cc| ==> HasNames(cc[i])
    ensures NotesFor(cc, start, CorrespNotes(cc, start), EmailedNumbers(cc, start))
  {
    GatheredNotes(cc, start, CorrespNotes(cc, start), EmailedNumbers(cc, start));
  }

  lemma GatheredNotes(cc: seq<Contributor>, start: nat, r: seq<Node>, ns: seq<nat>)
    requires forall i :: 0 <= i < |cc| ==> HasNames(cc[i])
    requires r == Gather(cc, NoteOf, start) && ns == Positions(cc, HasEmail, start)
    ensures NotesFor(cc, start, r, ns)
  {
    NoteOfCounts(cc);
    GatherPositions(cc, NoteOf, HasEmail, start, r, ns);
    NotesOfNamed(cc, start, r, ns);
  }

  /** The notes carry exactly the counters of the contributors with an email. */
  lemma CorrespNotesIds(cc: seq<Contributor>, start: nat)
    requires forall i :: 0 <= i < |cc| ==> HasNames(cc[i])
    ensures var r := CorrespNotes(cc, start);
      && |r| == |EmailedNumbers(cc, start)|
      && forall i :: 0 <= i < |r| ==>
           r[i].tag == "corresp" && GetAttr(r[i], "id") == Some(CorrespId(EmailedNumbers(cc, start)[i]))
  {
    var r := CorrespNotes(cc, start);
    var ns := EmailedNumbers(cc, start);
    CorrespNotesContent(cc, start);
    forall i | 0 <= i < |r|
      ensures r[i].tag == "corresp" && GetAttr(r[i], "id") == Some(CorrespId(ns[i]))
    {
      var c := cc[ns[i] - start - 1];
      assert SetCorresp(c, ns[i])[0] == r[i];
    }
  }

  /** Among named contributors, the gathered notes are `set_corresp`'s. */
  lemma NotesOfNamed(cc: seq<Contributor>, start: nat, r: seq<Node>, ns: seq<nat>)
    requires forall i :: 0 <= i < |cc| ==> HasNames(cc[i])
    requires forall i :: 0 <= i < |r| && i < |ns| ==>
      start < ns[i] <= start + |cc| && NoteOf(cc[ns[i] - start - 1], ns[i]) == [r[i]]
    ensures forall i :: 0 <= i < |r| && i < |ns| ==> SetCorresp(cc[ns[i] - start - 1], ns[i]) == [r[i]]
  {
    forall i | 0 <= i < |r| && i < |ns| ensures SetCorresp(cc[ns[i] - start - 1], ns[i]) == [r[i]] {
      assert HasNames(cc[ns[i] - start - 1]);
    }
  }

  lemma NoteOfCounts(cc: seq<Contributor>)
    requires forall i :: 0 <= i < |cc| ==> HasNames(cc[i])
    ensures forall k, n: nat :: 0 <= k < |cc| ==> |NoteOf(cc[k], n)| == (if HasEmail(cc[k]) then 1 else 0)
  {
    forall k, n: nat | 0 <= k < |cc| ensures |NoteOf(cc[k], n)| == (if HasEmail(cc[k]) then 1 else 0) {
      assert HasNames(cc[k]);
    }
  }

  /** `set_author_notes`: the notes of the corresponding contributors in
      contributor order. */
  function SetAuthorNotes(a: Article): (r: Node)
    requires forall i :: 0 <= i < |a.contributors| && IsCorresp(a.contributors[i]) ==> HasNames(a.contributors[i])
    ensures r.tag == "author-notes"
    ensures r.children == CorrespNotes(Filter(a.contributors, IsCorresp), 0)
  {
    var cc := Filter(a.contributors, IsCorresp);
    Element("author-notes").(children := CorrespNotes(cc, 0))
  }

  /** Note ids need not be contiguous: a first corresponding author without an
      email leaves `cor1` unused. */
  lemma CorrespIdsMaySkip(c1: Contributor, c2: Contributor)
    requires HasNames(c1) && HasNames(c2) && !HasEmail(c1) && HasEmail(c2)
    ensures |CorrespNotes([c1, c2], 0)| == 1
    ensures GetAttr(CorrespNotes([c1, c2], 0)[0], "id") == Some(CorrespId(2))
  {
    assert [c1, c2][..1] == [c1];
    assert [c1][..0] == [];
    assert Positions([c1][..0], HasEmail, 0) == [];
    assert Positions([c1], HasEmail, 0) == [];
    assert EmailedNumbers([c1, c2], 0) == Positions([c1], HasEmail, 0) + [2];
    CorrespNotesIds([c1, c2], 0);
  }

  // ---------------------------------------------------------------------------
  // Article categories

  /** `do_display_channel`: the display channel is present and not blank. */
  function DoDisplayChannel(a: Article): (r: bool)
    ensures r <==> !IsBlank(a.displayChannel)
  {
    StripNonEmptyIffNotBlank(a.displayChannel);
    a.displayChannel != "" && Strip(a.displayChannel) != ""
  }

  /** The test `set_article_categories` applies to each category. */
  predicate IsHeading(category: string) {
    category != "" && LStrip(RStrip(category)) != ""
  }

  lemma IsHeadingIffNotBlank(category: string)
    ensures IsHeading(category) <==> !IsBlank(category)
  {
    RStripLStripNonEmptyIffNotBlank(category);
  }

  /** The categories that become subject headings, in order. */
  function Headings(a: Article): seq<string> {
    Filter(a.articleCategories, IsHeading)
  }

  /** There is a heading exactly when some category is not blank. */
  lemma HeadingsNonEmptyIff(a: Article)
    ensures Headings(a) != [] <==> exists i :: 0 <= i < |a.articleCategories| && !IsBlank(a.articleCategories[i])
  {
    var cats := a.articleCategories;
    if Headings(a) != [] {
      var h := Headings(a)[0];
      assert h in cats && IsHeading(h);
      var i :| 0 <= i < |cats| && cats[i] == h;
      IsHeadingIffNotBlank(h);
    }
    if i :| 0 <= i < |cats| && !IsBlank(cats[i]) {
      IsHeadingIffNotBlank(cats[i]);
      assert cats[i] in Headings(a);
    }
  }

  /** `do_subject_heading`: some category is not blank. */
  function DoSubjectHeading(a: Article): (r: bool)
    ensures r <==> exists i :: 0 <= i < |a.articleCategories| && !IsBlank(a.articleCategories[i])
  {
    HeadingsNonEmptyIff(a);
    Headings(a) != []
  }

  /** `do_article_categories`. */
  function DoArticleCategories(a: Article): (r: bool)
    ensures r <==> !IsBlank(a.displayChannel) || exists i :: 0 <= i < |a.articleCategories| && !IsBlank(a.articleCategories[i])
  {
    DoDisplayChannel(a) || DoSubjectHeading(a)
  }

  /** `<subj-group subj-group-type=groupType><subject>subject</subject></subj-group>` */
  function SubjGroup(groupType: string, subject: string): (r: Node)
    ensures r.tag == "subj-group" && GetAttr(r, "subj-group-type") == Some(groupType)
    ensures r.children == [Leaf("subject", subject)]
  {
    Append(WithAttr(Element("subj-group"), "subj-group-type", groupType), Leaf("subject", subject))
  }

  /** One heading group per heading, in order. */
  function HeadingGroups(hs: seq<string>): (r: seq<Node>)
    ensures |r| == |hs| && forall i :: 0 <= i < |hs| ==> r[i] == SubjGroup("heading", hs[i])
  {
    seq(|hs|, i requires 0 <= i < |hs| => SubjGroup("heading", hs[i]))
  }

  /** `set_article_categories`: nothing when there is nothing to say; otherwise
      the display-channel group (when the channel is not blank) followed by one
      heading group per non-blank category, in order. */
  function SetArticleCategories(a: Article): (r: seq<Node>)
    ensures |r| == (if DoArticleCategories(a) then 1 else 0)
    ensures DoArticleCategories(a) ==> r[0].tag == "article-categories"
    ensures DoArticleCategories(a) ==>
      r[0].children == (if DoDisplayChannel(a) then [SubjGroup("display-channel", a.displayChannel)] else [])
                       + HeadingGroups(Headings(a))
  {
    if DoArticleCategories(a) then
      var channel := if DoDisplayChannel(a) then [SubjGroup("display-channel", a.displayChannel)] else [];
      [Element("article-categories").(children := channel + HeadingGroups(Headings(a)))]
    else []
  }

  /** A written `article-categories` element is never empty: it starts with
      the display channel when that is not blank, and otherwise with the first
      non-blank category. */
  lemma ArticleCategoriesNotEmpty(a: Article)
    ensures |SetArticleCategories(a)| == 1 ==> SetArticleCategories(a)[0].children != []
    ensures |SetArticleCategories(a)| == 1 && !IsBlank(a.displayChannel) ==>
      SetArticleCategories(a)[0].children[0] == SubjGroup("display-channel", a.displayChannel)
    ensures |SetArticleCategories(a)| == 1 && IsBlank(a.displayChannel) ==>
      SetArticleCategories(a)[0].children[0] == SubjGroup("heading", Headings(a)[0])
  {
    HeadingsNonEmptyIff(a);
  }

  // ---------------------------------------------------------------------------
  // Datasets

  /** The citation id `"dataset" + str(n)`. */
  function DatasetId(n: nat): string {
    "dataset" + NatToString(n)
  }

  lemma DatasetIdInjective(a: nat, b: nat)
    ensures DatasetId(a) == DatasetId(b) ==> a == b
  {
    PrefixedNumberInjective("dataset", a, b);
  }

  /** The attributes of a dataset citation. */
  function CitationAttrs(num: nat, specificUse: string): (r: seq<Attribute>)
    ensures LookupAttr(r, "id") == Some(DatasetId(num))
    ensures LookupAttr(r, "publication-type") == Some("data")
    ensures LookupAttr(r, "specific-use") == NonEmpty(specificUse)
  {
    var base := [Attribute("id", DatasetId(num)), Attribute("publication-type", "data")];
    assert base[..1] == [Attribute("id", DatasetId(num))];
    if specificUse != "" then
      var r := base + [Attribute("specific-use", specificUse)];
      assert r[..2] == base;
      assert LookupAttr(r, "id") == LookupAttr(base, "id");
      assert LookupAttr(r, "publication-type") == LookupAttr(base, "publication-type");
      r
    else base
  }

  /** What a dataset citation's child holds, told by its tag: the authors as
      collaborators, the year (also as an ISO 8601 date), the title, the source
      id as a URI link, and the licence. */
  predicate CitationField(d: Dataset, n: Node) {
    && (n.tag == "person-group" ==>
          && GetAttr(n, "person-group-type") == Some("author") && n.text == ""
          && |n.children| == |d.authors|
          && forall j :: 0 <= j < |d.authors| ==> n.children[j] == Leaf("collab", d.authors[j]))
    && (n.tag == "year" ==> n.text == d.year && GetAttr(n, "iso-8601-date") == Some(d.year) && n.children == [])
    && (n.tag == "source" ==> n == Leaf("source", d.title))
    && (n.tag == "ext-link" ==>
          && n.text == d.sourceId && n.children == []
          && GetAttr(n, "ext-link-type") == Some("uri") && GetAttr(n, "xlink:href") == Some(d.sourceId))
    && (n.tag == "comment" ==> n == Leaf("comment", d.licenseInfo))
  }

  /** The children of a dataset citation: the authors as collaborators, year,
      title, link and licence, each only when present. */
  function CitationChildren(d: Dataset): seq<Node> {
    var authors := seq(|d.authors|, i requires 0 <= i < |d.authors| => Leaf("collab", d.authors[i]));
    (if d.authors != [] then [Node("person-group", [Attribute("person-group-type", "author")], "", "", authors)] else [])
    + (if d.year != "" then [Node("year", [Attribute("iso-8601-date", d.year)], d.year, "", [])] else [])
    + (if d.title != "" then [Leaf("source", d.title)] else [])
    + (if d.sourceId != "" then
         [Node("ext-link", [Attribute("ext-link-type", "uri"), Attribute("xlink:href", d.sourceId)], d.sourceId, "", [])]
       else [])
    + (if d.licenseInfo != "" then [Leaf("comment", d.licenseInfo)] else [])
  }

  /** Two attributes with different names are each found under their own name. */
  lemma LookupAttrPair(a: string, x: string, b: string, y: string)
    requires a != b
    ensures LookupAttr([Attribute(a, x), Attribute(b, y)], a) == Some(x)
    ensures LookupAttr([Attribute(a, x), Attribute(b, y)], b) == Some(y)
  {
    assert [Attribute(a, x), Attribute(b, y)][..1] == [Attribute(a, x)];
  }

  /** A citation has one child per present field, in the order authors, year,
      title, link, licence. */
  lemma CitationChildrenTags(d: Dataset)
    ensures Tags(CitationChildren(d))
      == (if d.authors != [] then ["person-group"] else []) + (if d.year != "" then ["year"] else [])
         + (if d.title != "" then ["source"] else []) + (if d.sourceId != "" then ["ext-link"] else [])
         + (if d.licenseInfo != "" then ["comment"] else [])
  {
    var p1, p2, p3, p4, p5 := CitationParts(d);
    TagsAppend(p1, p2);
    TagsAppend(p1 + p2, p3);
    TagsAppend(p1 + p2 + p3, p4);
    TagsAppend(p1 + p2 + p3 + p4, p5);
    OptionalTags(p1, d.authors != [], "person-group");
    OptionalTags(p2, d.year != "", "year");
    OptionalTags(p3, d.title != "", "source");
    OptionalTags(p4, d.sourceId != "", "ext-link");
    OptionalTags(p5, d.licenseInfo != "", "comment");
  }

  /** Every child of a citation holds the field its tag names. */
  lemma CitationChildrenFields(d: Dataset)
    ensures forall n :: n in CitationChildren(d) ==> CitationField(d, n)
  {
    var p1, p2, p3, p4, p5 := CitationParts(d);
    GroupField(d);
    YearField(d);
    LinkField(d);
    FieldsOfParts(d, p1, p2, p3, p4, p5);
  }

  /** A property of every node in each part holds for their concatenation. */
  lemma FieldsOfParts(d: Dataset, p1: seq<Node>, p2: seq<Node>, p3: seq<Node>, p4: seq<Node>, p5: seq<Node>)
    requires forall n :: n in p1 ==> CitationField(d, n)
    requires forall n :: n in p2 ==> CitationField(d, n)
    requires forall n :: n in p3 ==> CitationField(d, n)
    requires forall n :: n in p4 ==> CitationField(d, n)
    requires forall n :: n in p5 ==> CitationField(d, n)
    ensures forall n :: n in p1 + p2 + p3 + p4 + p5 ==> CitationField(d, n)
  {
  }

  /** The authors' `person-group` holds one `collab` per author. */
  lemma GroupField(d: Dataset)
    ensures CitationField(d, Node("person-group", [Attribute("person-group-type", "author")], "", "",
                                  seq(|d.authors|, i requires 0 <= i < |d.authors| => Leaf("collab", d.authors[i]))))
  {
  }

  /** The `year` child carries the year as text and as its ISO 8601 date. */
  lemma YearField(d: Dataset)
    ensures CitationField(d, Node("year", [Attribute("iso-8601-date", d.year)], d.year, "", []))
  {
  }

  /** The `ext-link` child is a URI link to the source id. */
  lemma LinkField(d: Dataset)
    ensures CitationField(d, Node("ext-link", [Attribute("ext-link-type", "uri"), Attribute("xlink:href", d.sourceId)],
                                  d.sourceId, "", []))
  {
    LookupAttrPair("ext-link-type", "uri", "xlink:href", d.sourceId);
  }

  /** The five optional parts a citation's children are made of. */
  lemma CitationParts(d: Dataset) returns (p1: seq<Node>, p2: seq<Node>, p3: seq<Node>, p4: seq<Node>, p5: seq<Node>)
    ensures CitationChildren(d) == p1 + p2 + p3 + p4 + p5
    ensures p1 == if d.authors != [] then
        [Node("person-group", [Attribute("person-group-type", "author")], "", "",
              seq(|d.authors|, i requires 0 <= i < |d.authors| => Leaf("collab", d.authors[i])))]
      else []
    ensures p2 == if d.year != "" then [Node("year", [Attribute("iso-8601-date", d.year)], d.year, "", [])] else []
    ensures p3 == if d.title != "" then [Leaf("source", d.title)] else []
    ensures p4 == if d.sourceId != "" then
        [Node("ext-link", [Attribute("ext-link-type", "uri"), Attribute("xlink:href", d.sourceId)], d.sourceId, "", [])]
      else []
    ensures p5 == if d.licenseInfo != "" then [Leaf("comment", d.licenseInfo)] else []
  {
    var authors := seq(|d.authors|, i requires 0 <= i < |d.authors| => Leaf("collab", d.authors[i]));
    p1 := if d.authors != [] then [Node("person-group", [Attribute("person-group-type", "author")], "", "", authors)] else [];
    p2 := if d.year != "" then [Node("year", [Attribute("iso-8601-date", d.year)], d.year, "", [])] else [];
    p3 := if d.title != "" then [Leaf("source", d.title)] else [];
    p4 := if d.sourceId != "" then
        [Node("ext-link", [Attribute("ext-link-type", "uri"), Attribute("xlink:href", d.sourceId)], d.sourceId, "", [])]
      else [];
    p5 := if d.licenseInfo != "" then [Leaf("comment", d.licenseInfo)] else [];
  }

  /** `set_dataset`: a data citation numbered `num`. */
  function SetDataset(d: Dataset, num: nat, specificUse: string): (r: Node)
    ensures r.tag == "element-citation"
    ensures GetAttr(r, "id") == Some(DatasetId(num)) && GetAttr(r, "publication-type") == Some("data")
    ensures GetAttr(r, "specific-use") == NonEmpty(specificUse)
    ensures r.children == CitationChildren(d)
  {
    Node("element-citation", CitationAttrs(num, specificUse), "", "", CitationChildren(d))
  }

  /** Each present field of the dataset gives exactly one child. */
  lemma CitationChildrenCount(d: Dataset)
    ensures |CitationChildren(d)|
      == (if d.authors != [] then 1 else 0) + (if d.year != "" then 1 else 0) + (if d.title != "" then 1 else 0)
       + (if d.sourceId != "" then 1 else 0) + (if d.licenseInfo != "" then 1 else 0)
    ensures d.authors != [] ==>
      CitationChildren(d)[0].children == seq(|d.authors|, i requires 0 <= i < |d.authors| => Leaf("collab", d.authors[i]))
  {
  }
}

=== FILE: front.dfy ===
/** The front matter and the whole document: `set_journal_meta`,
    `set_article_meta`, `set_frontmatter` and the constructor of `ArticleXML`,
    which builds the front matter and then the back matter in one build
    context. */
module Front {
  import opened Seqs
  import opened Text
  import opened Xml
  import opened ArticleData
  import opened Build
  import opened Generate

  // ---------------------------------------------------------------------------
  // Journal metadata

  /** The configured journal id types that have a non-empty value. */
  function JournalIdTypes(config: Config): seq<string> {
    Filter(config.journalIdTypes, (t: string) => t in config.journalIds && config.journalIds[t] != "")
  }

  function JournalId(config: Config, t: string): (r: Node)
    requires t in config.journalIds
    ensures r.tag == "journal-id" && r.text == config.journalIds[t]
    ensures GetAttr(r, "journal-id-type") == Some(t)
  {
    WithAttr(Leaf("journal-id", config.journalIds[t]), "journal-id-type", t)
  }

  /** `set_journal_meta`: a `journal-id` per configured type that has a value,
      in the configured order, then the journal title group, the electronic
      ISSN and the publisher. */
  function SetJournalMeta(config: Config): (r: Node)
    ensures r.tag == "journal-meta"
    ensures var ids := JournalIdTypes(config);
      && |r.children| == |ids| + 3
      && (forall i :: 0 <= i < |ids| ==>
            (&& r.children[i].tag == "journal-id"
             && GetAttr(r.children[i], "journal-id-type") == Some(ids[i])
             && r.children[i].text == config.journalIds[ids[i]] != ""))
      && r.children[|ids|] == Element("journal-title-group").(children := [Leaf("journal-title", config.journalTitle)])
      && r.children[|ids| + 1].tag == "issn" && r.children[|ids| + 1].text == config.journalIssn
      && GetAttr(r.children[|ids| + 1], "publication-format") == Some("electronic")
      && r.children[|ids| + 2] == Element("publisher").(children := [Leaf("publisher-name", config.publisherName)])
  {
    var types := JournalIdTypes(config);
    var ids := seq(|types|, i requires 0 <= i < |types| => JournalId(config, types[i]));
    var title := Element("journal-title-group").(children := [Leaf("journal-title", config.journalTitle)]);
    var issn := WithAttr(Leaf("issn", config.journalIssn), "publication-format", "electronic");
    var publisher := Element("publisher").(children := [Leaf("publisher-name", config.publisherName)]);
    Element("journal-meta").(children := ids + [title, issn, publisher])
  }

  /** A configured type gets a `journal-id` exactly when its value is non-empty. */
  lemma JournalIdPresent(config: Config, t: string)
    ensures (exists i :: 0 <= i < |JournalIdTypes(config)| && GetAttr(SetJournalMeta(config).children[i], "journal-id-type") == Some(t))
      <==> t in config.journalIdTypes && t in config.journalIds && config.journalIds[t] != ""
  {
    var ids := JournalIdTypes(config);
    if t in config.journalIdTypes && t in config.journalIds && config.journalIds[t] != "" {
      assert t in ids;
      var i :| 0 <= i < |ids| && ids[i] == t;
      assert GetAttr(SetJournalMeta(config).children[i], "journal-id-type") == Some(t);
    }
  }

  // ---------------------------------------------------------------------------
  // Article metadata

  /** `str(int(manuscript)).zfill(5)`. */
  function ManuscriptId(m: nat): (r: string)
    ensures AllDigits(r) && ParseDecimal(r) == m
    ensures |r| == if |NatToString(m)| >= 5 then |NatToString(m)| else 5
    ensures |NatToString(m)| >= 5 ==> r == NatToString(m)
  {
    ZFillNatValue(m, 5);
    ZFill(NatToString(m), 5)
  }

  /** Two manuscripts share an identifier only if they are the same number. */
  lemma ManuscriptIdInjective(m: nat, n: nat)
    ensures ManuscriptId(m) == ManuscriptId(n) <==> m == n
  {
  }

  function ArticleId(text: string, pubIdType: string): (r: Node)
    ensures r.tag == "article-id" && r.text == text && GetAttr(r, "pub-id-type") == Some(pubIdType)
  {
    WithAttr(Leaf("article-id", text), "pub-id-type", pubIdType)
  }

  /** Whether any contributor is a corresponding author. */
  predicate HasCorresp(a: Article) {
    Filter(a.contributors, IsCorresp) != []
  }

  /** What `set_author_notes` needs: every corresponding author has names. */
  predicate CorrespNamed(a: Article) {
    forall i :: 0 <= i < |a.contributors| && IsCorresp(a.contributors[i]) ==> HasNames(a.contributors[i])
  }

  /** One step of the loop over the contributor types, made total: the loop
      starts in a valid context and keeps it valid, so the pass-through branch
      is never taken. */
  function GroupOrSkip(a: Article, contribType: string, ctx: Context): (Node, Context) {
    if Valid(ctx) then GroupStep(a, contribType, ctx) else (Element("contrib-group"), ctx)
  }

  /** What the loop over the types keeps of its context: valid, extending
      the starting context, with the section and dataset counters untouched. */
  ghost predicate GroupsInvariant(start: Context, ctx: Context) {
    Valid(ctx) && Extends(start, ctx) && ctx.secCount == start.secCount && ctx.dataroNum == start.dataroNum
  }

  /** The loop keeps the context valid, only extends it, and writes one
      `contrib-group` per type. */
  lemma GroupsKeepValid(a: Article, types: seq<string>, ctx: Context)
    requires Valid(ctx)
    ensures var r := Fold(a, types, GroupOrSkip, ctx);
      && GroupsInvariant(ctx, r.1)
      && forall i :: 0 <= i < |types| ==> r.0[i].tag == "contrib-group"
  {
    forall x, t | GroupsInvariant(ctx, t) ensures GroupsInvariant(ctx, GroupOrSkip(a, x, t).1) {
      ExtendsTransitive(ctx, t, GroupStep(a, x, t).1);
    }
    FoldInvariant(a, types, GroupOrSkip, ctx, t => GroupsInvariant(ctx, t));
    forall x, t ensures GroupOrSkip(a, x, t).0.tag == "contrib-group" {
    }
    FoldOutputs(a, types, GroupOrSkip, ctx, (n: Node) => n.tag == "contrib-group");
  }

  /** The loop over the configured contributor types: one group per type, in
      order, each starting in the context the previous one left. */
  function ContribGroups(a: Article, types: seq<string>, ctx: Context): (r: (seq<Node>, Context))
    requires Valid(ctx)
    ensures Valid(r.1) && Extends(ctx, r.1)
    ensures r.1.secCount == ctx.secCount && r.1.dataroNum == ctx.dataroNum
    ensures |r.0| == |types| && forall i :: 0 <= i < |types| ==> r.0[i].tag == "contrib-group"
  {
    GroupsKeepValid(a, types, ctx);
    Fold(a, types, GroupOrSkip, ctx)
  }

  /** Group `i` is `set_contrib_group` for `types[i]`, called in the context
      the groups before it left. */
  lemma ContribGroupsAt(a: Article, types: seq<string>, ctx: Context, i: nat)
    requires Valid(ctx) && i < |types|
    ensures |ContribGroups(a, types, ctx).0| == |types|
    ensures ContribGroups(a, types, ctx).0[i]
         == SetContribGroup(a, types[i], ContribGroups(a, types[..i], ctx).1).0
  {
    FoldAt(a, types, GroupOrSkip, ctx, i);
    GroupsKeepValid(a, types[..i], ctx);
  }

  /** One contributor group, as far as the loop over the types needs it. */
  function GroupStep(a: Article, contribType: string, ctx: Context): (r: (Node, Context))
    requires Valid(ctx)
    ensures Valid(r.1) && Extends(ctx, r.1)
    ensures r.1.secCount == ctx.secCount && r.1.dataroNum == ctx.dataroNum
    ensures r.0.tag == "contrib-group"
  {
    SetContribGroup(a, contribType, ctx)
  }

  /** The identifiers, categories and title that open `article-meta`. */
  function MetaHead(a: Article): seq<Node> {
    OptNode(a.manuscript != 0, ArticleId(ManuscriptId(a.manuscript), "publisher-id"))
    + OptNode(a.doi != "", ArticleId(a.doi, "doi"))
    + SetArticleCategories(a)
    + [SetTitleGroup(a)]
  }

  /** The author notes, dates and volume that follow the contributor groups. */
  function MetaDates(a: Article, config: Config): seq<Node>
    requires CorrespNamed(a)
  {
    NotesPart(a) + PubDatePart(a) + VolumePart(a) + ElocationPart(a) + HistoryPart(a, config)
  }

  /** Author notes, written when some contributor is a corresponding author. */
  function NotesPart(a: Article): (r: seq<Node>)
    requires CorrespNamed(a)
    ensures Tags(r) == if exists i :: 0 <= i < |a.contributors| && a.contributors[i].corresp then ["author-notes"] else []
  {
    HasCorrespIff(a);
    if HasCorresp(a) then [SetAuthorNotes(a)] else []
  }

  function PubDatePart(a: Article): (r: seq<Node>)
    ensures Tags(r) == if "pub" in a.dates then ["pub-date"] else []
  {
    SetPubDate(a, "pub")
  }

  function VolumePart(a: Article): (r: seq<Node>)
    ensures Tags(r) == if a.volume != 0 then ["volume"] else []
  {
    SetVolume(a)
  }

  /** The electronic location `e` followed by the padded manuscript number. */
  function ElocationPart(a: Article): (r: seq<Node>)
    ensures Tags(r) == if a.manuscript != 0 then ["elocation-id"] else []
  {
    OptNode(a.manuscript != 0, Leaf("elocation-id", "e" + ManuscriptId(a.manuscript)))
  }

  function HistoryPart(a: Article, config: Config): (r: seq<Node>)
    ensures Tags(r) == if a.dates != map[] then ["history"] else []
  {
    OptNode(a.dates != map[], SetHistory(a, config.historyDateTypes))
  }

  /** The permissions, abstract, keywords and funding that close `article-meta`. */
  function MetaTail(a: Article, decode: string -> string): seq<Node> {
    (if a.license.Some? then [SetPermissions(a)] else [])
    + [SetAbstract(a)]
    + OptNode(a.researchOrganisms != [], SetKwdGroupResearchOrganism(a))
    + OptNode(a.fundingAwards != [] || a.fundingNote != "", SetFundingGroup(a, decode))
  }

  /** `set_article_meta`. */
  function SetArticleMeta(a: Article, config: Config, decode: string -> string, ctx: Context): (r: (Node, Context))
    requires Valid(ctx) && CorrespNamed(a)
    ensures r.0.tag == "article-meta"
    ensures r.0.children == MetaHead(a) + ContribGroups(a, config.contribTypes, ctx).0 + MetaDates(a, config) + MetaTail(a, decode)
    ensures r.1 == ContribGroups(a, config.contribTypes, ctx).1
  {
    var groups := ContribGroups(a, config.contribTypes, ctx);
    (Element("article-meta").(children := MetaHead(a) + groups.0 + MetaDates(a, config) + MetaTail(a, decode)), groups.1)
  }

  /** The element order `set_article_meta` produces, read off the article's
      fields and the configuration alone. */
  function MetaTagOrder(a: Article, config: Config): seq<string> {
    HeadTagOrder(a) + Repeat("contrib-group", |config.contribTypes|) + DatesTagOrder(a) + TailTagOrder(a)
  }

  /** `n` copies of `tag`. */
  function Repeat(tag: string, n: nat): (r: seq<string>)
    ensures |r| == n && forall i :: 0 <= i < n ==> r[i] == tag
  {
    seq(n, _ => tag)
  }

  lemma ContribGroupsTags(a: Article, types: seq<string>, ctx: Context)
    requires Valid(ctx)
    ensures Tags(ContribGroups(a, types, ctx).0) == Repeat("contrib-group", |types|)
  {
  }

  /** The tag order `set_article_meta` gives each part, computed from the
      record alone. */
  function HeadTagOrder(a: Article): seq<string> {
    (if a.manuscript != 0 then ["article-id"] else [])
    + (if a.doi != "" then ["article-id"] else [])
    + (if DoArticleCategories(a) then ["article-categories"] else [])
    + ["title-group"]
  }

  function DatesTagOrder(a: Article): seq<string> {
    (if exists i :: 0 <= i < |a.contributors| && a.contributors[i].corresp then ["author-notes"] else [])
    + (if "pub" in a.dates then ["pub-date"] else [])
    + (if a.volume != 0 then ["volume"] else [])
    + (if a.manuscript != 0 then ["elocation-id"] else [])
    + (if |a.dates| > 0 then ["history"] else [])
  }

  function TailTagOrder(a: Article): seq<string> {
    (if a.license.Some? then ["permissions"] else [])
    + ["abstract"]
    + (if |a.researchOrganisms| > 0 then ["kwd-group"] else [])
    + (if |a.fundingAwards| > 0 || |a.fundingNote| > 0 then ["funding-group"] else [])
  }

  /** The tags of a concatenation of four parts. */
  lemma TagsAppend4(p1: seq<Node>, p2: seq<Node>, p3: seq<Node>, p4: seq<Node>)
    ensures Tags(p1 + p2 + p3 + p4) == Tags(p1) + Tags(p2) + Tags(p3) + Tags(p4)
  {
    TagsAppend(p1, p2);
    TagsAppend(p1 + p2, p3);
    TagsAppend(p1 + p2 + p3, p4);
  }

  /** The opening part of `article-meta`: the publisher id and the DOI when
      present, the categories when there are any, then the title group. */
  lemma MetaHeadTags(a: Article)
    ensures Tags(MetaHead(a)) == HeadTagOrder(a)
  {
    var p1 := OptNode(a.manuscript != 0, ArticleId(ManuscriptId(a.manuscript), "publisher-id"));
    var p2 := OptNode(a.doi != "", ArticleId(a.doi, "doi"));
    var p3 := SetArticleCategories(a);
    var p4 := [SetTitleGroup(a)];
    TagsAppend4(p1, p2, p3, p4);
    OptionalTags(p1, a.manuscript != 0, "article-id");
    OptionalTags(p2, a.doi != "", "article-id");
    OptionalTags(p3, DoArticleCategories(a), "article-categories");
    OptionalTags(p4, true, "title-group");
  }

  /** `bool([c for c in contributors if c.corresp is True])`. */
  lemma HasCorrespIff(a: Article)
    ensures HasCorresp(a) <==> exists i :: 0 <= i < |a.contributors| && a.contributors[i].corresp
  {
    var f := Filter(a.contributors, IsCorresp);
    if f != [] {
      assert f[0] in a.contributors;
    }
    if exists i :: 0 <= i < |a.contributors| && a.contributors[i].corresp {
      var i :| 0 <= i < |a.contributors| && a.contributors[i].corresp;
      assert a.contributors[i] in f;
    }
  }

  /** The tags of a concatenation of five parts. */
  lemma TagsAppend5(p1: seq<Node>, p2: seq<Node>, p3: seq<Node>, p4: seq<Node>, p5: seq<Node>)
    ensures Tags(p1 + p2 + p3 + p4 + p5) == Tags(p1) + Tags(p2) + Tags(p3) + Tags(p4) + Tags(p5)
  {
    TagsAppend4(p1, p2, p3, p4);
    TagsAppend(p1 + p2 + p3 + p4, p5);
  }

  /** Five parts whose tags are those of the dates section give its order. */
  lemma DatesTagsFrom(a: Article, p1: seq<Node>, p2: seq<Node>, p3: seq<Node>, p4: seq<Node>, p5: seq<Node>)
    requires Tags(p1) == if exists i :: 0 <= i < |a.contributors| && a.contributors[i].corresp then ["author-notes"] else []
    requires Tags(p2) == if "pub" in a.dates then ["pub-date"] else []
    requires Tags(p3) == if a.volume != 0 then ["volume"] else []
    requires Tags(p4) == if a.manuscript != 0 then ["elocation-id"] else []
    requires Tags(p5) == if a.dates != map[] then ["history"] else []
    ensures Tags(p1 + p2 + p3 + p4 + p5) == DatesTagOrder(a)
  {
    TagsAppend5(p1, p2, p3, p4, p5);
    assert (a.dates != map[]) == (|a.dates| > 0);
  }

  /** The middle part of `article-meta`: author notes, publication date,
      volume, elocation id and history, each under its own condition. */
  lemma MetaDatesTags(a: Article, config: Config)
    requires CorrespNamed(a)
    ensures Tags(MetaDates(a, config)) == DatesTagOrder(a)
  {
    DatesTagsFrom(a, NotesPart(a), PubDatePart(a), VolumePart(a), ElocationPart(a), HistoryPart(a, config));
  }

  /** The closing part of `article-meta`: permissions when there is a
      licence, the abstract, the organism keywords when there are any and the
      funding group when there are awards or a note. */
  lemma MetaTailTags(a: Article, decode: string -> string)
    ensures Tags(MetaTail(a, decode)) == TailTagOrder(a)
  {
    var p1 := if a.license.Some? then [SetPermissions(a)] else [];
    var p2 := [SetAbstract(a)];
    var p3 := OptNode(a.researchOrganisms != [], SetKwdGroupResearchOrganism(a));
    var p4 := OptNode(a.fundingAwards != [] || a.fundingNote != "", SetFundingGroup(a, decode));
    TagsAppend4(p1, p2, p3, p4);
    OptionalTags(p1, a.license.Some?, "permissions");
    OptionalTags(p2, true, "abstract");
    OptionalTags(p3, |a.researchOrganisms| > 0, "kwd-group");
    OptionalTags(p4, |a.fundingAwards| > 0 || |a.fundingNote| > 0, "funding-group");
  }

  /** `set_article_meta` emits its elements in the documented order: each
      optional element exactly when its field is set, and one contributor
      group per configured type. */
  lemma ArticleMetaTagOrder(a: Article, config: Config, decode: string -> string, ctx: Context)
    requires Valid(ctx) && CorrespNamed(a)
    ensures Tags(SetArticleMeta(a, config, decode, ctx).0.children) == MetaTagOrder(a, config)
  {
    var groups := ContribGroups(a, config.contribTypes, ctx).0;
    var children := SetArticleMeta(a, config, decode, ctx).0.children;
    TagsAppend4(MetaHead(a), groups, MetaDates(a, config), MetaTail(a, decode));
    assert Tags(children) == Tags(MetaHead(a)) + Tags(groups) + Tags(MetaDates(a, config)) + Tags(MetaTail(a, decode));
    MetaHeadTags(a);
    MetaDatesTags(a, config);
    MetaTailTags(a, decode);
    ContribGroupsTags(a, config.contribTypes, ctx);
  }

  /** With a manuscript number, the article opens with its zero-padded
      publisher id, which reads back as the number. */
  lemma PublisherIdFirst(a: Article, config: Config, decode: string -> string, ctx: Context)
    requires Valid(ctx) && CorrespNamed(a) && a.manuscript != 0
    ensures var first := SetArticleMeta(a, config, decode, ctx).0.children[0];
      && first.tag == "article-id" && GetAttr(first, "pub-id-type") == Some("publisher-id")
      && |first.text| >= 5 && AllDigits(first.text) && ParseDecimal(first.text) == a.manuscript
  {
    var p1 := OptNode(a.manuscript != 0, ArticleId(ManuscriptId(a.manuscript), "publisher-id"));
    assert MetaHead(a)[0] == p1[0];
  }

  // ---------------------------------------------------------------------------
  // The document

  /** `set_frontmatter`: the journal metadata, then the article metadata. */
  function SetFrontmatter(a: Article, config: Config, decode: string -> string, ctx: Context): (r: (Node, Context))
    requires Valid(ctx) && CorrespNamed(a)
    ensures r.0.tag == "front" && r.0.children == [SetJournalMeta(config), SetArticleMeta(a, config, decode, ctx).0]
    ensures r.1 == SetArticleMeta(a, config, decode, ctx).1
    ensures Valid(r.1) && r.1.secCount == ctx.secCount && r.1.dataroNum == ctx.dataroNum
  {
    var meta := SetArticleMeta(a, config, decode, ctx);
    (Element("front").(children := [SetJournalMeta(config), meta.0]), meta.1)
  }

  /** What the generator is handed: an article record, or some other object,
      for which no document is built. */
  datatype Input = ArticleInput(article: Article) | OtherObject

  /** The attributes of the root element. */
  function ArticleRoot(a: Article): (r: Node)
    ensures r.tag == "article" && r.children == []
    ensures GetAttr(r, "article-type") == (if a.articleType != "" then Some(a.articleType) else None)
    ensures GetAttr(r, "xmlns:mml") == Some("http://www.w3.org/1998/Math/MathML")
    ensures GetAttr(r, "xmlns:xlink") == Some("http://www.w3.org/1999/xlink")
    ensures GetAttr(r, "dtd-version") == Some("1.1d3")
  {
    var root := Element("article");
    var root := if a.articleType != "" then WithAttr(root, "article-type", a.articleType) else root;
    var root := WithAttr(root, "xmlns:mml", "http://www.w3.org/1998/Math/MathML");
    var root := WithAttr(root, "xmlns:xlink", "http://www.w3.org/1999/xlink");
    WithAttr(root, "dtd-version", "1.1d3")
  }

  /** The front matter of an article, built in the context the constructor
      starts from (with `conf1` reserved when there is a default conflict
      statement). */
  function ArticleFront(a: Article, config: Config, decode: string -> string): (r: (Node, Context))
    requires CorrespNamed(a)
    ensures r.1.secCount == 0 && r.1.dataroNum == 0
  {
    SetFrontmatter(a, config, decode, InitialContext(a))
  }

  /** The root element holding the given front and back matter. */
  function Assemble(a: Article, front: Node, back: Node): (r: Node)
    ensures r.tag == "article" && r.children == [front, back]
    ensures r.attrs == ArticleRoot(a).attrs
  {
    ArticleRoot(a).(children := [front, back])
  }

  /** The document built for an article: the front matter, then the back
      matter, which continues the front matter's build context. */
  function Document(a: Article, config: Config, decode: string -> string): (r: Node)
    requires CorrespNamed(a)
    ensures r == Assemble(a, ArticleFront(a, config, decode).0, SetBackmatter(a, ArticleFront(a, config, decode).1).0)
    ensures r.tag == "article" && |r.children| == 2 && r.children[0] == ArticleFront(a, config, decode).0
    ensures BackFromStart(a, r.children[1])
  {
    var front := ArticleFront(a, config, decode);
    BackFromZero(a, front.1);
    Assemble(a, front.0, SetBackmatter(a, front.1).0)
  }

  /** Back matter built with no section opened and no dataset cited yet
      numbers from `s1` and `dataset1`. */
  lemma BackFromZero(a: Article, ctx: Context)
    requires ctx.secCount == 0 && ctx.dataroNum == 0
    ensures BackFromStart(a, SetBackmatter(a, ctx).0)
  {
    BackmatterNumbering(a, ctx);
    NumberedFromZero(a, SetBackmatter(a, ctx).0);
  }

  /** Numbering from no sections and no citations gives the first ids. */
  lemma NumberedFromZero(a: Article, back: Node)
    requires BackNumbered(a, back, 0, 0)
    ensures BackFromStart(a, back)
  {
    FirstSecIds();
  }

  /** The back matter of a whole document: the additional-information
      section is `s1`; when the article has datasets or an availability
      statement, the supplementary-material section `s2` follows, holding the
      data-availability section `s3`, whose citations are `dataset1`,
      `dataset2`, ... */
  ghost predicate BackFromStart(a: Article, back: Node) {
    && back.tag == "back"
    && |back.children| == (if a.datasets != [] || a.dataAvailability != "" then 2 else 1)
    && GetAttr(back.children[0], "id") == Some("s1")
    && GetAttr(back.children[0], "sec-type") == Some("additional-information")
    && (|back.children| == 2 ==>
          && GetAttr(back.children[1], "id") == Some("s2")
          && GetAttr(back.children[1], "sec-type") == Some("supplementary-material")
          && |back.children[1].children| == 2
          && GetAttr(back.children[1].children[1], "id") == Some("s3")
          && GetAttr(back.children[1].children[1], "sec-type") == Some("data-availability")
          && CitationsNumbered(a, Citations(back.children[1].children[1].children), 0))
  }

  /** The first three section ids. */
  lemma FirstSecIds()
    ensures SecId(1) == "s1" && SecId(2) == "s2" && SecId(3) == "s3"
  {
  }

  /** The constructor of `ArticleXML` followed by `build`: nothing is built
      for an object that is not an article. */
  function BuildArticle(input: Input, config: Config, decode: string -> string): (r: Option<Node>)
    requires input.ArticleInput? ==> CorrespNamed(input.article)
    ensures r.Some? <==> input.ArticleInput?
    ensures r.Some? ==> r.value == Document(input.article, config, decode)
  {
    match input
    case OtherObject => None
    case ArticleInput(a) => Some(Document(a, config, decode))
  }
}

=== FILE: generate.dfy ===
/** `jatsgenerator/generate.py`: assembling a whole article. The Python class
    keeps its counters in an `ArticleBuildContext` it mutates; here every
    builder that touches the counters takes a `Context` and returns the
    updated one with the element it built. */
module Generate {
  import opened Seqs
  import opened Text
  import opened Xml
  import opened ArticleData
  import opened Build

  // ---------------------------------------------------------------------------
  // Build context

  /** `ArticleBuildContext`: the section, dataset and corresponding-author
      counters, the numbered author affiliations and the conflict counter. */
  datatype Context = Context(
    secCount: nat,
    dataroNum: nat,
    correspCount: nat,
    affCount: nat,
    affs: map<nat, Affiliation>,
    conflictCount: nat)

  /** A fresh context: every counter at zero and no affiliation stored. */
  function NewContext(): (c: Context)
    ensures Valid(c) && c.affCount == 0 && c.affs == map[]
    ensures c.secCount == 0 && c.dataroNum == 0 && c.correspCount == 0 && c.conflictCount == 0
  {
    Context(0, 0, 0, 0, map[], 0)
  }

  /** The affiliations are stored under the keys `1..affCount`, and no two of
      them compare equal. */
  predicate Valid(ctx: Context) {
    && (forall k :: k in ctx.affs ==> 1 <= k <= ctx.affCount)
    && (forall k :: 1 <= k <= ctx.affCount ==> k in ctx.affs)
    && (forall j, k :: j in ctx.affs && k in ctx.affs && j != k ==> !CompareAff(ctx.affs[j], ctx.affs[k]))
  }

  /** The context the article builder starts from: the number 1 is taken up
      front when a default conflict statement will use `conf1`. */
  function InitialContext(a: Article): (c: Context)
    ensures Valid(c) && c.affCount == 0 && c.secCount == 0 && c.dataroNum == 0 && c.correspCount == 0
    ensures c.conflictCount == (if a.conflictDefault != "" then 1 else 0)
  {
    var c := NewContext();
    if a.conflictDefault != "" then c.(conflictCount := c.conflictCount + 1) else c
  }

  // ---------------------------------------------------------------------------
  // Affiliation ids

  /** The `aff_id` held after the loop of `get_aff_id` has visited the keys
      `1..k` in order: the last key whose affiliation compares equal, or 0. */
  function LastMatch(affs: map<nat, Affiliation>, aff: Affiliation, k: nat): (r: nat)
    requires forall j :: 1 <= j <= k ==> j in affs
    ensures r <= k
    ensures r > 0 ==> CompareAff(aff, affs[r])
    ensures forall j :: r < j <= k ==> !CompareAff(aff, affs[j])
    decreases k
  {
    if k == 0 then 0
    else if CompareAff(aff, affs[k]) then k
    else LastMatch(affs, aff, k - 1)
  }

  /** `get_aff_id`: the largest key whose stored affiliation compares equal to
      `aff`, leaving the context alone; with no such key, `aff` is stored under
      the next number. */
  function GetAffId(ctx: Context, aff: Affiliation): (r: (nat, Context))
    requires Valid(ctx)
    ensures Valid(r.1)
    ensures 1 <= r.0 <= r.1.affCount && r.0 in r.1.affs && CompareAff(aff, r.1.affs[r.0])
    ensures forall k :: k in ctx.affs && CompareAff(aff, ctx.affs[k]) ==> k <= r.0 && r.1 == ctx
    ensures (forall k :: k in ctx.affs ==> !CompareAff(aff, ctx.affs[k])) ==>
      && r.0 == ctx.affCount + 1
      && r.1 == ctx.(affCount := ctx.affCount + 1, affs := ctx.affs[ctx.affCount + 1 := aff])
  {
    var m := LastMatch(ctx.affs, aff, ctx.affCount);
    if m != 0 then (m, ctx)
    else
      var id := ctx.affCount + 1;
      StoreFresh(ctx, aff);
      (id, ctx.(affCount := id, affs := ctx.affs[id := aff]))
  }

  /** Storing an affiliation that matches none of the stored ones keeps the
      context valid. */
  lemma StoreFresh(ctx: Context, aff: Affiliation)
    requires Valid(ctx)
    requires forall k :: k in ctx.affs ==> !CompareAff(aff, ctx.affs[k])
    ensures Valid(ctx.(affCount := ctx.affCount + 1, affs := ctx.affs[ctx.affCount + 1 := aff]))
  {
    var next := ctx.(affCount := ctx.affCount + 1, affs := ctx.affs[ctx.affCount + 1 := aff]);
    forall j, k | j in next.affs && k in next.affs && j != k
      ensures !CompareAff(next.affs[j], next.affs[k])
    {
      CompareAffSymmetric(next.affs[j], next.affs[k]);
    }
  }

  /** Asking twice for the same affiliation gives the same id, and the second
      request changes nothing. */
  lemma GetAffIdIdempotent(ctx: Context, aff: Affiliation)
    requires Valid(ctx)
    ensures GetAffId(GetAffId(ctx, aff).1, aff) == GetAffId(ctx, aff)
  {
    var (id, c1) := GetAffId(ctx, aff);
    var (id2, c2) := GetAffId(c1, aff);
    assert id2 <= c1.affCount;
    assert id <= id2 && c2 == c1;
  }

  /** A stored affiliation is always given back its own key. */
  lemma StoredAffKeepsId(ctx: Context, k: nat)
    requires Valid(ctx) && k in ctx.affs
    ensures GetAffId(ctx, ctx.affs[k]) == (k, ctx)
  {
    CompareAffReflexive(ctx.affs[k]);
    var id := GetAffId(ctx, ctx.affs[k]).0;
    CompareAffSymmetric(ctx.affs[id], ctx.affs[k]);
  }

  /** Affiliations that compare equal need not share an id: the comparison is
      not transitive, so an affiliation without a city is matched to the later
      of two stored affiliations in different cities, while the first of them
      keeps its own key. */
  lemma AffIdsNotCanonical()
    ensures var none := Affiliation("", "", "", "", "", "", "");
      var oxford := none.(city := "Oxford");
      var ctx := Context(0, 0, 0, 2, map[1 := oxford, 2 := none.(city := "Cambridge")], 0);
      && Valid(ctx)
      && CompareAff(oxford, none)
      && GetAffId(ctx, oxford).0 == 1
      && GetAffId(ctx, none).0 == 2
  {
    var none := Affiliation("", "", "", "", "", "", "");
    var oxford := none.(city := "Oxford");
    var cambridge := none.(city := "Cambridge");
    var ctx := Context(0, 0, 0, 2, map[1 := oxford, 2 := cambridge], 0);
    assert !CompareAff(oxford, cambridge);
    assert Valid(ctx);
    StoredAffKeepsId(ctx, 1);
    assert CompareAff(none, cambridge);
  }

  // ---------------------------------------------------------------------------
  // Sections and datasets

  /** The section id `"s" + str(n)`. */
  function SecId(n: nat): string {
    "s" + NatToString(n)
  }

  lemma SecIdInjective(a: nat, b: nat)
    ensures SecId(a) == SecId(b) ==> a == b
  {
    PrefixedNumberInjective("s", a, b);
  }

  /** `set_section`: a section numbered with the next section count. */
  function SetSection(ctx: Context, secType: string): (r: (Node, Context))
    ensures r.0.tag == "sec" && r.0.children == []
    ensures GetAttr(r.0, "id") == Some(SecId(ctx.secCount + 1)) && GetAttr(r.0, "sec-type") == Some(secType)
    ensures r.1 == ctx.(secCount := ctx.secCount + 1)
  {
    var count := ctx.secCount + 1;
    (WithAttr(WithAttr(Element("sec"), "id", SecId(count)), "sec-type", secType), ctx.(secCount := count))
  }

  /** Citations for `ds` numbered from `start + 1`, as the loops of
      `set_major_datasets` and `set_previously_published_datasets` add them. */
  function DatasetCitations(ds: seq<Dataset>, start: nat, specificUse: string): (r: seq<Node>)
    ensures |r| == |ds|
  {
    seq(|ds|, i requires 0 <= i < |ds| => SetDataset(ds[i], start + i + 1, specificUse))
  }

  /** Two runs of consecutively numbered citations, the second starting where
      the first ends, are one run. */
  lemma DatasetCitationsAppend(d1: seq<Dataset>, d2: seq<Dataset>, start: nat, use1: string, use2: string)
    ensures var r := DatasetCitations(d1, start, use1) + DatasetCitations(d2, start + |d1|, use2);
      forall i :: 0 <= i < |r| ==>
        && GetAttr(r[i], "id") == Some(DatasetId(start + i + 1))
        && GetAttr(r[i], "specific-use") == NonEmpty(if i < |d1| then use1 else use2)
  {
    var a := DatasetCitations(d1, start, use1);
    var b := DatasetCitations(d2, start + |d1|, use2);
    forall i | 0 <= i < |a + b|
      ensures GetAttr((a + b)[i], "id") == Some(DatasetId(start + i + 1))
      ensures GetAttr((a + b)[i], "specific-use") == NonEmpty(if i < |d1| then use1 else use2)
    {
      if i < |a| {
        assert (a + b)[i] == a[i];
        DatasetCitationAt(d1, start, use1, i);
      } else {
        assert (a + b)[i] == b[i - |a|];
        DatasetCitationAt(d2, start + |d1|, use2, i - |a|);
      }
    }
  }

  /** Citation `i` of a run carries number `start + i + 1` and the run's use. */
  lemma DatasetCitationAt(ds: seq<Dataset>, start: nat, specificUse: string, i: nat)
    requires i < |ds|
    ensures GetAttr(DatasetCitations(ds, start, specificUse)[i], "id") == Some(DatasetId(start + i + 1))
    ensures GetAttr(DatasetCitations(ds, start, specificUse)[i], "specific-use") == NonEmpty(specificUse)
  {
    assert DatasetCitations(ds, start, specificUse)[i] == SetDataset(ds[i], start + i + 1, specificUse);
  }

  /** The citations among `ns`: the children of its paragraphs, in order. */
  function Citations(ns: seq<Node>): seq<Node>
    decreases |ns|
  {
    if |ns| == 0 then []
    else Citations(ns[..|ns| - 1]) + (if ns[|ns| - 1].tag == "p" then ns[|ns| - 1].children else [])
  }

  lemma {:induction false} CitationsAppend(a: seq<Node>, b: seq<Node>)
    ensures Citations(a + b) == Citations(a) + Citations(b)
    decreases |b|
  {
    if |b| == 0 {
      assert a + b == a;
    } else {
      assert (a + b)[..|a + b| - 1] == a + b[..|b| - 1];
      CitationsAppend(a, b[..|b| - 1]);
    }
  }

  /** Nodes without children hold no citations. */
  lemma {:induction false} CitationsOfLeaves(ns: seq<Node>)
    requires forall i :: 0 <= i < |ns| ==> ns[i].children == []
    ensures Citations(ns) == []
    decreases |ns|
  {
    if |ns| > 0 {
      CitationsOfLeaves(ns[..|ns| - 1]);
    }
  }

  /** The body shared by `set_major_datasets` and
      `set_previously_published_datasets`: an introductory paragraph, then a
      paragraph citing each dataset, numbered on from the datasets already
      cited. */
  function DatasetBlock(intro: string, ds: seq<Dataset>, specificUse: string, ctx: Context): (r: (seq<Node>, Context))
    ensures |r.0| == 2 && r.0[0] == Leaf("p", intro) && r.0[1].tag == "p"
    ensures Citations(r.0) == DatasetCitations(ds, ctx.dataroNum, specificUse)
    ensures r.1 == ctx.(dataroNum := ctx.dataroNum + |ds|)
  {
    var ps := [Leaf("p", intro), Element("p").(children := DatasetCitations(ds, ctx.dataroNum, specificUse))];
    assert ps[..|ps| - 1] == [Leaf("p", intro)];
    CitationsOfLeaves([Leaf("p", intro)]);
    (ps, ctx.(dataroNum := ctx.dataroNum + |ds|))
  }

  const MajorIntro := "The following datasets were generated:"
  const PreviousIntro := "The following previously published datasets were used:"

  /** `set_major_datasets` on the article's generated datasets `major`,
      cited with `isSupplementedBy`. */
  function SetMajorDatasets(major: seq<Dataset>, ctx: Context): (r: (seq<Node>, Context))
    ensures Citations(r.0) == DatasetCitations(major, ctx.dataroNum, "isSupplementedBy")
    ensures r.1 == ctx.(dataroNum := ctx.dataroNum + |major|)
  {
    DatasetBlock(MajorIntro, major, "isSupplementedBy", ctx)
  }

  /** `set_previously_published_datasets` on the article's reused datasets
      `previous`, cited with `references`. */
  function SetPreviouslyPublishedDatasets(previous: seq<Dataset>, ctx: Context): (r: (seq<Node>, Context))
    ensures Citations(r.0) == DatasetCitations(previous, ctx.dataroNum, "references")
    ensures r.1 == ctx.(dataroNum := ctx.dataroNum + |previous|)
  {
    DatasetBlock(PreviousIntro, previous, "references", ctx)
  }

  /** `set_article_datasets` on the article's two dataset lists: the
      heading, the availability statement when there is one, then each block
      only when its list is non-empty. */
  function DatasetsSection(availability: string, major: seq<Dataset>, previous: seq<Dataset>, ctx: Context): (r: (seq<Node>, Context))
    ensures |r.0| > 0 && r.0[0] == Leaf("title", "Data availability")
    ensures r.1 == ctx.(dataroNum := ctx.dataroNum + |major| + |previous|)
  {
    var m := MajorBlock(major, ctx);
    var p := PreviousBlock(previous, m.1);
    (DatasetsHead(availability) + m.0 + p.0, p.1)
  }

  function DatasetsHead(availability: string): (r: seq<Node>)
    ensures |r| > 0 && r[0] == Leaf("title", "Data availability") && Citations(r) == []
  {
    var r := [Leaf("title", "Data availability")] + (if availability != "" then [Leaf("p", availability)] else []);
    CitationsOfLeaves(r);
    r
  }

  /** The generated datasets' block, written only when there are some. */
  function MajorBlock(major: seq<Dataset>, ctx: Context): (r: (seq<Node>, Context))
    ensures Citations(r.0) == DatasetCitations(major, ctx.dataroNum, "isSupplementedBy")
    ensures r.1 == ctx.(dataroNum := ctx.dataroNum + |major|)
  {
    if major != [] then SetMajorDatasets(major, ctx) else ([], ctx)
  }

  /** The reused datasets' block, written only when there are some. */
  function PreviousBlock(previous: seq<Dataset>, ctx: Context): (r: (seq<Node>, Context))
    ensures Citations(r.0) == DatasetCitations(previous, ctx.dataroNum, "references")
    ensures r.1 == ctx.(dataroNum := ctx.dataroNum + |previous|)
  {
    if previous != [] then SetPreviouslyPublishedDatasets(previous, ctx) else ([], ctx)
  }

  /** The section cites the generated datasets, then the previously published
      ones, numbered on from the datasets already cited. */
  lemma DatasetsSectionCitations(availability: string, major: seq<Dataset>, previous: seq<Dataset>, ctx: Context)
    ensures Citations(DatasetsSection(availability, major, previous, ctx).0)
         == DatasetCitations(major, ctx.dataroNum, "isSupplementedBy")
          + DatasetCitations(previous, ctx.dataroNum + |major|, "references")
  {
    var m := MajorBlock(major, ctx);
    var p := PreviousBlock(previous, m.1);
    DatasetsSectionParts(availability, major, previous, ctx);
    CitationsAfterHead(DatasetsHead(availability), m.0, p.0);
    PreviousBlockAfterMajor(previous, major, ctx);
  }

  lemma DatasetsSectionParts(availability: string, major: seq<Dataset>, previous: seq<Dataset>, ctx: Context)
    ensures DatasetsSection(availability, major, previous, ctx).0
         == DatasetsHead(availability) + MajorBlock(major, ctx).0 + PreviousBlock(previous, MajorBlock(major, ctx).1).0
  {
  }

  lemma PreviousBlockAfterMajor(previous: seq<Dataset>, major: seq<Dataset>, ctx: Context)
    ensures Citations(PreviousBlock(previous, MajorBlock(major, ctx).1).0)
         == DatasetCitations(previous, ctx.dataroNum + |major|, "references")
  {
  }

  lemma CitationsAfterHead(head: seq<Node>, m: seq<Node>, p: seq<Node>)
    requires Citations(head) == []
    ensures Citations(head + m + p) == Citations(m) + Citations(p)
  {
    CitationsAppend(head + m, p);
    CitationsAppend(head, m);
    assert [] + Citations(m) == Citations(m);
  }

  /** `set_article_datasets`. */
  function SetArticleDatasets(a: Article, ctx: Context): (seq<Node>, Context)
  {
    DatasetsSection(a.dataAvailability, GetDatasets(a, "datasets"), GetDatasets(a, "prev_published_datasets"), ctx)
  }

  /** The citations of the data-availability section are numbered
      consecutively after those already cited: first the generated datasets,
      marked `isSupplementedBy`, then the previously published ones, marked
      `references`. */
  lemma DatasetIdsContiguous(a: Article, ctx: Context)
    ensures var cs := Citations(SetArticleDatasets(a, ctx).0);
      var n := |GetDatasets(a, "datasets")|;
      && |cs| == n + |GetDatasets(a, "prev_published_datasets")|
      && forall i :: 0 <= i < |cs| ==>
           && GetAttr(cs[i], "id") == Some(DatasetId(ctx.dataroNum + i + 1))
           && GetAttr(cs[i], "specific-use") == Some(if i < n then "isSupplementedBy" else "references")
    ensures CitationsNumbered(a, Citations(SetArticleDatasets(a, ctx).0), ctx.dataroNum)
  {
    var major := GetDatasets(a, "datasets");
    var previous := GetDatasets(a, "prev_published_datasets");
    DatasetsSectionCitations(a.dataAvailability, major, previous, ctx);
    CitationRun(Citations(SetArticleDatasets(a, ctx).0), major, previous, ctx.dataroNum);
  }

  /** The two blocks' citations, read as one run. */
  lemma CitationRun(cs: seq<Node>, major: seq<Dataset>, previous: seq<Dataset>, start: nat)
    requires cs == DatasetCitations(major, start, "isSupplementedBy") + DatasetCitations(previous, start + |major|, "references")
    ensures |cs| == |major| + |previous|
    ensures forall i :: 0 <= i < |cs| ==>
      && GetAttr(cs[i], "id") == Some(DatasetId(start + i + 1))
      && GetAttr(cs[i], "specific-use") == Some(if i < |major| then "isSupplementedBy" else "references")
  {
    DatasetCitationsAppend(major, previous, start, "isSupplementedBy", "references");
    forall i | 0 <= i < |cs|
      ensures GetAttr(cs[i], "specific-use") == Some(if i < |major| then "isSupplementedBy" else "references")
    {
      if i < |major| {
        assert GetAttr(cs[i], "specific-use") == NonEmpty("isSupplementedBy");
      } else {
        assert GetAttr(cs[i], "specific-use") == NonEmpty("references");
      }
    }
  }

  /** The footnote groups of the additional-information section: the
      competing-interest group when `conflicts`, then the ethics group when
      `ethics`. */
  function InformationGroups(conflicts: bool, conflictGroup: Node, ethics: bool, ethicsGroup: Node): (r: seq<Node>)
    ensures |r| == (if conflicts then 1 else 0) + (if ethics then 1 else 0)
    ensures conflicts ==> r[0] == conflictGroup
    ensures ethics ==> r[|r| - 1] == ethicsGroup
  {
    (if conflicts then [conflictGroup] else []) + (if ethics then [ethicsGroup] else [])
  }

  /** The additional-information section shows the competing interests when
      any contributor declares a conflict or a default statement exists, and
      the ethics statements when there are any. */
  function ArticleInformationGroups(a: Article): (r: seq<Node>)
    ensures |r| == (if HasContributorConflict(a) || a.conflictDefault != "" then 1 else 0) + (if a.ethics != [] then 1 else 0)
    ensures (HasContributorConflict(a) || a.conflictDefault != "") ==> r[0] == SetFnGroupCompetingInterest(a)
    ensures a.ethics != [] ==> r[|r| - 1] == SetFnGroupEthicsInformation(a)
  {
    InformationGroups(HasContributorConflict(a) || a.conflictDefault != "", SetFnGroupCompetingInterest(a),
                      a.ethics != [], SetFnGroupEthicsInformation(a))
  }

  /** A section opened with `SetSection` and given its children. */
  function FilledSection(ctx: Context, secType: string, children: seq<Node>): (r: (Node, Context))
    ensures r.0.tag == "sec" && r.0.children == children
    ensures GetAttr(r.0, "id") == Some(SecId(ctx.secCount + 1)) && GetAttr(r.0, "sec-type") == Some(secType)
    ensures r.1 == ctx.(secCount := ctx.secCount + 1)
  {
    var sec := SetSection(ctx, secType);
    (sec.0.(children := children), sec.1)
  }

  /** The additional-information section: its title, then the footnote
      groups. */
  function AdditionalInformation(a: Article, ctx: Context): (r: (Node, Context))
    ensures r.0 == FilledSection(ctx, "additional-information",
                                 [Leaf("title", "Additional information")] + ArticleInformationGroups(a)).0
    ensures r.1 == ctx.(secCount := ctx.secCount + 1)
  {
    FilledSection(ctx, "additional-information", [Leaf("title", "Additional information")] + ArticleInformationGroups(a))
  }

  /** The supplementary-material section, numbered after `ctx`'s sections,
      holding the data-availability section, numbered next, which holds
      `items`. */
  function SupplementarySection(ctx: Context, items: seq<Node>): (r: Node)
    ensures GetAttr(r, "id") == Some(SecId(ctx.secCount + 1))
    ensures GetAttr(r, "sec-type") == Some("supplementary-material")
    ensures |r.children| == 2 && r.children[0] == Leaf("title", "Additional Files")
    ensures GetAttr(r.children[1], "id") == Some(SecId(ctx.secCount + 2))
    ensures GetAttr(r.children[1], "sec-type") == Some("data-availability")
    ensures r.children[1].children == items
  {
    var data := FilledSection(ctx.(secCount := ctx.secCount + 1), "data-availability", items);
    FilledSection(ctx, "supplementary-material", [Leaf("title", "Additional Files"), data.0]).0
  }

  /** The supplementary-material section of the article: the datasets are
      added once both sections are open. */
  function SupplementaryMaterial(a: Article, ctx: Context): (r: (Node, Context))
    ensures r.0 == SupplementarySection(ctx, SetArticleDatasets(a, ctx.(secCount := ctx.secCount + 2)).0)
    ensures r.1 == SetArticleDatasets(a, ctx.(secCount := ctx.secCount + 2)).1
    ensures r.1 == ctx.(secCount := ctx.secCount + 2, dataroNum := ctx.dataroNum + DatasetCount(a))
    ensures SupplementaryNumbered(a, r.0, ctx.secCount, ctx.dataroNum)
  {
    var inner := ctx.(secCount := ctx.secCount + 2);
    var datasets := SetArticleDatasets(a, inner);
    DatasetIdsContiguous(a, inner);
    SupplementarySectionNumbered(a, ctx, datasets.0, ctx.dataroNum);
    (SupplementarySection(ctx, datasets.0), datasets.1)
  }

  /** The supplementary section around numbered citations is numbered. */
  lemma SupplementarySectionNumbered(a: Article, ctx: Context, items: seq<Node>, start: nat)
    requires CitationsNumbered(a, Citations(items), start)
    ensures SupplementaryNumbered(a, SupplementarySection(ctx, items), ctx.secCount, start)
  {
  }

  /** The number of datasets the article cites: generated, then previously
      published. */
  function DatasetCount(a: Article): nat {
    |GetDatasets(a, "datasets")| + |GetDatasets(a, "prev_published_datasets")|
  }

  /** `cs` are the article's data citations numbered on from `start`: the
      generated datasets, marked `isSupplementedBy`, then the previously
      published ones, marked `references`, with ids `dataset<start + 1>`,
      `dataset<start + 2>`, ... */
  ghost predicate CitationsNumbered(a: Article, cs: seq<Node>, start: nat) {
    && |cs| == DatasetCount(a)
    && forall i :: 0 <= i < |cs| ==>
         && GetAttr(cs[i], "id") == Some(DatasetId(start + i + 1))
         && GetAttr(cs[i], "specific-use") == Some(if i < |GetDatasets(a, "datasets")| then "isSupplementedBy" else "references")
  }

  /** `sec` is the supplementary-material section numbered after `secStart`,
      holding the data-availability section numbered next, whose citations
      are numbered on from `dataStart`. */
  ghost predicate SupplementaryNumbered(a: Article, sec: Node, secStart: nat, dataStart: nat) {
    && GetAttr(sec, "id") == Some(SecId(secStart + 1))
    && GetAttr(sec, "sec-type") == Some("supplementary-material")
    && |sec.children| == 2 && sec.children[0] == Leaf("title", "Additional Files")
    && GetAttr(sec.children[1], "id") == Some(SecId(secStart + 2))
    && GetAttr(sec.children[1], "sec-type") == Some("data-availability")
    && CitationsNumbered(a, Citations(sec.children[1].children), dataStart)
  }

  /** `set_backmatter`: the additional-information section, then the
      supplementary-material section when the article has datasets or an
      availability statement. */
  function SetBackmatter(a: Article, ctx: Context): (r: (Node, Context))
    ensures r.0.tag == "back"
    ensures |r.0.children| == (if a.datasets != [] || a.dataAvailability != "" then 2 else 1)
    ensures r.0.children[0] == AdditionalInformation(a, ctx).0
    ensures |r.0.children| == 2 ==> r.0.children[1] == SupplementaryMaterial(a, ctx.(secCount := ctx.secCount + 1)).0
    ensures r.1.secCount == ctx.secCount + (if |r.0.children| == 2 then 3 else 1)
    ensures r.1.affs == ctx.affs && r.1.affCount == ctx.affCount
    ensures r.1.conflictCount == ctx.conflictCount && r.1.correspCount == ctx.correspCount
  {
    var info := AdditionalInformation(a, ctx);
    if a.datasets != [] || a.dataAvailability != "" then
      var supp := SupplementaryMaterial(a, info.1);
      (Element("back").(children := [info.0, supp.0]), supp.1)
    else
      (Element("back").(children := [info.0]), info.1)
  }

  /** The sections of the back matter are numbered in the order they are
      opened: additional information, supplementary material, data
      availability. */
  lemma BackmatterSectionIds(a: Article, ctx: Context)
    ensures var back := SetBackmatter(a, ctx).0;
      && GetAttr(back.children[0], "id") == Some(SecId(ctx.secCount + 1))
      && GetAttr(back.children[0], "sec-type") == Some("additional-information")
      && (|back.children| == 2 ==>
            && GetAttr(back.children[1], "id") == Some(SecId(ctx.secCount + 2))
            && GetAttr(back.children[1], "sec-type") == Some("supplementary-material")
            && GetAttr(back.children[1].children[1], "id") == Some(SecId(ctx.secCount + 3))
            && GetAttr(back.children[1].children[1], "sec-type") == Some("data-availability"))
  {
  }

  /** `back` is back matter whose sections are numbered after `secStart` and
      whose data citations are numbered on from `dataStart`. */
  ghost predicate BackNumbered(a: Article, back: Node, secStart: nat, dataStart: nat) {
    && back.tag == "back"
    && |back.children| == (if a.datasets != [] || a.dataAvailability != "" then 2 else 1)
    && GetAttr(back.children[0], "id") == Some(SecId(secStart + 1))
    && GetAttr(back.children[0], "sec-type") == Some("additional-information")
    && (|back.children| == 2 ==> SupplementaryNumbered(a, back.children[1], secStart + 1, dataStart))
  }

  /** The back matter built in `ctx`: the additional-information section
      numbered after `ctx`'s sections, then, when the article has datasets or
      an availability statement, the supplementary-material section numbered
      next with the data citations numbered on from `ctx`'s dataset counter. */
  lemma BackmatterNumbering(a: Article, ctx: Context)
    ensures BackNumbered(a, SetBackmatter(a, ctx).0, ctx.secCount, ctx.dataroNum)
  {
    var info := AdditionalInformation(a, ctx);
    if a.datasets != [] || a.dataAvailability != "" {
      var supp := SupplementaryMaterial(a, info.1);
      assert info.1.dataroNum == ctx.dataroNum;
    }
  }

  // ---------------------------------------------------------------------------
  // Contributors

  /** `d` keeps every affiliation `c` stored, under the same key. */
  ghost predicate Extends(c: Context, d: Context) {
    && c.affCount <= d.affCount
    && forall k :: k in c.affs ==> k in d.affs && d.affs[k] == c.affs[k]
  }

  lemma ExtendsTransitive(c: Context, d: Context, e: Context)
    requires Extends(c, d) && Extends(d, e)
    ensures Extends(c, e)
  {
  }

  /** `get_aff_id` only ever adds an affiliation and touches no other
      counter. */
  lemma GetAffIdExtends(ctx: Context, aff: Affiliation)
    requires Valid(ctx)
    ensures Extends(ctx, GetAffId(ctx, aff).1)
    ensures GetAffId(ctx, aff).1 == ctx.(affCount := GetAffId(ctx, aff).1.affCount, affs := GetAffId(ctx, aff).1.affs)
  {
    var r := GetAffId(ctx, aff);
    if k :| k in ctx.affs && CompareAff(aff, ctx.affs[k]) {
      assert r.1 == ctx;
    } else {
      assert ctx.affCount + 1 !in ctx.affs;
      assert r.1 == ctx.(affCount := ctx.affCount + 1, affs := ctx.affs[ctx.affCount + 1 := aff]);
    }
  }

  /** The ids `get_aff_id` gives the affiliations of one contributor, asked
      for in order. */
  function AffIds(affs: seq<Affiliation>, ctx: Context): (r: (seq<nat>, Context))
    requires Valid(ctx)
    ensures Valid(r.1) && Extends(ctx, r.1) && |r.0| == |affs|
    ensures r.1 == ctx.(affCount := r.1.affCount, affs := r.1.affs)
    decreases |affs|
  {
    if |affs| == 0 then ([], ctx)
    else
      var prev := AffIds(affs[..|affs| - 1], ctx);
      var next := GetAffId(prev.1, affs[|affs| - 1]);
      GetAffIdExtends(prev.1, affs[|affs| - 1]);
      (prev.0 + [next.0], next.1)
  }

  /** Each id in `ids` names an affiliation stored in `c` that compares equal
      to the affiliation at the same position. */
  ghost predicate IdsMatch(affs: seq<Affiliation>, ids: seq<nat>, c: Context)
    requires |ids| == |affs|
  {
    forall i :: 0 <= i < |affs| ==>
      && 1 <= ids[i] <= c.affCount && ids[i] in c.affs
      && CompareAff(affs[i], c.affs[ids[i]])
  }

  lemma IdsMatchStep(affs: seq<Affiliation>, ids: seq<nat>, c: Context, d: Context, id: nat)
    requires |affs| > 0 && |ids| == |affs| - 1
    requires IdsMatch(affs[..|affs| - 1], ids, c) && Extends(c, d)
    requires 1 <= id <= d.affCount && id in d.affs && CompareAff(affs[|affs| - 1], d.affs[id])
    ensures IdsMatch(affs, ids + [id], d)
  {
    forall i | 0 <= i < |affs|
      ensures 1 <= (ids + [id])[i] <= d.affCount && (ids + [id])[i] in d.affs
        && CompareAff(affs[i], d.affs[(ids + [id])[i]])
    {
      if i < |ids| {
        assert (ids + [id])[i] == ids[i] && affs[..|affs| - 1][i] == affs[i];
      }
    }
  }

  lemma {:induction false} AffIdsMatch(affs: seq<Affiliation>, ctx: Context)
    requires Valid(ctx)
    ensures var r := AffIds(affs, ctx);
      forall i :: 0 <= i < |affs| ==>
        && 1 <= r.0[i] <= r.1.affCount && r.0[i] in r.1.affs
        && CompareAff(affs[i], r.1.affs[r.0[i]])
    decreases |affs|
  {
    if |affs| > 0 {
      var init := affs[..|affs| - 1];
      AffIdsMatch(init, ctx);
      var prev := AffIds(init, ctx);
      var next := GetAffId(prev.1, affs[|affs| - 1]);
      GetAffIdExtends(prev.1, affs[|affs| - 1]);
      assert IdsMatch(init, prev.0, prev.1);
      IdsMatchStep(affs, prev.0, prev.1, next.1, next.0);
      assert AffIds(affs, ctx) == (prev.0 + [next.0], next.1);
    }
  }

  /** `<xref ref-type="aff" rid="aff<id>"><id></xref>` */
  function AffXref(id: nat): (r: Node)
    ensures r.tag == "xref" && GetAttr(r, "ref-type") == Some("aff")
    ensures GetAttr(r, "rid") == Some("aff" + r.text) && r.text == NatToString(id)
  {
    WithAttr(WithAttr(Leaf("xref", NatToString(id)), "ref-type", "aff"), "rid", "aff" + NatToString(id))
  }

  /** An xref's text gives back the affiliation number it points to. */
  lemma AffXrefNumber(id: nat)
    ensures ParseDecimal(AffXref(id).text) == id
  {
    ParseNatToString(id);
  }

  /** The affiliations of a contributor: inline `aff` elements in the editors'
      group, otherwise cross-references to the numbered affiliations. */
  function ContribAffs(c: Contributor, groupType: string, ctx: Context): (r: seq<Node>)
    requires Valid(ctx)
    ensures |r| == |c.affiliations|
    ensures forall i :: 0 <= i < |r| ==> r[i].tag == (if groupType == "editor" then "aff" else "xref")
    ensures groupType != "editor" ==> forall i :: 0 <= i < |r| ==> GetAttr(r[i], "ref-type") == Some("aff")
    ensures groupType == "editor" ==> forall i :: 0 <= i < |r| ==> r[i] == SetAff(c.affiliations[i], "editor", "")
  {
    if groupType == "editor" then
      seq(|c.affiliations|, i requires 0 <= i < |c.affiliations| => SetAff(c.affiliations[i], groupType, ""))
    else
      var ids := AffIds(c.affiliations, ctx).0;
      seq(|ids|, i requires 0 <= i < |ids| => AffXref(ids[i]))
  }

  /** In the editors' group each affiliation is written inline: an `aff`
      without an id and without the department, the other fields as
      `set_aff` writes them. */
  lemma EditorAffsInline(c: Contributor, ctx: Context, i: nat)
    requires Valid(ctx) && i < |c.affiliations|
    ensures var e := ContribAffs(c, "editor", ctx)[i];
      var aff := c.affiliations[i];
      && e.tag == "aff" && GetAttr(e, "id") == None
      && SlotValue(e.children, 0) == None
      && SlotValue(e.children, 1) == NonEmpty(aff.institution)
      && SlotValue(e.children, 2) == NonEmpty(aff.city)
      && SlotValue(e.children, 3) == NonEmpty(aff.country)
  {
    assert ContribAffs(c, "editor", ctx)[i] == SetAff(c.affiliations[i], "editor", "");
  }

  /** The context after one contributor: its affiliations stored (outside the
      editors' group) and the corresponding-author and conflict counters
      advanced. */
  function ContribContext(c: Contributor, groupType: string, ctx: Context): (r: Context)
    requires Valid(ctx)
    ensures Valid(r) && Extends(ctx, r)
    ensures r.secCount == ctx.secCount && r.dataroNum == ctx.dataroNum
    ensures r.correspCount == ctx.correspCount + (if c.corresp then 1 else 0)
    ensures r.conflictCount == ctx.conflictCount + (if HasConflict(c) then 1 else 0)
    ensures groupType == "editor" ==> r.affs == ctx.affs && r.affCount == ctx.affCount
  {
    var stored := if groupType == "editor" then ctx else AffIds(c.affiliations, ctx).1;
    stored.(correspCount := ctx.correspCount + (if c.corresp then 1 else 0),
            conflictCount := ctx.conflictCount + (if HasConflict(c) then 1 else 0))
  }

  /** Outside the editors' group, the i-th affiliation becomes a
      cross-reference whose number names an affiliation stored in the context
      after the contributor, which compares equal to it. */
  lemma ContribAffXrefs(c: Contributor, groupType: string, ctx: Context)
    requires Valid(ctx) && groupType != "editor"
    ensures var r := ContribAffs(c, groupType, ctx);
      var after := ContribContext(c, groupType, ctx);
      forall i :: 0 <= i < |r| ==>
        && r[i] == AffXref(AffIds(c.affiliations, ctx).0[i])
        && AffIds(c.affiliations, ctx).0[i] in after.affs
        && CompareAff(c.affiliations[i], after.affs[AffIds(c.affiliations, ctx).0[i]])
  {
    AffIdsMatch(c.affiliations, ctx);
  }

  /** The `rid` of a contributor's competing-interest cross-reference: the
      next conflict number when they declare a conflict, `conf1` when only the
      default statement applies, none otherwise. */
  function ConflictRid(a: Article, c: Contributor, count: nat): (r: string)
    ensures r == "" <==> !HasConflict(c) && a.conflictDefault == ""
    ensures HasConflict(c) ==> r == ConfId(count + 1)
    ensures !HasConflict(c) && a.conflictDefault != "" ==> r == "conf1"
  {
    if HasConflict(c) then ConfId(count + 1)
    else if a.conflictDefault != "" then "conf1"
    else ""
  }

  /** Once `conf1` is reserved for the default statement, a contributor's own
      conflict never points at it. */
  lemma PersonalRidAvoidsDefault(a: Article, c: Contributor, count: nat)
    requires HasConflict(c) && count >= 1
    ensures ConflictRid(a, c, count) != "conf1"
  {
    ConfIdInjective(count + 1, 1);
    assert ConfId(1) == "conf1";
  }

  /** `<xref ref-type=refType rid=rid>` with optional text. */
  function Xref(refType: string, rid: string, text: string): (r: Node)
    ensures r.tag == "xref" && r.text == text && r.children == []
    ensures GetAttr(r, "ref-type") == Some(refType) && GetAttr(r, "rid") == Some(rid)
  {
    var attrs := [Attribute("ref-type", refType), Attribute("rid", rid)];
    assert attrs[..1] == [Attribute("ref-type", refType)];
    assert attrs[1].name != "ref-type";
    assert LookupAttr(attrs[..1], "ref-type") == Some(refType);
    Node("xref", attrs, text, "", [])
  }

  predicate IsFnXref(n: Node) {
    n.tag == "xref" && GetAttr(n, "ref-type") == Some("fn")
  }

  /** The `contrib` element and its attributes. */
  function ContribElement(c: Contributor): (r: Node)
    ensures r.tag == "contrib" && r.children == []
    ensures GetAttr(r, "contrib-type") == Some(c.contribType)
    ensures GetAttr(r, "corresp") == (if c.corresp then Some("yes") else None)
    ensures GetAttr(r, "equal_contrib") == (if c.equalContrib then Some("yes") else None)
    ensures GetAttr(r, "id") == (if c.authId != "" then Some("author-" + c.authId) else None)
  {
    var e0 := WithAttr(Element("contrib"), "contrib-type", c.contribType);
    assert GetAttr(e0, "corresp") == None && GetAttr(e0, "equal_contrib") == None && GetAttr(e0, "id") == None;
    var e1 := if c.corresp then WithAttr(e0, "corresp", "yes") else e0;
    assert GetAttr(e1, "contrib-type") == Some(c.contribType);
    assert GetAttr(e1, "equal_contrib") == None && GetAttr(e1, "id") == None;
    var e2 := if c.equalContrib then WithAttr(e1, "equal_contrib", "yes") else e1;
    assert GetAttr(e2, "contrib-type") == Some(c.contribType) && GetAttr(e2, "corresp") == GetAttr(e1, "corresp");
    assert GetAttr(e2, "id") == None;
    if c.authId != "" then WithAttr(e2, "id", "author-" + c.authId) else e2
  }

  /** The children of a contributor before its affiliations: the name or
      collaboration, the editor's role, the ORCID. */
  function ContribHead(c: Contributor, groupType: string): (r: seq<Node>)
    ensures |r| == 1 + (if groupType == "editor" then 1 else 0) + (if c.orcid != "" then 1 else 0)
    ensures r[0] == SetContribName(c)
    ensures groupType == "editor" ==> r[1] == Leaf("role", "Reviewing editor")
    ensures c.orcid != "" ==> r[|r| - 1].tag == "contrib-id" && r[|r| - 1].text == "http://orcid.org/" + c.orcid
    ensures c.orcid != "" ==>
      r[|r| - 1] == Node("contrib-id", [Attribute("contrib-id-type", "orcid")], "http://orcid.org/" + c.orcid, "", [])
    ensures forall i :: 0 <= i < |r| ==> r[i].tag != "xref"
  {
    var name := SetContribName(c);
    var role := Leaf("role", "Reviewing editor");
    var orcid := Node("contrib-id", [Attribute("contrib-id-type", "orcid")], "http://orcid.org/" + c.orcid, "", []);
    if groupType == "editor" && c.orcid != "" then [name, role, orcid]
    else if groupType == "editor" then [name, role]
    else if c.orcid != "" then [name, orcid]
    else [name]
  }

  predicate IsCorrespXref(n: Node) {
    n.tag == "xref" && GetAttr(n, "ref-type") == Some("corresp")
  }

  predicate IsOtherXref(n: Node) {
    n.tag == "xref" && GetAttr(n, "ref-type") == Some("other")
  }

  /** The children of a contributor after its affiliations: the
      corresponding-author mark, the funding references, and the
      competing-interest reference outside the editors' group. */
  function ContribTail(a: Article, c: Contributor, groupType: string, ctx: Context): (r: seq<Node>)
    ensures Filter(r, IsCorrespXref)
         == if c.corresp then [Xref("corresp", CorrespId(ctx.correspCount + 1), "*")] else []
    ensures Filter(r, IsOtherXref) == FundingXrefs(GetContribParIds(a, c.authId))
    ensures Filter(r, IsFnXref)
         == if groupType != "editor" && ConflictRid(a, c, ctx.conflictCount) != ""
            then [Xref("fn", ConflictRid(a, c, ctx.conflictCount), "")] else []
    ensures r == Filter(r, IsCorrespXref) + Filter(r, IsOtherXref) + Filter(r, IsFnXref)
  {
    var corresp := if c.corresp then [Xref("corresp", CorrespId(ctx.correspCount + 1), "*")] else [];
    var funding := FundingXrefs(GetContribParIds(a, c.authId));
    var rid := ConflictRid(a, c, ctx.conflictCount);
    var conflict := if groupType != "editor" && rid != "" then [Xref("fn", rid, "")] else [];
    XrefKinds(corresp, funding, conflict);
    corresp + funding + conflict
  }

  /** Corresponding-author, funding and competing-interest references, one
      run of each kind, are told apart by their `ref-type`. */
  lemma XrefKinds(corresp: seq<Node>, funding: seq<Node>, conflict: seq<Node>)
    requires forall i :: 0 <= i < |corresp| ==> IsCorrespXref(corresp[i])
    requires forall i :: 0 <= i < |funding| ==> IsOtherXref(funding[i])
    requires forall i :: 0 <= i < |conflict| ==> IsFnXref(conflict[i])
    ensures var r := corresp + funding + conflict;
      && Filter(r, IsCorrespXref) == corresp
      && Filter(r, IsOtherXref) == funding
      && Filter(r, IsFnXref) == conflict
  {
    CorrespRun(corresp);
    OtherRun(funding);
    FnRun(conflict);
    FilterFirst(corresp, funding, conflict, IsCorrespXref);
    FilterMiddle(corresp, funding, conflict, IsOtherXref);
    FilterLast(corresp, funding, conflict, IsFnXref);
  }

  /** A run of corresponding-author references passes only its own filter. */
  lemma CorrespRun(s: seq<Node>)
    requires forall i :: 0 <= i < |s| ==> IsCorrespXref(s[i])
    ensures Filter(s, IsCorrespXref) == s && Filter(s, IsOtherXref) == [] && Filter(s, IsFnXref) == []
  {
    FilterKeepsAll(s, IsCorrespXref);
    FilterKeepsNone(s, IsOtherXref);
    FilterKeepsNone(s, IsFnXref);
  }

  /** A run of funding references passes only its own filter. */
  lemma OtherRun(s: seq<Node>)
    requires forall i :: 0 <= i < |s| ==> IsOtherXref(s[i])
    ensures Filter(s, IsCorrespXref) == [] && Filter(s, IsOtherXref) == s && Filter(s, IsFnXref) == []
  {
    FilterKeepsNone(s, IsCorrespXref);
    FilterKeepsAll(s, IsOtherXref);
    FilterKeepsNone(s, IsFnXref);
  }

  /** A run of competing-interest references passes only its own filter. */
  lemma FnRun(s: seq<Node>)
    requires forall i :: 0 <= i < |s| ==> IsFnXref(s[i])
    ensures Filter(s, IsCorrespXref) == [] && Filter(s, IsOtherXref) == [] && Filter(s, IsFnXref) == s
  {
    FilterKeepsNone(s, IsCorrespXref);
    FilterKeepsNone(s, IsOtherXref);
    FilterKeepsAll(s, IsFnXref);
  }

  /** `<xref ref-type="other" rid=par-id>` for each funding award. */
  function FundingXrefs(parIds: seq<string>): (r: seq<Node>)
    ensures |r| == |parIds|
    ensures forall i :: 0 <= i < |r| ==> r[i].tag == "xref" && GetAttr(r[i], "ref-type") == Some("other")
    ensures forall i :: 0 <= i < |r| ==> GetAttr(r[i], "rid") == Some(parIds[i])
  {
    seq(|parIds|, i requires 0 <= i < |parIds| => Xref("other", parIds[i], ""))
  }

  /** Cross-references of another type hold no competing-interest reference. */
  lemma NoFnXrefs(ns: seq<Node>, refType: string)
    requires refType != "fn"
    requires forall i :: 0 <= i < |ns| ==> GetAttr(ns[i], "ref-type") == Some(refType)
    ensures Filter(ns, IsFnXref) == []
  {
    FilterAllNone(ns, IsFnXref);
  }

  /** One contributor of `set_contrib_group`. */
  function SetContrib(a: Article, c: Contributor, groupType: string, ctx: Context): (r: Node)
    requires Valid(ctx)
    ensures r.tag == "contrib" && GetAttr(r, "contrib-type") == Some(c.contribType)
    ensures r.attrs == ContribElement(c).attrs
    ensures GetAttr(r, "corresp") == (if c.corresp then Some("yes") else None)
    ensures GetAttr(r, "equal_contrib") == (if c.equalContrib then Some("yes") else None)
    ensures GetAttr(r, "id") == (if c.authId != "" then Some("author-" + c.authId) else None)
    ensures r.children == ContribHead(c, groupType) + ContribAffs(c, groupType, ctx) + ContribTail(a, c, groupType, ctx)
  {
    ContribElement(c).(children := ContribHead(c, groupType) + ContribAffs(c, groupType, ctx) + ContribTail(a, c, groupType, ctx))
  }

  /** A contributor carries a competing-interest cross-reference exactly when
      the group is not the editors' and they declare a conflict or a default
      statement exists; it is the only one. */
  lemma ContribConflictXref(a: Article, c: Contributor, groupType: string, ctx: Context)
    requires Valid(ctx)
    ensures Filter(SetContrib(a, c, groupType, ctx).children, IsFnXref)
         == if groupType != "editor" && (HasConflict(c) || a.conflictDefault != "")
            then [Xref("fn", ConflictRid(a, c, ctx.conflictCount), "")] else []
  {
    var head := ContribHead(c, groupType);
    var affs := ContribAffs(c, groupType, ctx);
    var tail := ContribTail(a, c, groupType, ctx);
    NoXrefs(head);
    if groupType == "editor" {
      NoXrefs(affs);
    } else {
      NoFnXrefs(affs, "aff");
    }
    FilterAppend(head, affs, IsFnXref);
    FilterAppend(head + affs, tail, IsFnXref);
  }

  /** Nodes other than cross-references hold no competing-interest reference. */
  lemma NoXrefs(ns: seq<Node>)
    requires forall i :: 0 <= i < |ns| ==> ns[i].tag != "xref"
    ensures Filter(ns, IsFnXref) == []
  {
    FilterAllNone(ns, IsFnXref);
  }

  /** The contributors `set_contrib_group` lists: those of the given type, or
      all of them when no type is given. */
  function SelectContributors(a: Article, contribType: string): (r: seq<Contributor>)
    ensures contribType == "" ==> r == a.contributors
    ensures contribType != "" ==> r == Filter(a.contributors, (c: Contributor) => c.contribType == contribType)
  {
    if contribType != "" then Filter(a.contributors, (c: Contributor) => c.contribType == contribType)
    else a.contributors
  }

  /** Every selected contributor has the requested type, and every contributor
      of that type is selected. */
  lemma SelectContributorsByType(a: Article, contribType: string)
    requires contribType != ""
    ensures forall c :: c in SelectContributors(a, contribType) <==> c in a.contributors && c.contribType == contribType
  {
  }

  /** The context after the contributors `cs`, taken in order. */
  function ContextAfter(cs: seq<Contributor>, groupType: string, ctx: Context): (r: Context)
    requires Valid(ctx)
    ensures Valid(r) && Extends(ctx, r)
    ensures r.secCount == ctx.secCount && r.dataroNum == ctx.dataroNum
    ensures r.correspCount == ctx.correspCount + |Filter(cs, IsCorresp)|
    ensures r.conflictCount == ctx.conflictCount + |Filter(cs, HasConflict)|
    ensures groupType == "editor" ==> r.affs == ctx.affs && r.affCount == ctx.affCount
    decreases |cs|
  {
    if |cs| == 0 then ctx
    else ContribContext(cs[|cs| - 1], groupType, ContextAfter(cs[..|cs| - 1], groupType, ctx))
  }

  /** The `contrib` elements for `cs`: each built in the context the
      contributors before it left. */
  function Contribs(a: Article, cs: seq<Contributor>, groupType: string, ctx: Context): (r: seq<Node>)
    requires Valid(ctx)
    ensures |r| == |cs|
  {
    seq(|cs|, i requires 0 <= i < |cs| => SetContrib(a, cs[i], groupType, ContextAfter(cs[..i], groupType, ctx)))
  }

  /** The element for the affiliation stored under key `k`, with id `aff<k>`. */
  function AffElement(ctx: Context, groupType: string, k: nat): Node
    requires k in ctx.affs
  {
    SetAff(ctx.affs[k], groupType, "aff" + NatToString(k))
  }

  /** The numbered affiliation elements that close a group outside the
      editors': one per stored affiliation, in key order. */
  function AffElements(ctx: Context, groupType: string): (r: seq<Node>)
    requires forall k :: 1 <= k <= ctx.affCount ==> k in ctx.affs
    ensures |r| == ctx.affCount
  {
    seq(ctx.affCount, k requires 0 <= k < ctx.affCount => AffElement(ctx, groupType, k + 1))
  }

  /** The k-th closing affiliation element carries id `aff<k+1>` and the
      institution and country of the affiliation stored under key k+1. */
  lemma AffElementsShape(ctx: Context, groupType: string, k: nat)
    requires (forall j :: 1 <= j <= ctx.affCount ==> j in ctx.affs) && k < ctx.affCount
    ensures var e := AffElements(ctx, groupType)[k];
      && e.tag == "aff"
      && GetAttr(e, "id") == Some("aff" + NatToString(k + 1))
      && SlotValue(e.children, 1) == NonEmpty(ctx.affs[k + 1].institution)
      && SlotValue(e.children, 3) == NonEmpty(ctx.affs[k + 1].country)
  {
    AffElementsAt(ctx, groupType, k);
    AffElementShape(ctx, groupType, k + 1);
  }

  lemma AffElementsAt(ctx: Context, groupType: string, k: nat)
    requires (forall j :: 1 <= j <= ctx.affCount ==> j in ctx.affs) && k < ctx.affCount
    ensures AffElements(ctx, groupType)[k] == AffElement(ctx, groupType, k + 1)
  {
  }

  /** The element for key `k` is an `aff` with id `aff<k>` and that
      affiliation's institution and country. */
  lemma AffElementShape(ctx: Context, groupType: string, k: nat)
    requires k in ctx.affs
    ensures var e := AffElement(ctx, groupType, k);
      && e.tag == "aff"
      && GetAttr(e, "id") == Some("aff" + NatToString(k))
      && SlotValue(e.children, 1) == NonEmpty(ctx.affs[k].institution)
      && SlotValue(e.children, 3) == NonEmpty(ctx.affs[k].country)
  {
    var id := "aff" + NatToString(k);
    assert id[0] == 'a';
  }

  /** `set_contrib_group`: the selected contributors in order, then, outside
      the editors' group, every affiliation stored so far. */
  function SetContribGroup(a: Article, contribType: string, ctx: Context): (r: (Node, Context))
    requires Valid(ctx)
    ensures r.1 == ContextAfter(SelectContributors(a, contribType), contribType, ctx)
    ensures r.0.tag == "contrib-group"
    ensures GetAttr(r.0, "content-type") == (if contribType == "editor" then Some("section") else None)
    ensures var n := |SelectContributors(a, contribType)|;
      && |r.0.children| == n + (if contribType == "editor" then 0 else r.1.affCount)
      && r.0.children[..n] == Contribs(a, SelectContributors(a, contribType), contribType, ctx)
      && r.0.children[n..] == (if contribType == "editor" then [] else AffElements(r.1, contribType))
  {
    var group := Element("contrib-group");
    var group := if contribType == "editor" then WithAttr(group, "content-type", "section") else group;
    var cs := SelectContributors(a, contribType);
    var contribs := Contribs(a, cs, contribType, ctx);
    var after := ContextAfter(cs, contribType, ctx);
    var affs := if contribType == "editor" then [] else AffElements(after, contribType);
    assert (contribs + affs)[..|contribs|] == contribs;
    assert (contribs + affs)[|contribs|..] == affs;
    (group.(children := contribs + affs), after)
  }

  /** Editors never get a competing-interest cross-reference. */
  lemma EditorsHaveNoConflictXref(a: Article, ctx: Context, i: nat)
    requires Valid(ctx) && i < |SelectContributors(a, "editor")|
    ensures Filter(SetContribGroup(a, "editor", ctx).0.children[i].children, IsFnXref) == []
  {
    var cs := SelectContributors(a, "editor");
    var before := ContextAfter(cs[..i], "editor", ctx);
    ContribConflictXref(a, cs[i], "editor", before);
    assert SetContribGroup(a, "editor", ctx).0.children[i] == Contribs(a, cs, "editor", ctx)[i];
  }

  /** Outside the editors' group, the `i`-th contributor's competing-interest
      reference counts the contributors with conflicts before it: one number
      per contributor, not per statement. A contributor without a conflict
      points at the default statement `conf1` when there is one. */
  lemma GroupConflictXref(a: Article, contribType: string, ctx: Context, i: nat)
    requires Valid(ctx) && contribType != "editor" && i < |SelectContributors(a, contribType)|
    ensures var cs := SelectContributors(a, contribType);
      Filter(SetContribGroup(a, contribType, ctx).0.children[i].children, IsFnXref)
      == if HasConflict(cs[i]) || a.conflictDefault != ""
         then [Xref("fn", ConflictRid(a, cs[i], ContextAfter(cs[..i], contribType, ctx).conflictCount), "")]
         else []
  {
    var cs := SelectContributors(a, contribType);
    var before := ContextAfter(cs[..i], contribType, ctx);
    ContribConflictXref(a, cs[i], contribType, before);
    assert SetContribGroup(a, contribType, ctx).0.children[i] == Contribs(a, cs, contribType, ctx)[i];
  }

  /** The number a contributor's own conflict points at counts the
      contributors with conflicts before it in the group, after those counted
      when the group starts; the statements themselves are not counted. */
  lemma ConflictRidCountsContributors(a: Article, cs: seq<Contributor>, groupType: string, ctx: Context, i: nat)
    requires Valid(ctx) && i < |cs| && HasConflict(cs[i])
    ensures ConflictRid(a, cs[i], ContextAfter(cs[..i], groupType, ctx).conflictCount)
         == ConfId(ctx.conflictCount + |Filter(cs[..i], HasConflict)| + 1)
  {
  }
}

=== FILE: seqs.dfy ===
/** Small sequence utilities shared by the builders: an optional value and an
    order-preserving filter (a Python list comprehension with an `if`). */
module Seqs {

  /** A value that may be absent (Python's `None`). */
  datatype Option<+T> = None | Some(value: T)

  /** The elements of `s` that satisfy `p`, in their original order. */
  function Filter<T>(s: seq<T>, p: T -> bool): (r: seq<T>)
    ensures |r| <= |s|
    ensures forall i :: 0 <= i < |r| ==> p(r[i]) && r[i] in s
    ensures forall x :: x in s && p(x) ==> x in r
    decreases |s|
  {
    if |s| == 0 then []
    else Filter(s[..|s| - 1], p) + (if p(s[|s| - 1]) then [s[|s| - 1]] else [])
  }

  /** Filtering distributes over concatenation: together with the one-element
      cases this pins the filter down as "keep the matching elements, in order". */
  lemma {:induction false} FilterAppend<T>(a: seq<T>, b: seq<T>, p: T -> bool)
    ensures Filter(a + b, p) == Filter(a, p) + Filter(b, p)
    decreases |b|
  {
    if |b| == 0 {
      assert a + b == a;
    } else {
      var b' := b[..|b| - 1];
      assert (a + b)[..|a + b| - 1] == a + b';
      assert (a + b)[|a + b| - 1] == b[|b| - 1];
      FilterAppend(a, b', p);
    }
  }

  /** Filtering a one-element sequence keeps it exactly when it matches. */
  lemma FilterSingleton<T>(x: T, p: T -> bool)
    ensures Filter([x], p) == (if p(x) then [x] else [])
  {
    assert [x][..0] == [];
  }

  /** Filtering from the front: the first element is kept iff it matches. */
  lemma FilterCons<T>(x: T, s: seq<T>, p: T -> bool)
    ensures Filter([x] + s, p) == (if p(x) then [x] else []) + Filter(s, p)
  {
    FilterAppend([x], s, p);
    FilterSingleton(x, p);
  }

  /** A filter that keeps everything is the identity; one that keeps nothing is empty. */
  lemma {:induction false} FilterAllNone<T>(s: seq<T>, p: T -> bool)
    ensures (forall x :: x in s ==> p(x)) ==> Filter(s, p) == s
    ensures (forall x :: x in s ==> !p(x)) ==> Filter(s, p) == []
    decreases |s|
  {
    if |s| > 0 {
      var s' := s[..|s| - 1];
      assert forall x :: x in s' ==> x in s;
      FilterAllNone(s', p);
      assert s == s' + [s[|s| - 1]];
    }
  }

  /** Filtering distributes over a concatenation of three runs. */
  lemma Filter3<T>(a: seq<T>, b: seq<T>, c: seq<T>, p: T -> bool)
    ensures Filter(a + b + c, p) == Filter(a, p) + Filter(b, p) + Filter(c, p)
  {
    FilterAppend(a + b, c, p);
    FilterAppend(a, b, p);
  }

  /** Of three runs, the filter keeps only the first, whole. */
  lemma FilterFirst<T>(a: seq<T>, b: seq<T>, c: seq<T>, p: T -> bool)
    requires Filter(a, p) == a && Filter(b, p) == [] && Filter(c, p) == []
    ensures Filter(a + b + c, p) == a
  {
    Filter3(a, b, c, p);
    assert a + [] + [] == a;
  }

  /** Of three runs, the filter keeps only the middle one, whole. */
  lemma FilterMiddle<T>(a: seq<T>, b: seq<T>, c: seq<T>, p: T -> bool)
    requires Filter(a, p) == [] && Filter(b, p) == b && Filter(c, p) == []
    ensures Filter(a + b + c, p) == b
  {
    Filter3(a, b, c, p);
    assert [] + b + [] == b;
  }

  /** Of three runs, the filter keeps only the last, whole. */
  lemma FilterLast<T>(a: seq<T>, b: seq<T>, c: seq<T>, p: T -> bool)
    requires Filter(a, p) == [] && Filter(b, p) == [] && Filter(c, p) == c
    ensures Filter(a + b + c, p) == c
  {
    Filter3(a, b, c, p);
    assert [] + [] + c == c;
  }

  /** A filter every element passes keeps the whole sequence. */
  lemma FilterKeepsAll<T>(s: seq<T>, p: T -> bool)
    requires forall x :: x in s ==> p(x)
    ensures Filter(s, p) == s
  {
    FilterAllNone(s, p);
  }

  /** A filter no element passes keeps nothing. */
  lemma FilterKeepsNone<T>(s: seq<T>, p: T -> bool)
    requires forall x :: x in s ==> !p(x)
    ensures Filter(s, p) == []
  {
    FilterAllNone(s, p);
  }

  /** The one-based positions, offset by `start`, of the elements of `s` that
      satisfy `p`: a counter that advances for every element and is recorded
      for the matching ones. */
  function Positions<T>(s: seq<T>, p: T -> bool, start: nat): seq<nat>
    decreases |s|
  {
    if |s| == 0 then []
    else Positions(s[..|s| - 1], p, start) + (if p(s[|s| - 1]) then [start + |s|] else [])
  }

  /** Every recorded position lies in `start+1..start+|s|` and names a matching element. */
  lemma {:induction false} PositionsBelong<T>(s: seq<T>, p: T -> bool, start: nat)
    ensures forall i :: 0 <= i < |Positions(s, p, start)| ==>
      && start < Positions(s, p, start)[i] <= start + |s|
      && p(s[Positions(s, p, start)[i] - start - 1])
    decreases |s|
  {
    if |s| > 0 {
      var init := s[..|s| - 1];
      PositionsBelong(init, p, start);
      var ns := Positions(init, p, start);
      var r := Positions(s, p, start);
      forall i | 0 <= i < |r|
        ensures start < r[i] <= start + |s| && p(s[r[i] - start - 1])
      {
        if i < |ns| {
          assert r[i] == ns[i];
          assert init[ns[i] - start - 1] == s[ns[i] - start - 1];
        }
      }
    }
  }

  /** Recorded positions increase strictly. */
  lemma {:induction false} PositionsIncrease<T>(s: seq<T>, p: T -> bool, start: nat)
    ensures forall i, j :: 0 <= i < j < |Positions(s, p, start)| ==>
      Positions(s, p, start)[i] < Positions(s, p, start)[j]
    decreases |s|
  {
    if |s| > 0 {
      PositionsIncrease(s[..|s| - 1], p, start);
      PositionsBelong(s[..|s| - 1], p, start);
    }
  }

  /** Every matching element has its position recorded. */
  lemma {:induction false} PositionsComplete<T>(s: seq<T>, p: T -> bool, start: nat, k: nat)
    requires k < |s| && p(s[k])
    ensures start + k + 1 in Positions(s, p, start)
    decreases |s|
  {
    if k < |s| - 1 {
      assert s[..|s| - 1][k] == s[k];
      PositionsComplete(s[..|s| - 1], p, start, k);
    }
  }

  /** What `f` yields along `s`, called on the element at position `k` with
      the counter value `start + k + 1`: a loop that advances a counter for
      every element and lets each element contribute its own output. */
  function Gather<T, U>(s: seq<T>, f: (T, nat) -> seq<U>, start: nat): seq<U>
    decreases |s|
  {
    if |s| == 0 then []
    else Gather(s[..|s| - 1], f, start) + f(s[|s| - 1], start + |s|)
  }

  /** When `f` yields exactly one item for the elements satisfying `p` and none
      for the others, the gathered items are those of the recorded positions,
      in order. */
  lemma {:induction false} GatherPositions<T, U>(s: seq<T>, f: (T, nat) -> seq<U>, p: T -> bool, start: nat,
                                                r: seq<U>, ns: seq<nat>)
    requires forall k, n: nat :: 0 <= k < |s| ==> |f(s[k], n)| == (if p(s[k]) then 1 else 0)
    requires r == Gather(s, f, start) && ns == Positions(s, p, start)
    ensures && |r| == |ns|
      && forall i :: 0 <= i < |r| ==>
           && start < ns[i] <= start + |s| && p(s[ns[i] - start - 1])
           && f(s[ns[i] - start - 1], ns[i]) == [r[i]]
    decreases |s|
  {
    if |s| > 0 {
      var n := |s|;
      var init := s[..n - 1];
      assert forall k, m: nat :: 0 <= k < |init| ==> |f(init[k], m)| == (if p(init[k]) then 1 else 0) by {
        forall k, m: nat | 0 <= k < |init| ensures |f(init[k], m)| == (if p(init[k]) then 1 else 0) {
          assert init[k] == s[k];
        }
      }
      var r0 := Gather(init, f, start);
      var ns0 := Positions(init, p, start);
      GatherPositions(init, f, p, start, r0, ns0);
      assert |f(s[n - 1], start + n)| == (if p(s[n - 1]) then 1 else 0);
      forall i | 0 <= i < |r|
        ensures && start < ns[i] <= start + n && p(s[ns[i] - start - 1])
                && f(s[ns[i] - start - 1], ns[i]) == [r[i]]
      {
        if i < |r0| {
          assert r[i] == r0[i] && ns[i] == ns0[i];
          assert init[ns0[i] - start - 1] == s[ns0[i] - start - 1];
        } else {
          assert ns[i] == start + n;
        }
      }
    }
  }

  /** A loop over `xs` that threads a state: in state `s` the element `x`
      yields the output `step(env, x, s).0` and the next state
      `step(env, x, s).1`. */
  function Fold<E, T, U, S>(env: E, xs: seq<T>, step: (E, T, S) -> (U, S), s: S): (r: (seq<U>, S))
    ensures |r.0| == |xs|
    decreases |xs|
  {
    if |xs| == 0 then ([], s)
    else
      var p := Fold(env, xs[..|xs| - 1], step, s);
      var q := step(env, xs[|xs| - 1], p.1);
      (p.0 + [q.0], q.1)
  }

  /** Output `i` is the step on `xs[i]` in the state the first `i` elements
      left. */
  lemma {:induction false} FoldAt<E, T, U, S>(env: E, xs: seq<T>, step: (E, T, S) -> (U, S), s: S, i: nat)
    requires i < |xs|
    ensures Fold(env, xs, step, s).0[i] == step(env, xs[i], Fold(env, xs[..i], step, s).1).0
    decreases |xs|
  {
    var init := xs[..|xs| - 1];
    if i == |xs| - 1 {
      assert xs[..i] == init;
    } else {
      FoldAt(env, init, step, s, i);
      assert init[..i] == xs[..i] && init[i] == xs[i];
    }
  }

  /** One step of `FoldInvariant`, on a state given by name. */
  lemma StepKeeps<E, T, U, S>(env: E, x: T, step: (E, T, S) -> (U, S), t: S, inv: S -> bool)
    requires inv(t)
    requires forall x: T, t: S :: inv(t) ==> inv(step(env, x, t).1)
    ensures inv(step(env, x, t).1)
  {
  }

  /** One step of `FoldOutputs`, on a state given by name. */
  lemma StepOutput<E, T, U, S>(env: E, x: T, step: (E, T, S) -> (U, S), t: S, q: U -> bool)
    requires forall x: T, t: S :: q(step(env, x, t).0)
    ensures q(step(env, x, t).0)
  {
  }

  /** A property of the state that every step keeps holds after the loop. */
  lemma {:induction false} FoldInvariant<E, T, U, S>(env: E, xs: seq<T>, step: (E, T, S) -> (U, S), s: S, inv: S -> bool)
    requires inv(s)
    requires forall x: T, t: S :: inv(t) ==> inv(step(env, x, t).1)
    ensures inv(Fold(env, xs, step, s).1)
    decreases |xs|
  {
    if |xs| > 0 {
      var init := xs[..|xs| - 1];
      var p := Fold(env, init, step, s);
      FoldInvariant(env, init, step, s, inv);
      StepKeeps(env, xs[|xs| - 1], step, p.1, inv);
    }
  }

  /** A property that every step's output has, every output of the loop has. */
  lemma {:induction false} FoldOutputs<E, T, U, S>(env: E, xs: seq<T>, step: (E, T, S) -> (U, S), s: S, q: U -> bool)
    requires forall x: T, t: S :: q(step(env, x, t).0)
    ensures forall i :: 0 <= i < |xs| ==> q(Fold(env, xs, step, s).0[i])
    decreases |xs|
  {
    if |xs| > 0 {
      var init := xs[..|xs| - 1];
      var p := Fold(env, init, step, s);
      StepOutput(env, xs[|xs| - 1], step, p.1, q);
      FoldOutputs(env, init, step, s, q);
      assert Fold(env, xs, step, s).0 == p.0 + [step(env, xs[|xs| - 1], p.1).0];
    }
  }
}

=== FILE: text.dfy ===
/** The string primitives the builders rely on: Python's `strip`, `str` on a
    non-negative integer, and `zfill`. */
module Text {

  /** The characters Python's `str.isspace` accepts, which `strip()` removes. */
  const Whitespace: set<char> := {
    '\t', '\n', '\U{000B}', '\U{000C}', '\r', '\U{001C}', '\U{001D}', '\U{001E}', '\U{001F}',
    ' ', '\U{0085}', '\U{00A0}', '\U{1680}',
    '\U{2000}', '\U{2001}', '\U{2002}', '\U{2003}', '\U{2004}', '\U{2005}', '\U{2006}',
    '\U{2007}', '\U{2008}', '\U{2009}', '\U{200A}',
    '\U{2028}', '\U{2029}', '\U{202F}', '\U{205F}', '\U{3000}'
  }

  /** A string is blank when every character is whitespace (the empty string included). */
  ghost predicate IsBlank(s: string) {
    forall i :: 0 <= i < |s| ==> s[i] in Whitespace
  }

  /** Python's `s.lstrip()`. */
  function LStrip(s: string): (r: string)
    ensures |r| <= |s| && r == s[|s| - |r|..]
    ensures forall i :: 0 <= i < |s| - |r| ==> s[i] in Whitespace
    ensures |r| > 0 ==> r[0] !in Whitespace
    decreases |s|
  {
    if |s| > 0 && s[0] in Whitespace then LStrip(s[1..]) else s
  }

  /** Python's `s.rstrip()`. */
  function RStrip(s: string): (r: string)
    ensures |r| <= |s| && r == s[..|r|]
    ensures forall i :: |r| <= i < |s| ==> s[i] in Whitespace
    ensures |r| > 0 ==> r[|r| - 1] !in Whitespace
    decreases |s|
  {
    if |s| > 0 && s[|s| - 1] in Whitespace then RStrip(s[..|s| - 1]) else s
  }

  /** Python's `s.strip()`. */
  function Strip(s: string): string {
    RStrip(LStrip(s))
  }

  /** `s.strip() != ""` holds exactly when `s` is not blank. */
  lemma StripNonEmptyIffNotBlank(s: string)
    ensures Strip(s) != "" <==> !IsBlank(s)
  {
  }

  /** The `s.rstrip().lstrip() != ""` spelling used for subject headings agrees with `strip`. */
  lemma RStripLStripNonEmptyIffNotBlank(s: string)
    ensures LStrip(RStrip(s)) != "" <==> !IsBlank(s)
  {
  }

  predicate IsDigit(c: char) {
    '0' <= c <= '9'
  }

  predicate AllDigits(s: string) {
    forall i :: 0 <= i < |s| ==> IsDigit(s[i])
  }

  function DigitChar(d: nat): (c: char)
    requires d < 10
    ensures IsDigit(c)
  {
    "0123456789"[d]
  }

  function DigitValue(c: char): (d: nat)
    requires IsDigit(c)
    ensures d < 10
  {
    (c as int - '0' as int) as nat
  }

  /** Python's `str(n)` for a non-negative integer: its decimal digits. */
  function NatToString(n: nat): (r: string)
    ensures |r| >= 1 && AllDigits(r)
    ensures r[0] == '0' ==> n == 0
    decreases n
  {
    if n < 10 then [DigitChar(n)] else NatToString(n / 10) + [DigitChar(n % 10)]
  }

  /** The value of a string of decimal digits (Python's `int(s)` on such a string). */
  function ParseDecimal(s: string): nat
    requires AllDigits(s)
    decreases |s|
  {
    if |s| == 0 then 0 else 10 * ParseDecimal(s[..|s| - 1]) + DigitValue(s[|s| - 1])
  }

  /** `int(str(n)) == n`: the decimal form loses nothing. */
  lemma {:induction false} ParseNatToString(n: nat)
    ensures ParseDecimal(NatToString(n)) == n
    decreases n
  {
    var s := NatToString(n);
    if n < 10 {
      assert s[..|s| - 1] == [];
    } else {
      assert s[..|s| - 1] == NatToString(n / 10);
      ParseNatToString(n / 10);
    }
  }

  /** Distinct numbers have distinct decimal forms. */
  lemma NatToStringInjective(a: nat, b: nat)
    ensures NatToString(a) == NatToString(b) ==> a == b
  {
    ParseNatToString(a);
    ParseNatToString(b);
  }

  /** A prefix followed by a number's decimal form determines the number. */
  lemma PrefixedNumberInjective(prefix: string, a: nat, b: nat)
    ensures prefix + NatToString(a) == prefix + NatToString(b) ==> a == b
  {
    if prefix + NatToString(a) == prefix + NatToString(b) {
      assert (prefix + NatToString(a))[|prefix|..] == NatToString(a);
      assert (prefix + NatToString(b))[|prefix|..] == NatToString(b);
      NatToStringInjective(a, b);
    }
  }

  /** Python's `s.zfill(width)` for a string without a leading sign: pad on the
      left with '0' up to `width` characters. */
  function ZFill(s: string, width: nat): (r: string)
    ensures |r| == if |s| >= width then |s| else width
    ensures r[|r| - |s|..] == s
    ensures forall i :: 0 <= i < |r| - |s| ==> r[i] == '0'
  {
    if |s| >= width then s else seq(width - |s|, _ => '0') + s
  }

  /** Leading zeros do not change the value of a decimal string. */
  lemma {:induction false} LeadingZerosValue(z: string, s: string)
    requires forall i :: 0 <= i < |z| ==> z[i] == '0'
    requires AllDigits(s)
    ensures AllDigits(z + s) && ParseDecimal(z + s) == ParseDecimal(s)
    decreases |s|, |z|
  {
    if |s| == 0 {
      assert z + s == z;
      if |z| > 0 {
        LeadingZerosValue(z[..|z| - 1], s);
        assert z[..|z| - 1] + s == z[..|z| - 1];
      }
    } else {
      assert (z + s)[..|z + s| - 1] == z + s[..|s| - 1];
      LeadingZerosValue(z, s[..|s| - 1]);
    }
  }

  /** `int(str(n).zfill(w)) == n`, and the padded form is exactly `w` digits
      long, or as long as `str(n)` when that is longer. */
  lemma ZFillNatValue(n: nat, width: nat)
    ensures AllDigits(ZFill(NatToString(n), width))
    ensures |ZFill(NatToString(n), width)| == if |NatToString(n)| >= width then |NatToString(n)| else width
    ensures ParseDecimal(ZFill(NatToString(n), width)) == n
  {
    var s := NatToString(n);
    var r := ZFill(s, width);
    var z := r[..|r| - |s|];
    assert r == z + s;
    LeadingZerosValue(z, s);
    ParseNatToString(n);
  }
}

=== FILE: utils.dfy ===
/** `jatsgenerator/utils.py`: wrapping content in an opening and closing tag. */
module Utils {
  import opened Seqs

  /** `tag_wrap(tag, content)`: the content between `<tag>` and `</tag>`, unescaped. */
  function TagWrap(tag: string, content: string): (r: string)
    ensures |r| == 2 * |tag| + |content| + 5
    ensures r[..|tag| + 2] == "<" + tag + ">"
    ensures r[|r| - (|tag| + 3)..] == "</" + tag + ">"
    ensures r[|tag| + 2..|r| - (|tag| + 3)] == content
  {
    var open := "<" + tag + ">";
    var close := "</" + tag + ">";
    var r := open + content + close;
    assert r[..|open|] == open;
    assert r[|open|..|r| - |close|] == content;
    assert r[|r| - |close|..] == close;
    r
  }

  /** The inverse of `TagWrap`: the content of `s` when it is wrapped in `tag`. */
  function Unwrap(tag: string, s: string): (r: Option<string>)
    ensures r.Some? ==> |s| == 2 * |tag| + |r.value| + 5
  {
    var open := "<" + tag + ">";
    var close := "</" + tag + ">";
    if |s| >= |open| + |close| && s[..|open|] == open && s[|s| - |close|..] == close
    then Some(s[|open|..|s| - |close|])
    else None
  }

  /** Wrapping then unwrapping gives back the content, whatever it contains. */
  lemma UnwrapTagWrap(tag: string, content: string)
    ensures Unwrap(tag, TagWrap(tag, content)) == Some(content)
  {
  }

  /** Every string that unwraps is exactly the wrapping of what it unwraps to. */
  lemma TagWrapUnwrap(tag: string, s: string)
    ensures Unwrap(tag, s).Some? ==> TagWrap(tag, Unwrap(tag, s).value) == s
  {
    if Unwrap(tag, s).Some? {
      var open := "<" + tag + ">";
      var close := "</" + tag + ">";
      var c := s[|open|..|s| - |close|];
      assert s == s[..|open|] + c + s[|s| - |close|..];
    }
  }
}

=== FILE: xml.dfy ===
/** The slice of ElementTree the builders use: an element with a tag, ordered
    attributes, text, tail and ordered children, grown by appending. */
module Xml {
  import opened Seqs

  datatype Attribute = Attribute(name: string, value: string)

  /** An element. `text` and `tail` are "" where ElementTree would hold `None`;
      both serialise the same. */
  datatype Node = Node(tag: string, attrs: seq<Attribute>, text: string, tail: string, children: seq<Node>)

  /** `Element(tag)`: no attributes, no text, no children. */
  function Element(tag: string): Node {
    Node(tag, [], "", "", [])
  }

  /** An element holding only text. */
  function Leaf(tag: string, text: string): Node {
    Node(tag, [], text, "", [])
  }

  /** `element.set(name, value)`. Every builder sets each attribute name at most
      once, so appending gives ElementTree's attribute order. */
  function WithAttr(n: Node, name: string, value: string): (r: Node)
    ensures forall other :: GetAttr(r, other) == if other == name then Some(value) else GetAttr(n, other)
    ensures r.tag == n.tag && r.children == n.children && r.text == n.text && r.tail == n.tail
  {
    n.(attrs := n.attrs + [Attribute(name, value)])
  }

  /** `SubElement(parent, child.tag)` followed by filling the child in. */
  function Append(parent: Node, child: Node): (r: Node)
    ensures |r.children| == |parent.children| + 1 && r.children[|parent.children|] == child
    ensures r.children[..|parent.children|] == parent.children
    ensures r.tag == parent.tag && r.attrs == parent.attrs && r.text == parent.text && r.tail == parent.tail
    ensures forall tag :: ChildText(r, tag) == if child.tag == tag then Some(child.text) else ChildText(parent, tag)
    ensures forall tag :: CountTag(r.children, tag) == CountTag(parent.children, tag) + (if child.tag == tag then 1 else 0)
  {
    var ch := parent.children + [child];
    assert ch[..|ch| - 1] == parent.children;
    assert forall tag :: LastText(ch, tag) == if child.tag == tag then Some(child.text) else LastText(parent.children, tag);
    assert forall tag :: CountTag(ch, tag) == CountTag(parent.children, tag) + (if child.tag == tag then 1 else 0);
    parent.(children := ch)
  }

  /** The value of attribute `name` (the most recently set one), if any. */
  function GetAttr(n: Node, name: string): Option<string> {
    LookupAttr(n.attrs, name)
  }

  function LookupAttr(attrs: seq<Attribute>, name: string): (r: Option<string>)
    ensures r.Some? ==> Attribute(name, r.value) in attrs
    ensures r.None? <==> forall i :: 0 <= i < |attrs| ==> attrs[i].name != name
    decreases |attrs|
  {
    if |attrs| == 0 then None
    else if attrs[|attrs| - 1].name == name then Some(attrs[|attrs| - 1].value)
    else LookupAttr(attrs[..|attrs| - 1], name)
  }

  /** Number of nodes in `ns` with the given tag. */
  function CountTag(ns: seq<Node>, tag: string): nat
    decreases |ns|
  {
    if |ns| == 0 then 0
    else CountTag(ns[..|ns| - 1], tag) + (if ns[|ns| - 1].tag == tag then 1 else 0)
  }

  lemma {:induction false} CountTagAppend(a: seq<Node>, b: seq<Node>, tag: string)
    ensures CountTag(a + b, tag) == CountTag(a, tag) + CountTag(b, tag)
    decreases |b|
  {
    if |b| > 0 {
      assert (a + b)[..|a + b| - 1] == a + b[..|b| - 1];
      CountTagAppend(a, b[..|b| - 1], tag);
    } else {
      assert a + b == a;
    }
  }

  lemma CountTagSingleton(n: Node, tag: string)
    ensures CountTag([n], tag) == if n.tag == tag then 1 else 0
  {
    assert [n][..0] == [];
  }

  /** Counting over nodes that all carry one tag. */
  lemma {:induction false} CountTagUniform(ns: seq<Node>, t: string, tag: string)
    requires forall i :: 0 <= i < |ns| ==> ns[i].tag == t
    ensures CountTag(ns, tag) == if t == tag then |ns| else 0
    decreases |ns|
  {
    if |ns| > 0 {
      CountTagUniform(ns[..|ns| - 1], t, tag);
    }
  }

  /** The text of the last child with the given tag, if any. */
  function ChildText(n: Node, tag: string): Option<string> {
    LastText(n.children, tag)
  }

  function LastText(ns: seq<Node>, tag: string): Option<string>
    decreases |ns|
  {
    if |ns| == 0 then None
    else if ns[|ns| - 1].tag == tag then Some(ns[|ns| - 1].text)
    else LastText(ns[..|ns| - 1], tag)
  }

  /** `utils.append_to_tag(parent, tag, text)`: appends one `tag` element holding
      `text` to `parent` and returns `parent`. The markup re-parsing it performs
      is not modelled: the text is carried over verbatim. */
  function AppendToTag(parent: Node, tag: string, text: string): (r: Node)
    ensures |r.children| == |parent.children| + 1
    ensures r.children[|parent.children|] == Leaf(tag, text)
    ensures r.tag == parent.tag && r.attrs == parent.attrs
  {
    Append(parent, Leaf(tag, text))
  }

  /** The tags of a sequence of nodes. */
  function Tags(ns: seq<Node>): (r: seq<string>)
    ensures |r| == |ns| && forall i :: 0 <= i < |ns| ==> r[i] == ns[i].tag
  {
    seq(|ns|, i requires 0 <= i < |ns| => ns[i].tag)
  }

  /** Tags distribute over concatenation. */
  lemma TagsAppend(x: seq<Node>, y: seq<Node>)
    ensures Tags(x + y) == Tags(x) + Tags(y)
  {
  }

  /** The tags of a part that is empty or holds one node. */
  lemma OptionalTags(p: seq<Node>, cond: bool, tag: string)
    requires |p| == (if cond then 1 else 0) && (cond ==> p[0].tag == tag)
    ensures Tags(p) == if cond then [tag] else []
  {
  }
}
